=== FILE: README.md ===
# Desktop pet: a Dafny model of its core

This project models the core of a PyQt desktop pet. The pet is an animated
window that can:

- walk, jump and return to the screen;
- answer chat messages through one of two language-model backends (the
  Xunfei Spark websocket API or the OpenRouter HTTP API, chosen in a
  selector dialog);
- keep a clipboard history, notes, a clock and countdown label, an
  application launcher and a small web browser;
- hide to the tray and come back with its settings restored.

Each Python source file is one Dafny module, in a file of the same name.
`common.dfy` holds the shared pieces:

- `Option`, `Result`, and `FileRead`, the outcome of reading a configuration
  file: absent, unreadable, or read.
- Python's `str.strip` (with the whitespace set of `str.isspace`) and
  `str.lower` (ASCII letters).
- Decimal digits, including the `:02d` format.
- Code-point string order, with `sorted(set(...))`.

The model takes the form of the source:

- Objects whose methods update their attributes are classes with those
  attributes as fields: `XunfeiHandler`, `OpenRouterHandler`, `Selector`,
  `Clipboard`, `Animator`, `AnimationPool`, `TimeDisplay`, `AppLauncher`,
  `Notes`, `ChatInput`, `Browser` and `Pet`.
- Each method's `ensures` relates the new value of every field it may
  change to the old state. A pet method that drives the animator or the
  time display states that object's whole new state through its
  `Snapshot()`, as `Stopped`, `Played` or `MadeVisible` of the old one.
- The pure logic is functions: history capping, the websocket event fold,
  the model-list filter, clamping, the countdown text, URL normalisation,
  the category index and the menus. Lemmas about those functions prove the
  properties the code relies on.

Dialog answers, random choices, clock readings, file contents and network
replies are parameters. The files a method writes are fields or return
values.

Where the program's documented behaviour and its code disagree, the
model follows the code:

- `api_handler2.py` defines `validate_config` twice. The later definition
  (line 53) is the one in effect. It only asks for a non-empty key and
  model; the 20-character key check of lines 20-29 is shadowed.
  `get_response` never calls it.
- `load_apps` reads `app_config['path']` inside its loop. The first entry
  without a path raises `KeyError`; the outer `except` then ends loading,
  and the entries before it stay registered.
- `add_item` never checks for duplicates. The index still files each path
  once per category.
- `load_default_page` loads the saved default address without adding a
  scheme. `set_default_url` saves the address bar's text as typed.
- `_start_return_animation` sets the animating flag and mouse transparency
  before drawing the safe position. When the screen is too small, the draw
  raises and both stay set.
- `mouseReleaseEvent` clears the animator's flag itself before stopping
  the animations.
- `__init__` sets `animations_enabled` to `True` after the fallback circle
  has set it to `False`, so it always starts `True`.
- `pet_input.py` defines `adjust_window_size` twice. The later one
  (line 111) is in effect.
- `pet_animations.py` defines `_get_safe_position` and
  `_stop_current_animations` twice. The later ones (lines 483 and 492) are
  in effect.
- `_process_chat` turns animations off for the request, so the bounce
  animation `show_response` asks for never runs.

## Model

| member | source | states |
|---|---|---|
| ApiSelector.Lookup | api_handler2.py:43-45 | `config.get(key, "")`: the stored value when the key is present, the empty string otherwise |
| ApiSelector.InitialHistory | api_selector.py:54-56 | a new handler's history is the system prompt alone |
| ApiSelector.DefaultConfigPath | api_selector.py:52-53 | the configuration path is `config/` plus the given file name, or `config_<type>.json` when none (or an empty one) is given |
| ApiSelector.ProvidersAreTheTwoBackends | api_selector.py:8-11 | the selector offers exactly the keys `api_handler` and `api_handler2`, in that order |
| ApiSelector.PreselectedIndex | api_selector.py:26-29 | the combo starts on the remembered provider when one is remembered and known, otherwise on the first entry |
| ApiSelector.FindData | api_selector.py:27 | `findData` lands on an entry carrying the key when one exists, and otherwise falls back to index 0 |
| ApiSelector.Selector.constructor | api_selector.py:6-12 | nothing is remembered at start |
| ApiSelector.Selector.ShowSelectionDialog | api_selector.py:14-43 | a cancelled dialog returns nothing and keeps the memory; an accepted one returns the chosen provider key (the preselected one unless the user moved) and remembers it |
| ApiHandler.ValidateConfig | api_handler.py:71-72 | the configuration is valid iff key, secret and app id are all non-empty |
| ApiHandler.ConfigData | api_handler.py:64-69 | the saved record has exactly the keys `api_key`, `api_secret` and `app_id` |
| ApiHandler.ConfigRoundTrip | api_handler.py:47-69 | saving the configuration and reading it back with `get(key, "")` gives the same three fields |
| ApiHandler.MissingKeyInvalid | api_handler.py:59-72 | a record lacking any of the three keys never validates |
| ApiHandler.AppendCapped | api_handler.py:125-127 | after the user message is appended, a history longer than five becomes its first message plus the last four; the new message is last, and a short history is just extended |
| ApiHandler.RequestBody | api_handler.py:100-107 | the request sent on open carries the app id, uid "123", domain "lite", 512 max tokens and the whole history |
| ApiHandler.OnEvent | api_handler.py:94-117 | an error frame replaces the answer with the API error and closes; a good frame appends its content and closes iff its status is 2; a transport error replaces the answer and closes |
| ApiHandler.Run | api_handler.py:109-117 | the socket loop hands events to the handler until it closes; a stream still open afterwards was open before, every event was a good non-final frame, and the answer grew by exactly their contents |
| ApiHandler.RunContinuing | api_handler.py:109-117 | frames that neither fail nor finish only append their contents in order |
| ApiHandler.RunClosed | api_handler.py:113-117 | once the socket is closed, later events change nothing |
| ApiHandler.RunToTerminal | api_handler.py:109-117 | good frames ending in a status-2 frame yield the concatenation of all their contents, closed |
| ApiHandler.RunToError | api_handler.py:111-113 | an error frame after good frames leaves only the error message |
| ApiHandler.HelloExchange | api_handler.py:109-117 | the frames "Hel" (status 1) and "lo" (status 2) give "Hello" |
| ApiHandler.XunfeiHandler.constructor | api_handler.py:15-33 | empty fields and the initial history, then the stored record when the file could be read |
| ApiHandler.XunfeiHandler.LoadConfig | api_handler.py:35-45 | a read file sets the three fields from the record; a missing or unreadable one changes nothing |
| ApiHandler.XunfeiHandler.UpdateConfig | api_handler.py:59-62 | the fields become the record's values with empty defaults |
| ApiHandler.XunfeiHandler.OnError | api_handler.py:94-95 | the answer becomes the transport error text |
| ApiHandler.XunfeiHandler.OnMessage | api_handler.py:109-117 | the answer and the close decision are those of `OnEvent` |
| ApiHandler.XunfeiHandler.RunForever | api_handler.py:130-137 | the answer is the event fold over the socket's events |
| ApiHandler.XunfeiHandler.GetResponse | api_handler.py:119-142 | an invalid configuration raises before anything changes; otherwise the capped history is sent, and a non-empty answer is appended and returned while an empty one raises "no response" |
| ApiHandler.HistoryStaysBounded | api_handler.py:125-140 | over any number of exchanges the history keeps the system prompt first and never exceeds six messages |
| ApiHandler2.ValidateConfig | api_handler2.py:53-54 | valid iff key and model are non-empty (the definition in effect) |
| ApiHandler2.ConfigData | api_handler2.py:47-51 | the saved record has exactly the keys `api_key` and `model` |
| ApiHandler2.ConfigRoundTrip | api_handler2.py:43-51 | saving and reading back gives the same key and model |
| ApiHandler2.IsChatModel | api_handler2.py:71-73 | the comprehension's condition: "chat" in the lowered description, or "gpt" or "claude" in the lowered id; what it selects is stated by `FilterModelsMembers` |
| ApiHandler2.FilterModels | api_handler2.py:69-74 | the comprehension keeps at most one id per entry |
| ApiHandler2.FilterModelsMembers | api_handler2.py:69-74 | an id is listed iff some entry with that id has "chat" in its lower-cased description or "gpt"/"claude" in its lower-cased id |
| ApiHandler2.FilterModelsAppend | api_handler2.py:69-74 | the filter works entry by entry, so it keeps the reply's order |
| ApiHandler2.ListModels | api_handler2.py:56-78 | a failed request, a non-200 status, or an entry the comprehension cannot read gives `[]`; otherwise the filtered ids of `data` |
| ApiHandler2.OpenRouterHandler.constructor | api_handler2.py:8-18 | the base history, then the configuration read from `openrouter.json` when it could be read |
| ApiHandler2.OpenRouterHandler.LoadConfig | api_handler2.py:31-41 | a read file sets key and model; otherwise nothing changes |
| ApiHandler2.OpenRouterHandler.UpdateConfig | api_handler2.py:43-45 | key and model become the record's values with empty defaults |
| ApiHandler2.OpenRouterHandler.GetResponse | api_handler2.py:80-109 | the user message is appended without any configuration check or truncation and sent with the model; a reply is appended and returned, and a failure raises "API错误: ..." with only the user message kept |
| PetClipboard.IndexOf | pet_clipboard.py:65-66 | the first position of the text, or the length when absent |
| PetClipboard.RemoveFirst | pet_clipboard.py:65-66 | `list.remove` makes a history holding the text one shorter and leaves a history without it unchanged |
| PetClipboard.RemoveFirstPositions | pet_clipboard.py:65-66 | the entries before the first copy keep their places and the later ones move up by one |
| PetClipboard.RemoveFirstMultiset | pet_clipboard.py:65-66 | exactly one copy of the text is removed: the multiset of entries loses that text once |
| PetClipboard.RemoveFirstNoDup | pet_clipboard.py:65-66 | from a duplicate-free history, removing the text leaves no copy of it and no duplicate |
| PetClipboard.Added | pet_clipboard.py:59-78 | empty text changes nothing; otherwise the text goes first, followed by a prefix of the history with its earlier copy removed, and the length is one more than that history, capped at ten; nothing new appears |
| PetClipboard.AddedNoDup | pet_clipboard.py:59-72 | a duplicate-free history stays duplicate-free |
| PetClipboard.AddedKeepsRecent | pet_clipboard.py:64-72 | every entry among the first nine survives an addition |
| PetClipboard.AfterClipboardChange | pet_clipboard.py:48-57 | the stripped text is added unless it is empty or already the newest entry |
| PetClipboard.ClipboardChangeIdempotent | pet_clipboard.py:51-53 | the same clipboard content seen twice is recorded once |
| PetClipboard.Truncated | pet_clipboard.py:93-94 | text longer than n becomes its first n characters plus "..." |
| PetClipboard.ItemLabel | pet_clipboard.py:112-113 | a numbered label is the 1-based decimal index, ". ", and the item truncated to the given width |
| PetClipboard.CurrentLabel | pet_clipboard.py:88-94 | the label reads "(无法访问剪贴板)" when the clipboard cannot be read, "(空)" when it is empty, and the text truncated to 20 characters otherwise |
| PetClipboard.HistoryMenu | pet_clipboard.py:112-113 | one numbered label per entry among the first ten |
| PetClipboard.Clipboard.constructor | pet_clipboard.py:6-15 | the history is the file's list, or empty |
| PetClipboard.Clipboard.LoadHistory | pet_clipboard.py:29-37 | a read file replaces the history; otherwise it is kept |
| PetClipboard.Clipboard.AddToHistory | pet_clipboard.py:59-78 | the history becomes `Added(old, text)` |
| PetClipboard.Clipboard.OnClipboardChange | pet_clipboard.py:48-57 | the history becomes `AfterClipboardChange(old, clip)` |
| PetClipboard.Clipboard.ManageHistory | pet_clipboard.py:141-156 | a chosen row is removed and the others keep their order; no choice changes nothing |
| PetClipboard.Clipboard.ClearHistory | pet_clipboard.py:158-168 | only a confirmed clear empties the history |
| PetClipboard.Clipboard.ManageLabels | pet_clipboard.py:143-144 | one label per entry, truncated to 30 characters |
| PetTimeDisplay.CountdownText | pet_time_display.py:107-108 | the label starts with the countdown prefix and has room for `mm:ss` |
| PetTimeDisplay.CountdownTextRoundTrip | pet_time_display.py:107-108 | below 100 minutes the label shows exactly the remaining seconds |
| PetTimeDisplay.LabelPosition | pet_time_display.py:159-170 | the label is centred above the pet (to within a pixel) and 5 pixels above it |
| PetTimeDisplay.ParseBool | pet_time_display.py:189 | `getboolean` accepts 1/yes/true/on and 0/no/false/off in any case |
| PetTimeDisplay.BoolText | pet_time_display.py:200 | `str(bool)` is "True" exactly for true and "False" exactly for false |
| PetTimeDisplay.BoolTextRoundTrip | pet_time_display.py:189-199 | what `save_state` writes is read back as the same flag |
| PetTimeDisplay.LoadedEnabled | pet_time_display.py:181-192 | no file or no section keeps the flag; a file that cannot be parsed clears it; a section sets it from `enabled` (false when missing or not a boolean) |
| PetTimeDisplay.TimeDisplay.constructor | pet_time_display.py:5-29 | disabled, no countdown, hidden label |
| PetTimeDisplay.TimeDisplay.UpdateTime | pet_time_display.py:85-91 | the clock is written only when enabled and no countdown runs |
| PetTimeDisplay.TimeDisplay.UpdateCountdown | pet_time_display.py:103-145 | a tick decrements and shows the time, blue in the last ten seconds and white before them; at zero the timer stops and the red "finished" text shows |
| PetTimeDisplay.TimeDisplay.StartCountdown | pet_time_display.py:93-101 | a positive number of minutes restarts the countdown from minutes*60 with the first tick done, blue if that is within the last ten seconds and white otherwise; zero or fewer minutes ends it at once with the red "finished" text; either way the timer is left running |
| PetTimeDisplay.TimeDisplay.RestoreNormalDisplay | pet_time_display.py:147-157 | the style returns to white unconditionally and the clock is rewritten when enabled and idle; the display stays consistent whenever a running countdown is outside its last ten seconds, as any countdown started in the three seconds after a finish is |
| PetTimeDisplay.TimeDisplay.SaveState | pet_time_display.py:194-204 | the INI file holds `[TimeDisplay] enabled = True/False` |
| PetTimeDisplay.TimeDisplay.LoadState | pet_time_display.py:181-192 | the flag becomes `LoadedEnabled` of the file |
| PetTimeDisplay.TimeDisplay.SetVisible | pet_time_display.py:73-83 | the flag and label follow `visible`, the clock is shown, the state is saved |
| PetTimeDisplay.SaveLoadRoundTrip | pet_time_display.py:181-204 | saving and loading the flag restores it |
| PetAnimations.IsInScreen | pet_animations.py:501-510 | on a screen larger than the margins, the pet is inside iff it lies within the screen shrunk by 20 pixels |
| PetAnimations.SafeRange | pet_animations.py:483-490 | the safe position is drawn from [50, W-w-50] x [50, H-h-50], and exists iff both ranges are non-empty |
| PetAnimations.SafePositionInScreen | pet_animations.py:483-510 | any safe position puts the pet inside the screen check |
| PetAnimations.WalkMove | pet_animations.py:209-229 | one move of 50-150 pixels in the walk's direction and at most 20 up or down |
| PetAnimations.JumpMove | pet_animations.py:253-290 | up 100 pixels and back to the start, the two halves lasting the jump's duration |
| PetAnimations.ReturnMove | pet_animations.py:441-475 | an instant move from the current to the safe position, then the return callback |
| PetAnimations.Animator.constructor | pet_animations.py:18-26 | idle, no animations, a random direction |
| PetAnimations.Animator.Play | pet_animations.py:41-60 | a loaded movie becomes current and runs; otherwise the old one is stopped |
| PetAnimations.Animator.Stop | pet_animations.py:492-499 | every animation is dropped, the flag cleared and the mouse enabled |
| PetAnimations.Animator.Walk | pet_animations.py:209-251 | the direction is set, the walk or phone-walk movie plays, and one walk move is added |
| PetAnimations.Animator.JumpAnimation | pet_animations.py:253-290 | refused while animating or disabled; otherwise the flag is set and the jump is added |
| PetAnimations.Animator.TouchAnimation | pet_animations.py:292-298 | sets the flag and shows the movie but adds no animation |
| PetAnimations.Animator.RandomAnimation | pet_animations.py:398-411 | when idle and enabled, leftovers are cleared and the chosen walk, phone walk or jump starts with its movie; otherwise nothing changes |
| PetAnimations.Animator.StartReturn | pet_animations.py:441-475 | the flag and transparency are set first; with a safe range the return move is added, otherwise the draw fails |
| PetAnimations.Animator.AnimationFinished | pet_animations.py:365-376 | the flag clears; a pet inside the screen goes idle with the mouse enabled, one outside starts the return |
| PetAnimations.Animator.ReturnCompleted | pet_animations.py:477-481 | flag and transparency clear and the idle movie plays |
| PetAnimations.Animator.HandleClickInterrupt | pet_animations.py:378-383 | only an animation in progress with the pet on screen is stopped |
| PetAnimations.AnimationPool.constructor | pet_animations.py:519-521 | empty pool, no active objects |
| PetAnimations.AnimationPool.GetAnimation | pet_animations.py:523-533 | the last released object of the type is reused, else a new one is created; it becomes active |
| PetAnimations.AnimationPool.ReleaseAnimation | pet_animations.py:535-539 | only an active object is taken back, onto its type's stack |
| PetAnimations.AnimationPool.Cleanup | pet_animations.py:541-545 | the pool is emptied |
| AppOpen.BasenameIsLastComponent | app_open.py:186 | `os.path.basename` is the path's last component: a '/'-free suffix preceded by '/' |
| AppOpen.Basename | app_open.py:182-185 | `os.path.basename` on '/'-separated paths: the text after the last '/'; that it is the last component is stated by `BasenameIsLastComponent` |
| AppOpen.Stem | app_open.py:182 | `splitext(...)[0]` is a prefix of the name, cut at a dot, and the name itself when it has no dot |
| AppOpen.UpdateCategoryFiles | app_open.py:212-221 | the category key is added and the others are untouched; afterwards the path is filed, either unchanged when it already was or appended |
| AppOpen.UpdateCategory | app_open.py:212-221 | `update_category` on the category dict; what it changes is stated by `UpdateCategoryFiles` |
| AppOpen.Index | app_open.py:212-221 | the dict that `update_category` builds from empty over the entries in order; its keys, lists and uniqueness are stated by `IndexKeys`, `IndexEntries`, `IndexUnique`, `IndexFiled` and `IndexSound` |
| AppOpen.IndexKeys | app_open.py:212-221 | the index's keys are exactly the categories in use |
| AppOpen.IndexEntries | app_open.py:212-221 | each list holds registered entries of its own category |
| AppOpen.IndexUnique | app_open.py:219-221 | no list holds a path twice |
| AppOpen.IndexFiled | app_open.py:212-221 | every registered entry's path is filed under its category |
| AppOpen.IndexSound | app_open.py:212-221 | the index rebuilt from a list is a sound index of it: its keys, entries, uniqueness and coverage together |
| AppOpen.DuplicateNotIndexedTwice | app_open.py:115-116 | adding an entry whose path is already filed in its category leaves the index unchanged |
| AppOpen.MakeApp | app_open.py:181-188 | the loaded entry uses the stem of the base name, category "其他" and no script flag as defaults |
| AppOpen.FirstMissing | app_open.py:179-180 | the first entry without a path, where loading stops |
| AppOpen.Kept | app_open.py:179-190 | only entries whose path exists are kept |
| AppOpen.Loaded | app_open.py:173-192 | `load_apps` appends at most as many entries as precede the first one without a path, and only entries whose path exists |
| AppOpen.SavedConfig | app_open.py:194-210 | name, path, category and script flag of every entry, in order |
| AppOpen.SaveLoadRoundTrip | app_open.py:173-210 | saving and loading again gives back the same entries when their paths still exist |
| AppOpen.KeptRoundTrip | app_open.py:179-210 | reading back the saved records of entries whose files exist gives the same entries |
| AppOpen.CategoryCombo | app_open.py:72-75 | the categories in use, sorted and without repeats |
| AppOpen.ComboIsIndexKeys | app_open.py:72-75 | the combo lists exactly the index's keys |
| AppOpen.SplitMembers | app_open.py:261-268 | each part holds exactly the category's entries with that script flag |
| AppOpen.Split | app_open.py:261-268 | a part is no longer than the category's list; its members are stated by `SplitMembers` |
| AppOpen.SplitPartition | app_open.py:261-268 | every entry lands in exactly one part |
| AppOpen.SplitAppend | app_open.py:261-268 | the split keeps the category's order |
| AppOpen.Groups | app_open.py:259-272 | each submenu is a visited category with its non-empty part, and every such category gets one |
| AppOpen.GroupsSorted | app_open.py:259 | submenus come in sorted category order |
| AppOpen.BuildMenu | app_open.py:232-272 | the placeholder menu appears iff nothing is registered |
| AppOpen.MenuSorted | app_open.py:245-272 | both parts of a non-empty menu are in sorted category order |
| AppOpen.MenuShowsIndex | app_open.py:259-272 | every filed entry appears in its category's submenu on the side its script flag selects |
| AppOpen.GroupsShow | app_open.py:259-272 | an entry of a visited category shows up in that category's submenu on its own side |
| AppOpen.AppLauncher.constructor | app_open.py:164-171 | the registry is what `load_apps` loads, with a matching index |
| AppOpen.AppLauncher.UpdateCategoryOf | app_open.py:212-221 | the index becomes `UpdateCategory(old, entry)` |
| AppOpen.AppLauncher.Append | app_open.py:189-190 | the entry is appended and the index stays the one rebuilt from the list |
| AppOpen.AppLauncher.LoadApps | app_open.py:173-192 | appends exactly `Loaded(file)`, stopping at the first entry without a path, and keeps the index consistent |
| AppOpen.AppLauncher.LoadEntry | app_open.py:179-190 | one loop step: the entry is appended iff its file exists, and the index stays consistent |
| AppOpen.AppLauncher.RebuildCategories | app_open.py:279-281 | the index is rebuilt from the list |
| AppOpen.AppLauncher.AddItem | app_open.py:77-118 | a chosen file with a name and a category is appended; any cancelled step changes nothing |
| AppOpen.AppLauncher.DeleteSelected | app_open.py:120-161 | a confirmed delete removes the first entry with the selected path and rebuilds the index; anything else changes nothing |
| AppOpen.AppLauncher.ShowConfigDialog | app_open.py:274-282 | on acceptance the index is rebuilt (unchanged) and the configuration written |
| AppOpen.AppLauncher.Menu | app_open.py:232-272 | the menu is built from the current registry and index |
| PetNotes.Put | pet_notes.py:65 | `notes[k] = v`: k maps to v, other titles are unchanged, an existing title keeps its place and a new one goes last, and titles stay distinct |
| PetNotes.Find | pet_notes.py:41 | `note_key in self.notes`: the first position with the title, every earlier one differing, or the length when absent |
| PetNotes.Get | pet_notes.py:41-42 | `notes.get(k)` is None iff no pair has title k; otherwise (k, value) is a pair of the dict, and the only one with that title when titles are distinct |
| PetNotes.FromPairs | pet_notes.py:18 | a loaded dictionary has distinct titles |
| PetNotes.SaveLoadRoundTrip | pet_notes.py:13-29 | what `save_notes` writes loads back as the same dictionary |
| PetNotes.NotesMenu | pet_notes.py:71-96 | "new note" first, then one edit entry per title in order and "delete all", the last two only when there are notes |
| PetNotes.TargetTitle | pet_notes.py:58-63 | an existing note keeps its title; a new note needs a non-empty typed title |
| PetNotes.Notes.constructor | pet_notes.py:5-11 | the notes are the file's dictionary, or empty |
| PetNotes.Notes.LoadNotes | pet_notes.py:13-21 | no file keeps the notes, an unreadable one empties them, a read one replaces them |
| PetNotes.Notes.SaveNotes | pet_notes.py:23-29 | the file holds the notes |
| PetNotes.Notes.InitialText | pet_notes.py:41-42 | an existing note opens with its text, anything else empty |
| PetNotes.Notes.ShowNoteDialog | pet_notes.py:31-69 | the stripped text is stored under the target title and saved only when accepted, non-empty and titled |
| PetNotes.Notes.ClearAllNotes | pet_notes.py:98-107 | Yes empties the notes and removes the file |
| PetNotes.Notes.Menu | pet_notes.py:71-96 | the menu for the current notes |
| PetInput.Block | pet_input.py:109 | one entry's block is its role, ": ", its text and a blank line |
| PetInput.TranscriptText | pet_input.py:107-109 | the file text is the entries' blocks in order; stated by `TranscriptTextAppend` and `TranscriptTextLength` |
| PetInput.TranscriptTextAppend | pet_input.py:107-109 | the text of a longer conversation extends the text of its beginning |
| PetInput.TranscriptTextLength | pet_input.py:107-109 | the file's length is the sum of the entries' role and text lengths plus four each |
| PetInput.WindowHeight | pet_input.py:111-117 | the image height alone with both boxes hidden; plus both boxes and two gaps with both shown |
| PetInput.ChatInput.constructor | pet_input.py:5-11 | no transcript, no identifier, both boxes hidden |
| PetInput.ChatInput.AdjustWindowSize | pet_input.py:111-117 | the height follows the visible boxes and the width is at least 200 |
| PetInput.ChatInput.ShowInput | pet_input.py:62-65 | the input box shows and the window fits |
| PetInput.ChatInput.HideInput | pet_input.py:67-70 | both boxes hide and the window shrinks to the image |
| PetInput.ChatInput.ToggleInput | pet_input.py:56-60 | the input box flips; hiding also hides the response |
| PetInput.ChatInput.AddUserInput | pet_input.py:85-90 | the user line is appended and an unset identifier becomes the current time |
| PetInput.ChatInput.ShowResponse | pet_input.py:72-83 | the reply shows and is appended and the identifier is set if unset; `saved` is the text `save_conversation` would write for the whole transcript |
| PetInput.ChatInput.SaveConversation | pet_input.py:92-109 | nothing for an empty transcript, otherwise every entry's block in order |
| EnglishPage.Normalize | english_page.py:76-82 | an address with an http or https scheme is kept; any other gets "https://" in front; the result always has a scheme |
| EnglishPage.NormalizeIdempotent | english_page.py:79-80 | normalising twice is normalising once |
| EnglishPage.UpperCaseSchemePrefixed | english_page.py:79 | the scheme test is case-sensitive: "HTTP://x" gets a second scheme |
| EnglishPage.LoadedDefault | english_page.py:58-70 | the file's `default_url` when present; otherwise the current default, also on a read error |
| EnglishPage.ExternalTarget | english_page.py:108-115 | the stripped address is opened iff it is non-empty |
| EnglishPage.Browser.constructor | english_page.py:5-20 | the fallback default, then the saved one, loaded and shown |
| EnglishPage.Browser.LoadDefaultPage | english_page.py:58-74 | the default address is loaded and shown as it is |
| EnglishPage.Browser.LoadUrl | english_page.py:76-82 | the bar's address is normalised, loaded and written back |
| EnglishPage.Browser.SetDefaultUrl | english_page.py:84-94 | a non-empty bar is saved as `{"default_url": ...}`; an empty one writes nothing |
| EnglishPage.SavedDefaultReloads | english_page.py:58-94 | an address loaded and saved as default opens again at the next start, with its scheme |
| DesktopPet.Clamp | desktop_pet.py:766-767 | `max(20, min(p, bound))` is at least the margin, at most the bound when the bound allows, and p itself when inside |
| DesktopPet.EnsureInScreen | desktop_pet.py:763-768 | both coordinates land inside the screen less the margins when it is large enough; an inside position is kept |
| DesktopPet.EnsureInScreenIdempotent | desktop_pet.py:763-768 | clamping a clamped position changes nothing |
| DesktopPet.ClampIdempotent | desktop_pet.py:766-767 | clamping one coordinate twice is clamping it once |
| DesktopPet.BubblePosition | desktop_pet.py:751-761 | the bubble is centred on the window, 10 above it, but never within 10 of the screen top |
| DesktopPet.Pet.constructor | desktop_pet.py:38-111 | idle, animations and rest reminder on, greeting timer running, visible and active, nothing saved |
| DesktopPet.Pet.RandomAnimation | desktop_pet.py:215-218 | the animator is asked only when the pet is idle and animations are enabled; a busy animator keeps its animation, and a free one starts the chosen walk or jump with its movie, animating exactly for a jump |
| DesktopPet.Pet.MousePress | desktop_pet.py:228-239 | a left press starts a drag in the clicked state; it interrupts an on-screen animation (no animations left, the mouse no longer ignored, the idle movie) and otherwise leaves the animator as it was |
| DesktopPet.Pet.MouseRelease | desktop_pet.py:248-262 | a left release ends the drag, stops all animations (the movie is kept), returns to idle and schedules the animator's random animation (`followUp`); any other button changes nothing |
| DesktopPet.Pet.AfterRelease | desktop_pet.py:260 | the scheduled call runs the animator's `random_animation` without the pet's IDLE test: with animations on and nothing running, the chosen walk or jump starts with its movie; otherwise the animator is unchanged |
| DesktopPet.PressDuringFollowUp | desktop_pet.py:228-262 | a press within the 300 ms still gets a jump started by the earlier release, while the pet is being dragged |
| DesktopPet.Pet.MouseDoubleClick | desktop_pet.py:273-301 | a double click on the image flips the animation switch and the input box; switching off stops the animations and plays "shake", switching on plays "idle" |
| DesktopPet.Pet.ToggleAnimations | desktop_pet.py:642-667 | the switch and its timer follow `checked`; switching off stops every animation, switching on plays the idle movie |
| DesktopPet.Pet.SetRestReminder | desktop_pet.py:424-429 | the reminder state and its timer follow `on` |
| DesktopPet.Pet.SetGreetingTimer | desktop_pet.py:720-730 | the greeting timer runs iff `on` |
| DesktopPet.Pet.SaveCurrentStates | desktop_pet.py:847-855 | the four switches are recorded |
| DesktopPet.Pet.RestoreSavedStates | desktop_pet.py:857-880 | nothing before the first save; otherwise the recorded switches are re-applied to the pet, the animator and the clock |
| DesktopPet.Pet.SetPetActive | desktop_pet.py:956-986 | pausing stops the movie, the animation, rest and greeting timers and hides the clock; resuming restarts the movie and animation timer, the rest timer only when the reminder is on, the greeting timer only if it was still running, and shows the clock |
| DesktopPet.Pet.ToggleVisibility | desktop_pet.py:923-936 | hiding records the switches and deactivates (the movie, if there is one, paused and the clock hidden); showing reactivates and re-applies them, or keeps the current switches when none were recorded |
| DesktopPet.Pet.ProcessChat | desktop_pet.py:602-635 | animations are off during the request and restored after (stopped, then the idle movie); only a non-empty reply reaches the chat box |
| DesktopPet.Pet.HandleInput | desktop_pet.py:303-309 | a non-empty line is recorded and sent, with the same effects as `ProcessChat` on the pet, the animator and the chat box; an empty one changes nothing |
| DesktopPet.HideShowRestores | desktop_pet.py:923-936 | hiding and showing again leaves the pet visible and active, with the animation switch, the rest reminder, the greeting timer and the clock as before |
| Common.Strip | pet_clipboard.py:51 | `str.strip()` is the infix left after removing the whitespace in front and behind: it neither starts nor ends with whitespace, everything cut off is whitespace, and it is empty iff the text is all whitespace |
| Common.IsSpace | pet_clipboard.py:51 | the characters `str.isspace` accepts: space, tab to carriage return, the four separators 0x1C-0x1F, and the Unicode spaces and line separators; used by `Strip` |
| Common.Contains | api_handler2.py:71-73 | `sub in s` holds iff `sub` occurs at some position of `s` |
| Common.DecimalString | pet_time_display.py:108 | the decimal text of a number is non-empty, all digits, one digit exactly below 10 and two from 10 to 99 |
| Common.Lower | api_handler2.py:71-73 | `str.lower()` keeps the length and lowers each character |
| Common.Pad2 | pet_time_display.py:108 | `:02d` gives digits only, exactly two below 100, and reads back as the number |
| Common.DecimalRoundTrip | pet_time_display.py:108 | the decimal text of a number reads back as the number |
| Common.SortDistinct | app_open.py:74 | `sorted(set(xs))` is strictly sorted and holds exactly the elements of xs |
| Common.StrictlySortedUnique | app_open.py:74 | a strictly sorted list is determined by its elements |

## Left out

- Qt widgets, painting, layouts, icons, cursors, tooltips, tray icon, style sheets beyond the three countdown colours, and window opacity (floating point) are not modelled.
- Websocket threads, the `ThreadPoolExecutor`, the 15-second timeout and HTTP transport are not modelled. Replies and socket events are parameters.
- `create_url` is not modelled, because its HMAC-SHA256 signature, base64 and HTTP date have no counterpart here.
- File I/O is not modelled. Reads are `FileRead` parameters and writes are fields or results. JSON and INI parsing is taken as already done.
- `_teleport_to_random_position`, `_check_boundary`, `_handle_boundary` and `_get_valid_position_range` are left out. They read `self.margin`, which is never set, so they cannot run.
- `request_animation` and `AnimationPool` wiring are left out, because nothing in the running program calls them with working arguments. The pool itself is modelled.
- `_bounce_back_animation`, `_fade_and_reappear` and `_check_visible_area` are left out, because no path of the running program reaches them.
- The pet's own `_smooth_return` and `_stop_current_animations` (desktop_pet.py:770-835) are not modelled, because the pet calls the animator's versions.
- `show_normal_animation` (desktop_pet.py:783), called from `set_thinking_state` on every chat, only clears a style sheet, which is Qt presentation. `reset_animation_system` (desktop_pet.py:837-844) clears the animator's flag, stops its animations, clears the window's movie, reloads the animations and plays idle, but nothing in the program calls it, so it is never reached. Neither is modelled.
- `relax` is not modelled, because it reads `is_rest_reminder_active`, which is never initialised.
- `check_api_key`, `_load_models`, `setup_api_handler`, `select_api_provider` and `show_api_tooltip` are dialog glue and are not modelled.
- The QSettings `save_settings`/`load_settings` are not modelled.
- `launch_app`, `launch_script`, `get_app_icon` and the web view's back, forward and refresh are process launching and Qt navigation, so they are not modelled.
- `show_error` is not modelled: desktop_pet.py calls it but never defines it. An empty or failed reply therefore ends in the outer `except`. `DesktopPet.Pet.ProcessChat` states only what survives that: the animation switch is restored and the chat box is untouched.
- `PetInput.ChatInput.SaveConversation`: states the text the file would hold. The call `datetime.now()` on the imported module (pet_input.py:103) fails before anything is written, and the file name and timestamp are left out.
- `PetInput.ChatInput.ShowResponse`: the failing save means the real `show_response` raises right after the reply is appended. The model returns the text the save would write instead of that exception.
- `PetAnimations.SafePositionInScreen`: proved only for a screen whose available area starts at the origin, because `_get_safe_position` ignores the screen's offset.
- `PetTimeDisplay.CountdownTextRoundTrip`: proved only below 100 minutes, where the minutes fit the two digits of `:02d`.
- `PetClipboard.Clipboard.OnClipboardChange`: the one-second retry after a failed clipboard read (pet_clipboard.py:54-57) is not modelled. The clipboard text is a parameter, so a failed read does not occur in the model.
- `DesktopPet.Pet.SetRestReminder`: covers `_enable_rest_reminder` (desktop_pet.py:424-429) and `_disable_rest_reminder` (467-470) together.
- `Common.Lower`: lowers ASCII letters only. Unicode case mapping is not modelled.
- Paths are POSIX strings with '/' separators. Windows separators are not modelled.
- `load_state` is not called by `PetTimeDisplay.__init__`. The model keeps it as a separate method and does not call it at start-up.

=== FILE: api_handler.dfy ===
/**
 * The signed-WebSocket chat backend ("xunfei"): its three-field configuration,
 * the capped conversation history, and the accumulator that turns the frames
 * the server streams back into one answer.
 *
 * The socket itself is not modelled: the frames the server would deliver (and a
 * transport error, if one happens) are given to `GetResponse` as a sequence of
 * events, already decoded from JSON.
 */
module ApiHandler {
  import opened Common
  import opened ApiSelector

  const ApiType: string := "xunfei"
  const ConfigFile: string := "config/xunfei.json"
  const Domain: string := "lite"
  const MaxTokens: nat := 512
  const Uid: string := "123"
  /** After the user message is appended, a longer history is cut back to this length. */
  const HistoryCap: nat := 5
  const ConfigInvalidError: string := "请先设置完整的API配置"
  const NoResponseError: string := "未能获取响应"
  const ApiErrorPrefix: string := "API错误: "
  const TransportErrorPrefix: string := "错误: "

  // ---------------------------------------------------------------------
  // Configuration
  // ---------------------------------------------------------------------

  datatype XunfeiConfig = XunfeiConfig(apiKey: string, apiSecret: string, appId: string)

  /** `validate_config`: `all([api_key, api_secret, app_id])`. */
  function ValidateConfig(c: XunfeiConfig): (ok: bool)
    ensures ok <==> c.apiKey != "" && c.apiSecret != "" && c.appId != ""
  {
    var fields := [c.apiKey, c.apiSecret, c.appId];
    assert fields[0] == c.apiKey && fields[1] == c.apiSecret && fields[2] == c.appId;
    AllTruthy(fields)
  }

  /** `_get_config_data`: the record `save_config` writes. */
  function ConfigData(c: XunfeiConfig): (m: ConfigRecord)
    ensures m.Keys == {"api_key", "api_secret", "app_id"}
  {
    map["api_key" := c.apiKey, "api_secret" := c.apiSecret, "app_id" := c.appId]
  }

  /** `_update_config` / `load_config`: each field read with `get(key, "")`. */
  function FromRecord(m: ConfigRecord): XunfeiConfig
  {
    XunfeiConfig(Lookup(m, "api_key"), Lookup(m, "api_secret"), Lookup(m, "app_id"))
  }

  /** Saving and reading back the record leaves the three fields as they were. */
  lemma ConfigRoundTrip(c: XunfeiConfig)
    ensures FromRecord(ConfigData(c)) == c
  {
  }

  /** Keys the record lacks read as empty, so such a record never validates. */
  lemma MissingKeyInvalid(m: ConfigRecord)
    requires "api_key" !in m || "api_secret" !in m || "app_id" !in m
    ensures !ValidateConfig(FromRecord(m))
  {
  }

  // ---------------------------------------------------------------------
  // History bookkeeping
  // ---------------------------------------------------------------------

  /** Append `m`; if the history is then longer than five, keep its first
      element and its last four. */
  function AppendCapped(h: seq<Message>, m: Message): (r: seq<Message>)
    ensures |r| == if |h| + 1 > HistoryCap then HistoryCap else |h| + 1
    ensures |h| > 0 ==> r[0] == h[0]
    ensures r[|r| - 1] == m
    ensures |h| + 1 > HistoryCap ==> r[1..] == (h + [m])[|h| + 1 - (HistoryCap - 1)..]
    ensures |h| + 1 <= HistoryCap ==> r == h + [m]
  {
    var grown := h + [m];
    if |grown| > HistoryCap then [grown[0]] + grown[|grown| - 4..] else grown
  }

  /** The message sent when the socket opens. */
  datatype SparkRequest = SparkRequest(appId: string, uid: string, domain: string, maxTokens: nat, text: seq<Message>)

  function RequestBody(c: XunfeiConfig, history: seq<Message>): (q: SparkRequest)
    ensures q.text == history && q.appId == c.appId
    ensures q.uid == Uid && q.domain == Domain && q.maxTokens == MaxTokens
  {
    SparkRequest(c.appId, Uid, Domain, MaxTokens, history)
  }

  // ---------------------------------------------------------------------
  // The streamed answer
  // ---------------------------------------------------------------------

  /** One decoded server frame: `header.code`, `header.message`,
      `payload.choices.status` and `payload.choices.text[0].content`. */
  datatype Frame = Frame(code: int, message: string, status: int, content: string)

  /** What the socket delivers to the handler: a frame (`on_message`) or a
      transport error (`on_error`), after which the socket is finished. */
  datatype SocketEvent = Received(frame: Frame) | Failed(error: string)

  /** The accumulated answer and whether the socket has been closed. */
  datatype Stream = Stream(answer: string, closed: bool)

  /** `on_message` and `on_error` on the current answer. */
  function OnEvent(answer: string, e: SocketEvent): (s: Stream)
    ensures e.Received? && e.frame.code != 0 ==> s == Stream(ApiErrorPrefix + e.frame.message, true)
    ensures e.Received? && e.frame.code == 0 ==> s.answer == answer + e.frame.content && (s.closed <==> e.frame.status == 2)
    ensures e.Failed? ==> s == Stream(TransportErrorPrefix + e.error, true)
  {
    match e
    case Received(f) =>
      if f.code != 0 then Stream(ApiErrorPrefix + f.message, true)
      else Stream(answer + f.content, f.status == 2)
    case Failed(err) => Stream(TransportErrorPrefix + err, true)
  }

  /** The socket's event loop: events are handed over until it is closed. */
  function Run(s: Stream, events: seq<SocketEvent>): (r: Stream)
    ensures !r.closed ==> !s.closed && forall i :: 0 <= i < |events| ==> Continues(events[i])
    ensures !r.closed ==> r.answer == s.answer + Contents(events)
    decreases |events|
  {
    if s.closed || events == [] then s else Run(OnEvent(s.answer, events[0]), events[1..])
  }

  /** A frame that neither ends the stream nor reports an error. */
  predicate Continues(e: SocketEvent)
  {
    e.Received? && e.frame.code == 0 && e.frame.status != 2
  }

  /** The contents the frames carry, concatenated in order. */
  function Contents(events: seq<SocketEvent>): string
  {
    if events == [] then ""
    else (if events[0].Received? then events[0].frame.content else "") + Contents(events[1..])
  }

  /** Frames that continue the stream only append their contents, in order. */
  lemma {:induction false} RunContinuing(a: string, pre: seq<SocketEvent>, rest: seq<SocketEvent>)
    requires forall i :: 0 <= i < |pre| ==> Continues(pre[i])
    ensures Run(Stream(a, false), pre + rest) == Run(Stream(a + Contents(pre), false), rest)
    decreases |pre|
  {
    if pre != [] {
      assert (pre + rest)[1..] == pre[1..] + rest;
      RunContinuing(a + pre[0].frame.content, pre[1..], rest);
      assert a + pre[0].frame.content + Contents(pre[1..]) == a + Contents(pre);
    } else {
      assert pre + rest == rest;
      assert a + Contents(pre) == a;
    }
  }

  /** Once closed, later events change nothing. */
  lemma RunClosed(a: string, rest: seq<SocketEvent>)
    ensures Run(Stream(a, true), rest) == Stream(a, true)
  {
  }

  /** A stream of good frames ending in a `status == 2` frame yields all the
      contents and closes the socket; nothing after it is read. */
  lemma RunToTerminal(pre: seq<SocketEvent>, last: Frame, rest: seq<SocketEvent>)
    requires forall i :: 0 <= i < |pre| ==> Continues(pre[i])
    requires last.code == 0 && last.status == 2
    ensures Run(Stream("", false), pre + [Received(last)] + rest) == Stream(Contents(pre) + last.content, true)
  {
    assert pre + [Received(last)] + rest == pre + ([Received(last)] + rest);
    RunContinuing("", pre, [Received(last)] + rest);
    assert "" + Contents(pre) == Contents(pre);
  }

  /** An error frame replaces whatever was accumulated and closes the socket. */
  lemma RunToError(pre: seq<SocketEvent>, bad: Frame, rest: seq<SocketEvent>)
    requires forall i :: 0 <= i < |pre| ==> Continues(pre[i])
    requires bad.code != 0
    ensures Run(Stream("", false), pre + [Received(bad)] + rest) == Stream(ApiErrorPrefix + bad.message, true)
  {
    assert pre + [Received(bad)] + rest == pre + ([Received(bad)] + rest);
    RunContinuing("", pre, [Received(bad)] + rest);
  }

  /** The two-frame exchange: "Hel" (status 1) then "lo" (status 2) gives "Hello". */
  lemma HelloExchange()
    ensures Run(Stream("", false), [Received(Frame(0, "", 1, "Hel")), Received(Frame(0, "", 2, "lo"))])
            == Stream("Hello", true)
  {
    RunToTerminal([Received(Frame(0, "", 1, "Hel"))], Frame(0, "", 2, "lo"), []);
  }

  // ---------------------------------------------------------------------
  // The handler object
  // ---------------------------------------------------------------------

  class XunfeiHandler {
    var apiKey: string
    var apiSecret: string
    var appId: string
    var history: seq<Message>
    var answer: string

    /** The history starts with the system prompt and stays within one
        answer of the cap. */
    ghost predicate Valid()
      reads this
    {
      1 <= |history| <= HistoryCap + 1 && history[0] == Message(System, SystemPrompt)
    }

    function Config(): XunfeiConfig
      reads this
    {
      XunfeiConfig(apiKey, apiSecret, appId)
    }

    /** `__init__`: empty fields, the initial history, then `load_config`. */
    constructor (stored: FileRead<ConfigRecord>)
      ensures Valid() && history == InitialHistory() && answer == ""
      ensures Config() == if stored.Read? then FromRecord(stored.content) else XunfeiConfig("", "", "")
    {
      apiKey, apiSecret, appId := "", "", "";
      history := InitialHistory();
      answer := "";
      new;
      LoadConfig(stored);
    }

    /** `load_config`: a missing or unreadable file leaves the fields as they are. */
    method LoadConfig(stored: FileRead<ConfigRecord>)
      modifies this
      ensures Config() == if stored.Read? then FromRecord(stored.content) else old(Config())
      ensures history == old(history) && answer == old(answer)
    {
      if stored.Read? {
        UpdateConfig(stored.content);
      }
    }

    /** `_update_config`. */
    method UpdateConfig(config: ConfigRecord)
      modifies this
      ensures Config() == FromRecord(config)
      ensures history == old(history) && answer == old(answer)
    {
      apiKey := Lookup(config, "api_key");
      apiSecret := Lookup(config, "api_secret");
      appId := Lookup(config, "app_id");
    }

    /** `on_error`. */
    method OnError(error: string)
      modifies this
      ensures answer == TransportErrorPrefix + error
      ensures Config() == old(Config()) && history == old(history)
    {
      answer := TransportErrorPrefix + error;
    }

    /** `on_message`; `close` tells whether it closed the socket. */
    method OnMessage(f: Frame) returns (close: bool)
      modifies this
      ensures Stream(answer, close) == OnEvent(old(answer), Received(f))
      ensures Config() == old(Config()) && history == old(history)
    {
      if f.code != 0 {
        answer := ApiErrorPrefix + f.message;
        close := true;
      } else {
        answer := answer + f.content;
        close := f.status == 2;
      }
    }

    /** `ws.run_forever()`: hand the events to the callbacks until the socket closes. */
    method RunForever(events: seq<SocketEvent>)
      modifies this
      ensures answer == Run(Stream(old(answer), false), events).answer
      ensures Config() == old(Config()) && history == old(history)
    {
      var closed := false;
      var i := 0;
      while i < |events| && !closed
        invariant 0 <= i <= |events|
        invariant Config() == old(Config()) && history == old(history)
        invariant Run(Stream(answer, closed), events[i..]) == Run(Stream(old(answer), false), events)
        decreases |events| - i
      {
        assert events[i..][1..] == events[i + 1..];
        if events[i].Received? {
          closed := OnMessage(events[i].frame);
        } else {
          OnError(events[i].error);
          closed := true;
        }
        i := i + 1;
      }
    }

    /** `get_response`. Returns the request sent when the socket opened (none
        when the configuration was rejected) and the reply or the raised error. */
    method GetResponse(userInput: string, events: seq<SocketEvent>)
      returns (sent: Option<SparkRequest>, r: Result<string>)
      requires Valid()
      modifies this
      ensures Valid() && Config() == old(Config())
      ensures !ValidateConfig(old(Config())) ==>
                sent == None && r == Err(ConfigInvalidError) &&
                history == old(history) && answer == old(answer)
      ensures ValidateConfig(old(Config())) ==>
                var asked := AppendCapped(old(history), Message(User, userInput));
                var final := Run(Stream("", false), events).answer;
                && sent == Some(RequestBody(old(Config()), asked))
                && answer == final
                && (final != "" ==> r == Ok(final) && history == asked + [Message(Assistant, final)])
                && (final == "" ==> r == Err(NoResponseError) && history == asked)
    {
      if !ValidateConfig(Config()) {
        return None, Err(ConfigInvalidError);
      }
      history := history + [Message(User, userInput)];
      if |history| > HistoryCap {
        history := [history[0]] + history[|history| - 4..];
      }
      answer := "";
      sent := Some(RequestBody(Config(), history));
      RunForever(events);
      if answer != "" {
        history := history + [Message(Assistant, answer)];
        r := Ok(answer);
      } else {
        r := Err(NoResponseError);
      }
    }
  }

  /** Across any number of exchanges the history keeps the system prompt in
      front and never holds more than six messages. */
  lemma HistoryStaysBounded(h: seq<Message>, user: string, reply: string)
    requires 1 <= |h| <= HistoryCap + 1 && h[0] == Message(System, SystemPrompt)
    ensures var next := AppendCapped(h, Message(User, user)) + [Message(Assistant, reply)];
            |next| <= HistoryCap + 1 && next[0] == Message(System, SystemPrompt)
  {
  }
}

=== FILE: api_handler2.dfy ===
/**
 * The HTTP chat backend ("openrouter"): a two-field configuration, an
 * ever-growing conversation history sent whole with every request, and the
 * filter that picks chat-capable models out of the provider's model list.
 *
 * The HTTP exchanges are inputs: `GetResponse` receives the outcome of the
 * POST (the reply text or the text of the exception it raised) and
 * `ListModels` receives the decoded GET reply.
 */
module ApiHandler2 {
  import opened Common
  import opened ApiSelector

  const ApiType: string := "openrouter"
  const ConfigFile: string := "config/openrouter.json"
  const ApiUrl: string := "https://openrouter.ai/api/v1/chat/completions"
  const Temperature: real := 0.7
  const ApiErrorPrefix: string := "API错误: "

  // ---------------------------------------------------------------------
  // Configuration
  // ---------------------------------------------------------------------

  datatype OpenRouterConfig = OpenRouterConfig(apiKey: string, model: string)

  /** The `validate_config` in effect (the later of the two definitions):
      both fields non-empty, whatever their length. */
  function ValidateConfig(c: OpenRouterConfig): (ok: bool)
    ensures ok <==> c.apiKey != "" && c.model != ""
  {
    var fields := [c.apiKey, c.model];
    assert fields[0] == c.apiKey && fields[1] == c.model;
    AllTruthy(fields)
  }

  /** `_get_config_data`. */
  function ConfigData(c: OpenRouterConfig): (m: ConfigRecord)
    ensures m.Keys == {"api_key", "model"}
  {
    map["api_key" := c.apiKey, "model" := c.model]
  }

  /** `_update_config`: each field read with `get(key, "")`. */
  function FromRecord(m: ConfigRecord): OpenRouterConfig
  {
    OpenRouterConfig(Lookup(m, "api_key"), Lookup(m, "model"))
  }

  lemma ConfigRoundTrip(c: OpenRouterConfig)
    ensures FromRecord(ConfigData(c)) == c
  {
  }

  // ---------------------------------------------------------------------
  // The model list
  // ---------------------------------------------------------------------

  /** A JSON member that should hold a string: missing, `null`, or a string. */
  datatype JsonText = Absent | Null | Text(text: string)

  /** One element of the reply's `data` array. A present `id` is a string. */
  datatype ModelEntry = ModelEntry(id: Option<string>, description: JsonText)

  /** The reply body: not a JSON object, or an object with or without `data`. */
  datatype ModelsBody = Malformed | Object(data: Option<seq<ModelEntry>>)

  /** What `requests.get` gives: an exception, or a status and a body. */
  datatype ModelsReply = TransportFailure(error: string) | HttpReply(status: int, body: ModelsBody)

  /** An entry the comprehension can examine without raising: `model["id"]`
      exists and `model.get("description", "")` is not `null`. */
  predicate WellFormed(m: ModelEntry)
  {
    m.id.Some? && !m.description.Null?
  }

  function DescriptionText(m: ModelEntry): string
  {
    if m.description.Text? then m.description.text else ""
  }

  function IdText(m: ModelEntry): string
  {
    if m.id.Some? then m.id.value else ""
  }

  /** The comprehension's condition (on a well-formed entry). */
  predicate IsChatModel(m: ModelEntry)
  {
    Contains(Lower(DescriptionText(m)), "chat")
    || Contains(Lower(IdText(m)), "gpt")
    || Contains(Lower(IdText(m)), "claude")
  }

  /** The ids of the entries that pass the condition, in the list's order. */
  function FilterModels(models: seq<ModelEntry>): (ids: seq<string>)
    requires forall i :: 0 <= i < |models| ==> WellFormed(models[i])
    ensures |ids| <= |models|
  {
    if models == [] then []
    else if IsChatModel(models[0]) then [IdText(models[0])] + FilterModels(models[1..])
    else FilterModels(models[1..])
  }

  /** An entry of `models` that passes the condition and carries id `x`. */
  predicate ChatEntry(models: seq<ModelEntry>, x: string)
  {
    exists i :: 0 <= i < |models| && models[i].id == Some(x) && IsChatModel(models[i])
  }

  /** The filter keeps exactly the ids of the entries that pass the condition. */
  lemma {:induction false} FilterModelsMembers(models: seq<ModelEntry>, x: string)
    requires forall i :: 0 <= i < |models| ==> WellFormed(models[i])
    ensures x in FilterModels(models) <==> ChatEntry(models, x)
  {
    if models != [] {
      FilterModelsMembers(models[1..], x);
      if ChatEntry(models[1..], x) {
        var i :| 0 <= i < |models[1..]| && models[1..][i].id == Some(x) && IsChatModel(models[1..][i]);
        assert models[i + 1] == models[1..][i];
      }
      if ChatEntry(models, x) && !(models[0].id == Some(x) && IsChatModel(models[0])) {
        var i :| 0 <= i < |models| && models[i].id == Some(x) && IsChatModel(models[i]);
        assert models[1..][i - 1] == models[i];
      }
    }
  }

  /** The filter works entry by entry, so it keeps the list's order: filtering
      a concatenation concatenates the filtered parts. */
  lemma {:induction false} FilterModelsAppend(a: seq<ModelEntry>, b: seq<ModelEntry>)
    requires forall i :: 0 <= i < |a| ==> WellFormed(a[i])
    requires forall i :: 0 <= i < |b| ==> WellFormed(b[i])
    ensures forall i :: 0 <= i < |a + b| ==> WellFormed((a + b)[i])
    ensures FilterModels(a + b) == FilterModels(a) + FilterModels(b)
  {
    assert forall i :: 0 <= i < |a + b| ==> WellFormed((a + b)[i]) by {
      forall i | 0 <= i < |a + b| ensures WellFormed((a + b)[i]) {
        if i < |a| { assert (a + b)[i] == a[i]; } else { assert (a + b)[i] == b[i - |a|]; }
      }
    }
    if a == [] {
      assert a + b == b;
    } else {
      assert (a + b)[0] == a[0];
      assert (a + b)[1..] == a[1..] + b;
      FilterModelsAppend(a[1..], b);
    }
  }

  /** `get_available_models`: a non-200 status, a transport failure, a body
      that is not an object or any entry the comprehension trips over all
      end in the `except` branch and give the empty list. */
  function ListModels(reply: ModelsReply): (ids: seq<string>)
    ensures !(reply.HttpReply? && reply.status == 200 && reply.body.Object?) ==> ids == []
    ensures reply.HttpReply? && reply.status == 200 && reply.body.Object? ==>
              var models := if reply.body.data.Some? then reply.body.data.value else [];
              && ((forall i :: 0 <= i < |models| ==> WellFormed(models[i])) ==> ids == FilterModels(models))
              && ((exists i :: 0 <= i < |models| && !WellFormed(models[i])) ==> ids == [])
  {
    if reply.HttpReply? && reply.status == 200 && reply.body.Object? then
      var models := if reply.body.data.Some? then reply.body.data.value else [];
      if forall i :: 0 <= i < |models| ==> WellFormed(models[i]) then FilterModels(models) else []
    else
      []
  }

  // ---------------------------------------------------------------------
  // The handler object
  // ---------------------------------------------------------------------

  /** The JSON body of the chat request. */
  datatype Payload = Payload(model: string, messages: seq<Message>, temperature: real)

  class OpenRouterHandler {
    var apiKey: string
    var model: string
    var history: seq<Message>

    function Config(): OpenRouterConfig
      reads this
    {
      OpenRouterConfig(apiKey, model)
    }

    /** `__init__`: the base constructor's history, then the two fields reset
        to empty and `load_config` from `config/openrouter.json` (what the base
        constructor loaded from its default path is overwritten). */
    constructor (stored: FileRead<ConfigRecord>)
      ensures history == InitialHistory()
      ensures Config() == if stored.Read? then FromRecord(stored.content) else OpenRouterConfig("", "")
    {
      history := InitialHistory();
      apiKey, model := "", "";
      new;
      LoadConfig(stored);
    }

    /** `load_config`: a missing or unreadable file changes nothing. */
    method LoadConfig(stored: FileRead<ConfigRecord>)
      modifies this
      ensures Config() == if stored.Read? then FromRecord(stored.content) else old(Config())
      ensures history == old(history)
    {
      if stored.Read? {
        UpdateConfig(stored.content);
      }
    }

    /** `_update_config`. */
    method UpdateConfig(config: ConfigRecord)
      modifies this
      ensures Config() == FromRecord(config)
      ensures history == old(history)
    {
      apiKey := Lookup(config, "api_key");
      model := Lookup(config, "model");
    }

    /** `get_response`. `reply` is the outcome of the POST: the assistant's
        content, or the text of the exception raised on the way to it. No
        configuration check is made and the history is never truncated. */
    method GetResponse(userInput: string, reply: Result<string>) returns (sent: Payload, r: Result<string>)
      modifies this
      ensures Config() == old(Config())
      ensures sent.messages == old(history) + [Message(User, userInput)]
      ensures sent.model == old(model) && sent.temperature == Temperature
      ensures reply.Ok? ==> r == Ok(reply.value)
                            && history == old(history) + [Message(User, userInput), Message(Assistant, reply.value)]
      ensures reply.Err? ==> r == Err(ApiErrorPrefix + reply.error)
                             && history == old(history) + [Message(User, userInput)]
    {
      history := history + [Message(User, userInput)];
      sent := Payload(model, history, Temperature);
      if reply.Ok? {
        history := history + [Message(Assistant, reply.value)];
        r := Ok(reply.value);
      } else {
        r := Err(ApiErrorPrefix + reply.error);
      }
    }
  }
}

=== FILE: api_selector.dfy ===
/**
 * The provider selector and what every chat backend shares: the role-tagged
 * message, the system prompt a new conversation starts with, the default
 * configuration path and the config record read with `dict.get(key, "")`.
 */
module ApiSelector {
  import opened Common

  datatype Role = System | User | Assistant

  datatype Message = Message(role: Role, content: string)

  const SystemPrompt: string := "你是一个可爱的桌面宠物助手，回答要简短有趣。"

  /** A provider's configuration as a decoded JSON object of strings. */
  type ConfigRecord = map<string, string>

  /** `config.get(key, "")`. */
  function Lookup(config: ConfigRecord, key: string): (v: string)
    ensures key in config ==> v == config[key]
    ensures key !in config ==> v == ""
  {
    if key in config then config[key] else ""
  }

  /** The history a new handler starts with: the system prompt alone. */
  function InitialHistory(): (h: seq<Message>)
    ensures |h| == 1 && h[0].role == System && h[0].content == SystemPrompt
  {
    [Message(System, SystemPrompt)]
  }

  /** `Path("config") / (config_file or f"config_{API_TYPE}.json")`, written with `/`
      as the separator. An empty file name counts as absent, as `or` makes it. */
  function DefaultConfigPath(apiType: string, configFile: Option<string>): (p: string)
    ensures configFile.Some? && configFile.value != "" ==> p == "config/" + configFile.value
    ensures (configFile.None? || configFile.value == "") ==> p == "config/config_" + apiType + ".json"
  {
    var name := if configFile.Some? && configFile.value != "" then configFile.value
                else "config_" + apiType + ".json";
    "config/" + name
  }

  /** The combo box entries: display name and provider key, in insertion order. */
  const Providers: seq<(string, string)> := [("讯飞星火Lite", "api_handler"), ("OpenRouter", "api_handler2")]

  function ProviderKeys(): (keys: seq<string>)
    ensures |keys| == |Providers|
    ensures forall i :: 0 <= i < |keys| ==> keys[i] == Providers[i].1
  {
    seq(|Providers|, i requires 0 <= i < |Providers| => Providers[i].1)
  }

  /** The selector offers exactly the two backends, under distinct keys. */
  lemma ProvidersAreTheTwoBackends()
    ensures ProviderKeys() == ["api_handler", "api_handler2"]
  {
  }

  /** `combo.findData(last_selected)` applied when `last_selected` is truthy:
      the first row holding that key, or the default row 0 when there is none. */
  function PreselectedIndex(last: Option<string>): (i: nat)
    ensures i < |Providers|
    ensures last.Some? && last.value != "" && last.value in ProviderKeys() ==> Providers[i].1 == last.value
    ensures !(last.Some? && last.value != "" && last.value in ProviderKeys()) ==> i == 0
  {
    if last.Some? && last.value != "" then FindData(last.value, 0) else 0
  }

  function FindData(key: string, from: nat): (i: nat)
    requires from <= |Providers|
    ensures i < |Providers|
    ensures (exists j :: from <= j < |Providers| && Providers[j].1 == key) ==> Providers[i].1 == key
    ensures !(exists j :: from <= j < |Providers| && Providers[j].1 == key) ==> i == 0
    decreases |Providers| - from
  {
    if from == |Providers| then 0
    else if Providers[from].1 == key then from
    else FindData(key, from + 1)
  }

  class Selector {
    var lastSelected: Option<string>

    constructor ()
      ensures lastSelected == None
    {
      lastSelected := None;
    }

    /** `show_selection_dialog`. The dialog's outcome is a parameter: `accepted`
        says whether OK was pressed, `moved` the row the user switched to, if any
        (otherwise the preselected row stays current). */
    method ShowSelectionDialog(accepted: bool, moved: Option<nat>) returns (r: Option<string>)
      requires moved.Some? ==> moved.value < |Providers|
      modifies this
      ensures !accepted ==> r == None && lastSelected == old(lastSelected)
      ensures accepted ==> r.Some? && r.value in ProviderKeys() && lastSelected == r
      ensures accepted && moved.None? ==> r == Some(Providers[PreselectedIndex(old(lastSelected))].1)
      ensures accepted && moved.Some? ==> r == Some(Providers[moved.value].1)
    {
      var current := PreselectedIndex(lastSelected);
      if moved.Some? {
        current := moved.value;
      }
      if accepted {
        lastSelected := Some(Providers[current].1);
        r := lastSelected;
      } else {
        r := None;
      }
    }
  }
}

=== FILE: app_open.dfy ===
/**
 * The application launcher's registry: the list of registered applications
 * and scripts, the index from category to the entries filed under it (no
 * two with the same path), the saved JSON projection, the category list the
 * management dialog offers, and the two-level launcher menu.
 *
 * Paths are POSIX strings; whether a path exists on disk is the set
 * `existing` given to `LoadApps`. Icons, launching processes and the
 * widgets are not modelled.
 */
module AppOpen {
  import opened Common

  const DefaultCategory: string := "其他"

  /** A registered entry (`app_info` without its icon). */
  datatype App = App(name: string, path: string, category: string, filename: string, isScript: bool)

  /** One element of the config file's `apps` list; absent keys are `None`. */
  datatype AppEntry = AppEntry(name: Option<string>, path: Option<string>, category: Option<string>, isScript: Option<bool>)

  /** What `save_config` writes for one entry. */
  datatype SavedApp = SavedApp(name: string, path: string, category: string, isScript: bool)

  // ---------------------------------------------------------------------
  // Path helpers: os.path.basename and the stem of os.path.splitext
  // ---------------------------------------------------------------------

  /** `os.path.basename`: what follows the last '/'. */
  function Basename(p: string): string
  {
    if p == [] then []
    else if p[|p| - 1] == '/' then []
    else Basename(p[..|p| - 1]) + [p[|p| - 1]]
  }

  /** The base name is the path's last component: a suffix of the path
      without '/', preceded by a '/' when it is not the whole path. */
  lemma {:induction false} BasenameIsLastComponent(p: string)
    ensures var b := Basename(p);
            |b| <= |p| && b == p[|p| - |b|..] && '/' !in b && (|b| < |p| ==> p[|p| - |b| - 1] == '/')
  {
    if p != [] && p[|p| - 1] != '/' {
      var q := p[..|p| - 1];
      var c := p[|p| - 1];
      BasenameIsLastComponent(q);
      var b := Basename(q);
      assert Basename(p) == b + [c];
      assert p == q + [c];
      assert q[|q| - |b|..] + [c] == p[|p| - |b| - 1..];
      assert '/' !in b + [c] by {
        forall i | 0 <= i < |b| + 1 ensures (b + [c])[i] != '/' {
          if i < |b| { assert (b + [c])[i] == b[i]; }
        }
      }
      if |b| < |q| {
        assert p[|p| - |b| - 2] == q[|q| - |b| - 1];
      }
    }
  }

  /** Position of the last '.' in `s`, if any. */
  function LastDot(s: string): (d: Option<nat>)
    ensures d.Some? ==> d.value < |s| && s[d.value] == '.' && forall i :: d.value < i < |s| ==> s[i] != '.'
    ensures d.None? ==> '.' !in s
  {
    if s == [] then None
    else if s[|s| - 1] == '.' then Some(|s| - 1)
    else LastDot(s[..|s| - 1])
  }

  /** `os.path.splitext(name)[0]`: the name without its last extension; a
      name whose only dots lead it (".bashrc") has no extension. */
  function Stem(name: string): (r: string)
    ensures r <= name
    ensures r == name || name[|r|] == '.'
    ensures '.' !in name ==> r == name
  {
    var d := LastDot(name);
    if d.Some? && exists i :: 0 <= i < d.value && name[i] != '.' then name[..d.value] else name
  }

  // ---------------------------------------------------------------------
  // The category index
  // ---------------------------------------------------------------------

  /** Some entry of `l` has path `p`. */
  predicate PathIn(l: seq<App>, p: string)
  {
    exists i :: 0 <= i < |l| && l[i].path == p
  }

  /** `update_category`: make sure the category exists, then append the
      entry unless one with the same path is already filed there. */
  function UpdateCategory(cats: map<string, seq<App>>, a: App): map<string, seq<App>>
  {
    var list := if a.category in cats then cats[a.category] else [];
    if PathIn(list, a.path) then cats[a.category := list] else cats[a.category := list + [a]]
  }

  /** Filing adds the entry's category, leaves every other category alone,
      and afterwards the entry's path is filed: unchanged when it already
      was, otherwise the entry is appended to its category's list. */
  lemma UpdateCategoryFiles(cats: map<string, seq<App>>, a: App)
    ensures var r := UpdateCategory(cats, a);
            r.Keys == cats.Keys + {a.category} &&
            (forall c :: c in cats && c != a.category ==> r[c] == cats[c]) &&
            PathIn(r[a.category], a.path) &&
            (a.category in cats && PathIn(cats[a.category], a.path) ==> r[a.category] == cats[a.category]) &&
            (a.category in cats ==> cats[a.category] <= r[a.category]) &&
            (!(a.category in cats && PathIn(cats[a.category], a.path)) ==>
              r[a.category] == (if a.category in cats then cats[a.category] else []) + [a])
  {
    var list := if a.category in cats then cats[a.category] else [];
    assert (list + [a])[|list|].path == a.path;
  }

  /** The index `update_category` builds from an empty dict over `apps` in order. */
  function Index(apps: seq<App>): map<string, seq<App>>
  {
    if apps == [] then map[] else UpdateCategory(Index(apps[..|apps| - 1]), apps[|apps| - 1])
  }

  /** The index's keys are the categories in use. */
  ghost predicate KeysOf(cats: map<string, seq<App>>, apps: seq<App>)
  {
    forall c :: c in cats <==> exists i :: 0 <= i < |apps| && apps[i].category == c
  }

  /** Every list holds entries of its own category taken from `apps`. */
  ghost predicate EntriesFrom(cats: map<string, seq<App>>, apps: seq<App>)
  {
    forall c, j :: c in cats && 0 <= j < |cats[c]| ==> cats[c][j].category == c && cats[c][j] in apps
  }

  /** No list repeats a path. */
  ghost predicate PathsUnique(cats: map<string, seq<App>>)
  {
    forall c, j, k :: c in cats && 0 <= j < k < |cats[c]| ==> cats[c][j].path != cats[c][k].path
  }

  /** Every app's path is filed under its category. */
  ghost predicate AllFiled(cats: map<string, seq<App>>, apps: seq<App>)
  {
    forall i :: 0 <= i < |apps| ==> apps[i].category in cats && PathIn(cats[apps[i].category], apps[i].path)
  }

  /** The index is exactly the apps filed by category, each path once per category. */
  ghost predicate IndexOf(cats: map<string, seq<App>>, apps: seq<App>)
  {
    KeysOf(cats, apps) && EntriesFrom(cats, apps) && PathsUnique(cats) && AllFiled(cats, apps)
  }

  lemma {:induction false} IndexKeys(apps: seq<App>)
    ensures KeysOf(Index(apps), apps)
  {
    if apps != [] {
      var init := apps[..|apps| - 1];
      var a := apps[|apps| - 1];
      IndexKeys(init);
      UpdateCategoryFiles(Index(init), a);
      var r: map<string, seq<App>> := Index(apps);
      forall c ensures c in r <==> exists i :: 0 <= i < |apps| && apps[i].category == c {
        if c in r && c != a.category {
          var i :| 0 <= i < |init| && init[i].category == c;
          assert apps[i] == init[i];
        }
        if exists i :: 0 <= i < |apps| && apps[i].category == c {
          var i :| 0 <= i < |apps| && apps[i].category == c;
          if i < |init| { assert init[i] == apps[i]; }
        }
      }
    }
  }

  lemma {:induction false} IndexEntries(apps: seq<App>)
    ensures EntriesFrom(Index(apps), apps)
  {
    if apps != [] {
      var init := apps[..|apps| - 1];
      var a := apps[|apps| - 1];
      IndexEntries(init);
      UpdateCategoryFiles(Index(init), a);
      var cats: map<string, seq<App>> := Index(init);
      var r: map<string, seq<App>> := Index(apps);
      forall c: string, j: int | c in r && 0 <= j < |r[c]| ensures r[c][j].category == c && r[c][j] in apps {
        if c != a.category {
          assert r[c] == cats[c];
        }
        if c in cats && j < |cats[c]| {
          assert r[c][j] == cats[c][j];
          var x := cats[c][j];
          var k :| 0 <= k < |init| && init[k] == x;
          assert apps[k] == x;
        } else {
          assert r[c][j] == a;
        }
      }
    }
  }

  lemma {:induction false} IndexUnique(apps: seq<App>)
    ensures PathsUnique(Index(apps))
  {
    if apps != [] {
      var init := apps[..|apps| - 1];
      var a := apps[|apps| - 1];
      IndexUnique(init);
      UpdateCategoryFiles(Index(init), a);
      var cats: map<string, seq<App>> := Index(init);
      var r: map<string, seq<App>> := Index(apps);
      forall c: string, j: int, k: int | c in r && 0 <= j < k < |r[c]| ensures r[c][j].path != r[c][k].path {
        if c == a.category && k == |r[c]| - 1 && !(c in cats && PathIn(cats[c], a.path)) {
        } else {
          assert r[c][j] == cats[c][j] && r[c][k] == cats[c][k];
        }
      }
    }
  }

  lemma {:induction false} IndexFiled(apps: seq<App>)
    ensures AllFiled(Index(apps), apps)
  {
    if apps != [] {
      var init := apps[..|apps| - 1];
      var a := apps[|apps| - 1];
      IndexFiled(init);
      UpdateCategoryFiles(Index(init), a);
      var cats: map<string, seq<App>> := Index(init);
      var r: map<string, seq<App>> := Index(apps);
      forall i | 0 <= i < |apps| ensures apps[i].category in r && PathIn(r[apps[i].category], apps[i].path) {
        if i < |init| {
          assert apps[i] == init[i];
          var c := apps[i].category;
          var j :| 0 <= j < |cats[c]| && cats[c][j].path == apps[i].path;
          assert r[c][j] == cats[c][j];
        }
      }
    }
  }

  lemma IndexSound(apps: seq<App>)
    ensures IndexOf(Index(apps), apps)
  {
    IndexKeys(apps);
    IndexEntries(apps);
    IndexUnique(apps);
    IndexFiled(apps);
  }

  /** `add_item` does not check for duplicates, but an entry whose path is
      already filed under its category leaves the index unchanged. */
  lemma DuplicateNotIndexedTwice(apps: seq<App>, a: App)
    requires exists i :: 0 <= i < |apps| && apps[i].path == a.path && apps[i].category == a.category
    ensures Index(apps + [a]) == Index(apps)
  {
    IndexFiled(apps);
    var i :| 0 <= i < |apps| && apps[i].path == a.path && apps[i].category == a.category;
    IndexSnoc(apps, a);
    UpdateFiled(Index(apps), a);
  }

  lemma IndexSnoc(apps: seq<App>, a: App)
    ensures Index(apps + [a]) == UpdateCategory(Index(apps), a)
  {
    assert (apps + [a])[..|apps|] == apps;
  }

  lemma UpdateFiled(cats: map<string, seq<App>>, a: App)
    requires a.category in cats && PathIn(cats[a.category], a.path)
    ensures UpdateCategory(cats, a) == cats
  {
    assert cats[a.category := cats[a.category]] == cats;
  }

  // ---------------------------------------------------------------------
  // Loading and saving
  // ---------------------------------------------------------------------

  /** The entry `load_apps` builds, with its defaults. */
  function MakeApp(e: AppEntry): (a: App)
    requires e.path.Some?
    ensures a.path == e.path.value && a.filename == Basename(e.path.value)
    ensures a.name == if e.name.Some? then e.name.value else Stem(Basename(e.path.value))
    ensures a.category == if e.category.Some? then e.category.value else DefaultCategory
    ensures a.isScript == (e.isScript.Some? && e.isScript.value)
  {
    var p := e.path.value;
    App(if e.name.Some? then e.name.value else Stem(Basename(p)),
        p,
        if e.category.Some? then e.category.value else DefaultCategory,
        Basename(p),
        if e.isScript.Some? then e.isScript.value else false)
  }

  /** The position of the first entry without a path, where `app_config['path']`
      raises and loading stops; `|es|` when every entry has one. */
  function FirstMissing(es: seq<AppEntry>): (k: nat)
    ensures k <= |es|
    ensures forall j :: 0 <= j < k ==> es[j].path.Some?
    ensures k < |es| ==> es[k].path.None?
  {
    if es == [] then 0
    else if es[0].path.None? then 0
    else 1 + FirstMissing(es[1..])
  }

  /** The entries with an existing path, built in order. */
  function Kept(es: seq<AppEntry>, existing: set<string>): (apps: seq<App>)
    requires forall j :: 0 <= j < |es| ==> es[j].path.Some?
    ensures |apps| <= |es|
    ensures forall k :: 0 <= k < |apps| ==> apps[k].path in existing
  {
    if es == [] then []
    else
      var e := es[|es| - 1];
      Kept(es[..|es| - 1], existing) + (if e.path.value in existing then [MakeApp(e)] else [])
  }

  lemma KeptStep(es: seq<AppEntry>, i: nat, existing: set<string>)
    requires i < |es| && forall j :: 0 <= j <= i ==> es[j].path.Some?
    ensures Kept(es[..i + 1], existing) ==
            Kept(es[..i], existing) + (if es[i].path.value in existing then [MakeApp(es[i])] else [])
  {
    assert es[..i + 1][..i] == es[..i];
  }

  /** What `load_apps` appends. */
  function Loaded(es: seq<AppEntry>, existing: set<string>): (apps: seq<App>)
    ensures |apps| <= FirstMissing(es)
    ensures forall k :: 0 <= k < |apps| ==> apps[k].path in existing
  {
    Kept(es[..FirstMissing(es)], existing)
  }

  /** Loading stops at the first entry without a path. */
  lemma LoadedPrefix(es: seq<AppEntry>, i: nat, existing: set<string>)
    requires i <= FirstMissing(es) && (i == |es| || es[i].path.None?)
    ensures Loaded(es, existing) == Kept(es[..i], existing)
  {
    assert i == FirstMissing(es);
  }

  /** `save_config`: name, path, category and script flag of every entry, in order. */
  function SavedConfig(apps: seq<App>): (saved: seq<SavedApp>)
    ensures |saved| == |apps|
    ensures forall i :: 0 <= i < |apps| ==>
              saved[i] == SavedApp(apps[i].name, apps[i].path, apps[i].category, apps[i].isScript)
  {
    seq(|apps|, i requires 0 <= i < |apps| =>
      SavedApp(apps[i].name, apps[i].path, apps[i].category, apps[i].isScript))
  }

  /** The saved file read back as JSON: every key present. */
  function Reread(saved: seq<SavedApp>): (es: seq<AppEntry>)
    ensures |es| == |saved|
    ensures forall i :: 0 <= i < |saved| ==>
              es[i] == AppEntry(Some(saved[i].name), Some(saved[i].path), Some(saved[i].category), Some(saved[i].isScript))
  {
    seq(|saved|, i requires 0 <= i < |saved| =>
      AppEntry(Some(saved[i].name), Some(saved[i].path), Some(saved[i].category), Some(saved[i].isScript)))
  }

  /** Saving and loading again gives back the same entries, provided every
      path still exists. */
  lemma {:induction false} SaveLoadRoundTrip(apps: seq<App>, existing: set<string>)
    requires forall i :: 0 <= i < |apps| ==> apps[i].path in existing && apps[i].filename == Basename(apps[i].path)
    ensures Loaded(Reread(SavedConfig(apps)), existing) == apps
  {
    var es := Reread(SavedConfig(apps));
    assert FirstMissing(es) == |es|;
    assert es[..|es|] == es;
    KeptRoundTrip(apps, existing);
  }

  lemma {:induction false} KeptRoundTrip(apps: seq<App>, existing: set<string>)
    requires forall i :: 0 <= i < |apps| ==> apps[i].path in existing && apps[i].filename == Basename(apps[i].path)
    ensures Kept(Reread(SavedConfig(apps)), existing) == apps
  {
    var es := Reread(SavedConfig(apps));
    if apps != [] {
      var init := apps[..|apps| - 1];
      KeptRoundTrip(init, existing);
      assert es[..|es| - 1] == Reread(SavedConfig(init));
      assert MakeApp(es[|es| - 1]) == apps[|apps| - 1];
      assert init + [apps[|apps| - 1]] == apps;
    }
  }

  // ---------------------------------------------------------------------
  // The category combo and the launcher menu
  // ---------------------------------------------------------------------

  function Categories(apps: seq<App>): (cs: seq<string>)
    ensures |cs| == |apps| && forall i :: 0 <= i < |apps| ==> cs[i] == apps[i].category
  {
    seq(|apps|, i requires 0 <= i < |apps| => apps[i].category)
  }

  /** `sorted({app['category'] for app in apps})`. */
  function CategoryCombo(apps: seq<App>): (cs: seq<string>)
    ensures StrictlySorted(cs)
    ensures forall c :: c in cs <==> exists i :: 0 <= i < |apps| && apps[i].category == c
  {
    var all := Categories(apps);
    var r := SortDistinct(all);
    assert forall c :: c in all <==> exists i :: 0 <= i < |apps| && apps[i].category == c by {
      forall c ensures c in all <==> exists i :: 0 <= i < |apps| && apps[i].category == c {
        if c in all {
          var i :| 0 <= i < |all| && all[i] == c;
          assert apps[i].category == c;
        }
        if exists i :: 0 <= i < |apps| && apps[i].category == c {
          var i :| 0 <= i < |apps| && apps[i].category == c;
          assert all[i] == c;
        }
      }
    }
    r
  }

  /** The combo offers the keys of the index, each once and in order. */
  lemma ComboIsIndexKeys(apps: seq<App>)
    ensures forall c :: c in CategoryCombo(apps) <==> c in Index(apps)
  {
    IndexSound(apps);
  }

  /** The entries of a category that are scripts (or not), in order. */
  function Split(l: seq<App>, script: bool): (r: seq<App>)
    ensures |r| <= |l|
  {
    if l == [] then []
    else if l[0].isScript == script then [l[0]] + Split(l[1..], script)
    else Split(l[1..], script)
  }

  /** A part holds exactly the category's entries with that script flag. */
  lemma {:induction false} SplitMembers(l: seq<App>, script: bool)
    ensures forall x :: x in Split(l, script) <==> x in l && x.isScript == script
  {
    if l != [] {
      SplitMembers(l[1..], script);
      assert l == [l[0]] + l[1..];
    }
  }

  /** Every entry of a category lands in exactly one of the two parts. */
  lemma {:induction false} SplitPartition(l: seq<App>)
    ensures |Split(l, false)| + |Split(l, true)| == |l|
  {
    if l != [] {
      SplitPartition(l[1..]);
    }
  }

  /** The split works entry by entry, so each part keeps the category's order. */
  lemma {:induction false} SplitAppend(a: seq<App>, b: seq<App>, script: bool)
    ensures Split(a + b, script) == Split(a, script) + Split(b, script)
  {
    if a == [] {
      assert a + b == b;
    } else {
      assert (a + b)[0] == a[0];
      assert (a + b)[1..] == a[1..] + b;
      SplitAppend(a[1..], b, script);
    }
  }

  /** A per-category submenu. */
  datatype Group = Group(category: string, entries: seq<App>)

  /** The launcher menu: a placeholder when nothing is registered, otherwise
      the application and script submenus. */
  datatype AppMenu = NoApps | Software(appGroups: seq<Group>, scriptGroups: seq<Group>)

  /** The categories of the submenus, in menu order. This is the shape of
      `Categories` over submenus instead of registered entries; the two stay
      separate first-order functions so that the lemmas about each need no
      higher-order reasoning. */
  function GroupNames(gs: seq<Group>): (names: seq<string>)
    ensures |names| == |gs| && forall i :: 0 <= i < |gs| ==> names[i] == gs[i].category
  {
    seq(|gs|, i requires 0 <= i < |gs| => gs[i].category)
  }

  /** The submenus for one part, visiting `keys` in order and skipping the
      categories whose part is empty. */
  function Groups(keys: seq<string>, cats: map<string, seq<App>>, script: bool): (gs: seq<Group>)
    ensures |gs| <= |keys|
    ensures forall i :: 0 <= i < |gs| ==>
              gs[i].category in keys && gs[i].category in cats &&
              gs[i].entries == Split(cats[gs[i].category], script) && gs[i].entries != []
    ensures forall c :: c in keys && c in cats && Split(cats[c], script) != [] ==> c in GroupNames(gs)
  {
    if keys == [] then []
    else
      var rest := Groups(keys[1..], cats, script);
      var c := keys[0];
      if c in cats && Split(cats[c], script) != [] then
        var g := Group(c, Split(cats[c], script));
        GroupNamesCons(g, rest);
        assert forall i :: 1 <= i < |rest| + 1 ==> ([g] + rest)[i] == rest[i - 1];
        [g] + rest
      else
        rest
  }

  /** The submenus come in the order of the keys. */
  lemma {:induction false} GroupsSorted(keys: seq<string>, cats: map<string, seq<App>>, script: bool)
    requires StrictlySorted(keys)
    ensures StrictlySorted(GroupNames(Groups(keys, cats, script)))
  {
    if keys != [] {
      var rest := Groups(keys[1..], cats, script);
      GroupsSorted(keys[1..], cats, script);
      var c := keys[0];
      if c in cats && Split(cats[c], script) != [] {
        var restNames := GroupNames(rest);
        GroupNamesCons(Group(c, Split(cats[c], script)), rest);
        forall y | y in restNames ensures Less(c, y) {
          var j :| 0 <= j < |restNames| && restNames[j] == y;
          assert y in keys[1..] by { assert rest[j].category in keys[1..]; }
          var k :| 0 <= k < |keys[1..]| && keys[1..][k] == y;
          assert keys[k + 1] == y;
          assert Less(keys[0], keys[k + 1]);
        }
        SortedCons(c, restNames);
      }
    }
  }

  lemma GroupNamesCons(g: Group, gs: seq<Group>)
    ensures GroupNames([g] + gs) == [g.category] + GroupNames(gs)
  {
    assert forall i :: 1 <= i < |gs| + 1 ==> ([g] + gs)[i] == gs[i - 1];
  }

  /** `create_app_menu`, visiting the categories in sorted order. */
  function BuildMenu(apps: seq<App>, cats: map<string, seq<App>>): (m: AppMenu)
    ensures apps == [] <==> m == NoApps
  {
    if apps == [] then NoApps
    else
      var keys := CategoryCombo(apps);
      Software(Groups(keys, cats, false), Groups(keys, cats, true))
  }

  /** A non-empty registry gets the two-part menu, each part's submenus in
      sorted category order. */
  lemma MenuSorted(apps: seq<App>, cats: map<string, seq<App>>)
    requires apps != []
    ensures BuildMenu(apps, cats).Software?
    ensures StrictlySorted(GroupNames(BuildMenu(apps, cats).appGroups))
    ensures StrictlySorted(GroupNames(BuildMenu(apps, cats).scriptGroups))
  {
    GroupsSorted(CategoryCombo(apps), cats, false);
    GroupsSorted(CategoryCombo(apps), cats, true);
  }

  /** An entry of a category among `keys` appears in that category's
      submenu on its own side. */
  lemma GroupsShow(keys: seq<string>, cats: map<string, seq<App>>, c: string, x: App)
    requires c in keys && c in cats && x in cats[c]
    ensures exists k :: 0 <= k < |Groups(keys, cats, x.isScript)| &&
              Groups(keys, cats, x.isScript)[k].category == c && x in Groups(keys, cats, x.isScript)[k].entries
  {
    var gs := Groups(keys, cats, x.isScript);
    SplitMembers(cats[c], x.isScript);
    assert x in Split(cats[c], x.isScript);
    var names := GroupNames(gs);
    assert c in names;
    var k :| 0 <= k < |names| && names[k] == c;
    assert gs[k].category == c;
    assert gs[k].entries == Split(cats[c], x.isScript);
    assert 0 <= k < |gs| && gs[k].category == c && x in gs[k].entries;
  }

  /** When the index's keys are the categories in use, every filed entry
      appears in the submenu of its category, on the side its script flag
      selects. */
  lemma MenuShowsIndex(apps: seq<App>, cats: map<string, seq<App>>, c: string, x: App)
    requires KeysOf(cats, apps)
    requires c in cats && x in cats[c]
    ensures apps != [] && BuildMenu(apps, cats).Software?
    ensures var m := BuildMenu(apps, cats);
            var gs := if x.isScript then m.scriptGroups else m.appGroups;
            exists k :: 0 <= k < |gs| && gs[k].category == c && x in gs[k].entries
  {
    var i :| 0 <= i < |apps| && apps[i].category == c;
    var keys := CategoryCombo(apps);
    assert c in keys;
    GroupsShow(keys, cats, c, x);
  }

  // ---------------------------------------------------------------------
  // The launcher object
  // ---------------------------------------------------------------------

  /** Every entry's file name is its path's base name. */
  ghost predicate NamesMatch(apps: seq<App>)
  {
    forall i :: 0 <= i < |apps| ==> apps[i].filename == Basename(apps[i].path)
  }

  class AppLauncher {
    var apps: seq<App>
    var categories: map<string, seq<App>>

    /** The index is the one rebuilt from the list, and every entry's file
        name is its path's base name. */
    ghost predicate Valid()
      reads this
    {
      categories == Index(apps) && NamesMatch(apps)
    }

    /** `__init__`: an empty registry, then `load_apps`. */
    constructor (stored: FileRead<seq<AppEntry>>, existing: set<string>)
      ensures Valid()
      ensures apps == if stored.Read? then Loaded(stored.content, existing) else []
    {
      apps := [];
      categories := map[];
      new;
      LoadApps(stored, existing);
    }

    /** `update_category`. */
    method UpdateCategoryOf(a: App)
      modifies this
      ensures categories == UpdateCategory(old(categories), a)
      ensures apps == old(apps)
    {
      if a.category !in categories {
        categories := categories[a.category := []];
      }
      if !PathIn(categories[a.category], a.path) {
        categories := categories[a.category := categories[a.category] + [a]];
      }
    }

    /** `apps.append(app_info)` followed by `update_category(app_info)`. */
    method Append(a: App)
      requires Valid() && a.filename == Basename(a.path)
      modifies this
      ensures Valid() && apps == old(apps) + [a]
    {
      ghost var before := apps;
      apps := apps + [a];
      UpdateCategoryOf(a);
      assert apps[..|apps| - 1] == before;
    }

    /** `load_apps`: entries whose path exists are registered in order;
        the first entry without a path raises and ends the loading, keeping
        what was registered before it. */
    method LoadApps(stored: FileRead<seq<AppEntry>>, existing: set<string>)
      requires Valid()
      modifies this
      ensures Valid()
      ensures apps == old(apps) + if stored.Read? then Loaded(stored.content, existing) else []
    {
      if !stored.Read? {
        return;
      }
      var es := stored.content;
      var i := 0;
      while i < |es| && es[i].path.Some?
        invariant 0 <= i <= FirstMissing(es)
        invariant forall j :: 0 <= j < i ==> es[j].path.Some?
        invariant Valid()
        invariant apps == old(apps) + Kept(es[..i], existing)
        decreases |es| - i
      {
        LoadEntry(es, i, existing, old(apps));
        i := i + 1;
      }
      LoadedPrefix(es, i, existing);
    }

    /** One iteration of `load_apps`: entry `i`, whose path is known to be
        there, is registered when its path exists. */
    method LoadEntry(es: seq<AppEntry>, i: nat, existing: set<string>, ghost start: seq<App>)
      requires i < |es| && forall j :: 0 <= j <= i ==> es[j].path.Some?
      requires Valid() && apps == start + Kept(es[..i], existing)
      modifies this
      ensures Valid() && apps == start + Kept(es[..i + 1], existing)
    {
      KeptStep(es, i, existing);
      var e := es[i];
      ghost var added := if e.path.value in existing then [MakeApp(e)] else [];
      assert start + Kept(es[..i + 1], existing) == apps + added;
      if e.path.value in existing {
        Append(MakeApp(e));
      }
    }

    /** `categories = {}` followed by `update_category` for every entry. */
    method RebuildCategories()
      modifies this
      ensures categories == Index(apps) && apps == old(apps)
    {
      categories := map[];
      var i := 0;
      while i < |apps|
        invariant 0 <= i <= |apps|
        invariant categories == Index(apps[..i])
        invariant apps == old(apps)
      {
        assert apps[..i + 1][..i] == apps[..i];
        UpdateCategoryOf(apps[i]);
        i := i + 1;
      }
      assert apps[..i] == apps;
    }

    /** `AppConfigDialog.add_item`: the chosen file, and the name and category
        the two dialogs returned (`None` when cancelled). Nothing is added
        unless all three are non-empty; a path already registered is added again. */
    method AddItem(filePath: string, name: Option<string>, category: Option<string>, isScript: bool)
      requires Valid()
      modifies this
      ensures Valid()
      ensures filePath != "" && name.Some? && name.value != "" && category.Some? && category.value != "" ==>
                apps == old(apps) + [App(name.value, filePath, category.value, Basename(filePath), isScript)]
      ensures !(filePath != "" && name.Some? && name.value != "" && category.Some? && category.value != "") ==>
                apps == old(apps) && categories == old(categories)
    {
      if filePath == "" || name.None? || name.value == "" || category.None? || category.value == "" {
        return;
      }
      Append(App(name.value, filePath, category.value, Basename(filePath), isScript));
    }

    /** `AppConfigDialog.delete_selected`: `selected` is the highlighted
        entry, `confirmed` the answer to the question. The first entry with
        the selected path is removed and the index rebuilt from the rest. */
    method DeleteSelected(selected: Option<App>, confirmed: bool)
      requires Valid()
      modifies this
      ensures Valid()
      ensures selected.None? || !confirmed || !PathIn(old(apps), selected.value.path) ==>
                apps == old(apps) && categories == old(categories)
      ensures selected.Some? && confirmed && PathIn(old(apps), selected.value.path) ==>
                exists k :: 0 <= k < |old(apps)| && old(apps)[k].path == selected.value.path &&
                  (forall j :: 0 <= j < k ==> old(apps)[j].path != selected.value.path) &&
                  apps == old(apps)[..k] + old(apps)[k + 1..]
    {
      if selected.None? {
        return;
      }
      var path := selected.value.path;
      var k := 0;
      while k < |apps| && apps[k].path != path
        invariant 0 <= k <= |apps|
        invariant forall j :: 0 <= j < k ==> apps[j].path != path
      {
        k := k + 1;
      }
      if k == |apps| || !confirmed {
        return;
      }
      apps := apps[..k] + apps[k + 1..];
      assert forall j :: 0 <= j < |apps| ==> apps[j] == old(apps)[if j < k then j else j + 1];
      RebuildCategories();
    }

    /** `show_config_dialog`: on acceptance the index is rebuilt and the
        projection written; returns what was written. */
    method ShowConfigDialog(accepted: bool) returns (written: Option<seq<SavedApp>>)
      requires Valid()
      modifies this
      ensures Valid() && apps == old(apps) && categories == old(categories)
      ensures accepted ==> written == Some(SavedConfig(apps))
      ensures !accepted ==> written == None
    {
      if !accepted {
        return None;
      }
      RebuildCategories();
      written := Some(SavedConfig(apps));
    }

    /** The menu `create_app_menu` shows for the current registry. */
    function Menu(): (m: AppMenu)
      reads this
      ensures m == BuildMenu(apps, categories)
    {
      BuildMenu(apps, categories)
    }
  }
}

=== FILE: common.dfy ===
/**
 * Values and string operations shared by the model of the desktop pet:
 * the Option/Result wrappers that stand for Python's None and raised
 * exceptions, the parts of Python's `str` the application relies on
 * (strip, startswith, `in`, lower, `str(int)` and `%02d`), and the
 * code-point ordering that `sorted` applies to strings.
 */
module Common {

  datatype Option<T> = None | Some(value: T)

  /** A call that either returns a value or raises an exception with a message. */
  datatype Result<T> = Ok(value: T) | Err(error: string)

  /** What reading a JSON/INI file can give: no such file, a read or parse
      error (caught by the caller), or the decoded content. */
  datatype FileRead<T> = NoFile | ReadFailed(error: string) | Read(content: T)

  /** Python's `all([...])` over strings: every element is truthy, i.e. non-empty. */
  function AllTruthy(xs: seq<string>): (b: bool)
    ensures b <==> forall i :: 0 <= i < |xs| ==> xs[i] != []
  {
    if xs == [] then true else xs[0] != [] && AllTruthy(xs[1..])
  }

  // ---------------------------------------------------------------------
  // str.strip()
  // ---------------------------------------------------------------------

  /** The characters Python's `str.isspace()` accepts, which `str.strip()`
      removes: the ASCII whitespace and separators, NEL, no-break space and
      the Unicode space and line/paragraph separators. */
  predicate IsSpace(c: char)
  {
    c == ' ' || '\t' <= c <= '\r' || '\U{001C}' <= c <= '\U{001F}'
    || c == '\U{0085}' || c == '\U{00A0}' || c == '\U{1680}'
    || '\U{2000}' <= c <= '\U{200A}' || c == '\U{2028}' || c == '\U{2029}'
    || c == '\U{202F}' || c == '\U{205F}' || c == '\U{3000}'
  }

  function StripLeft(s: string): (r: string)
    ensures |r| <= |s| && r == s[|s| - |r|..]
    ensures forall i :: 0 <= i < |s| - |r| ==> IsSpace(s[i])
    ensures r == [] || !IsSpace(r[0])
  {
    if |s| > 0 && IsSpace(s[0]) then StripLeft(s[1..]) else s
  }

  function StripRight(s: string): (r: string)
    ensures |r| <= |s| && r == s[..|r|]
    ensures forall i :: |r| <= i < |s| ==> IsSpace(s[i])
    ensures r == [] || !IsSpace(r[|r| - 1])
  {
    if |s| > 0 && IsSpace(s[|s| - 1]) then StripRight(s[..|s| - 1]) else s
  }

  /** `r` is `s` with the `a` whitespace characters in front and the
      whitespace after `a + |r|` removed. */
  predicate TrimmedAt(s: string, r: string, a: nat)
  {
    a + |r| <= |s| && r == s[a..a + |r|] &&
    (forall i :: 0 <= i < a ==> IsSpace(s[i])) &&
    (forall i :: a + |r| <= i < |s| ==> IsSpace(s[i]))
  }

  lemma StripInfix(s: string, l: string, r: string)
    requires |l| <= |s| && l == s[|s| - |l|..] && (forall i :: 0 <= i < |s| - |l| ==> IsSpace(s[i]))
    requires |r| <= |l| && r == l[..|r|] && (forall i :: |r| <= i < |l| ==> IsSpace(l[i]))
    ensures TrimmedAt(s, r, |s| - |l|)
  {
    var a := |s| - |l|;
    assert r == s[a..a + |r|];
    forall i | a + |r| <= i < |s| ensures IsSpace(s[i]) {
      assert s[i] == l[i - a];
    }
  }

  /** `s.strip()`: the longest infix of `s` that neither starts nor ends with whitespace. */
  function Strip(s: string): (r: string)
    ensures |r| <= |s|
    ensures r == [] || (!IsSpace(r[0]) && !IsSpace(r[|r| - 1]))
    ensures r == [] <==> forall i :: 0 <= i < |s| ==> IsSpace(s[i])
    ensures exists a :: TrimmedAt(s, r, a)
  {
    var l := StripLeft(s);
    var r := StripRight(l);
    assert r != [] ==> r[0] == l[0];
    StripInfix(s, l, r);
    r
  }

  // ---------------------------------------------------------------------
  // Substring test (`sub in s`) and ASCII lowering
  // ---------------------------------------------------------------------

  /** `sub in s` for strings: `sub` occurs at some position of `s`. */
  function Contains(s: string, sub: string): (b: bool)
    ensures b <==> exists i :: 0 <= i <= |s| && sub <= s[i..]
  {
    if sub <= s then
      assert sub <= s[0..];
      true
    else if |s| == 0 then
      false
    else
      var b := Contains(s[1..], sub);
      assert forall i :: 1 <= i <= |s| ==> s[i..] == s[1..][i - 1..];
      assert b ==> exists i :: 0 <= i <= |s| && sub <= s[i..] by {
        if b {
          var i :| 0 <= i <= |s| - 1 && sub <= s[1..][i..];
          assert s[1..][i..] == s[i + 1..];
        }
      }
      b
  }

  function LowerChar(c: char): (d: char)
    ensures 'A' <= c <= 'Z' ==> 'a' <= d <= 'z' && d as int == c as int + 32
    ensures !('A' <= c <= 'Z') ==> d == c
  {
    if 'A' <= c <= 'Z' then (c as int + 32) as char else c
  }

  /** `s.lower()` restricted to ASCII letters. */
  function Lower(s: string): (r: string)
    ensures |r| == |s|
    ensures forall i :: 0 <= i < |s| ==> r[i] == LowerChar(s[i])
  {
    if s == [] then [] else [LowerChar(s[0])] + Lower(s[1..])
  }

  // ---------------------------------------------------------------------
  // Decimal rendering: str(n) and the `02d` format
  // ---------------------------------------------------------------------

  predicate IsDigit(c: char) { '0' <= c <= '9' }

  function DigitChar(d: nat): (c: char)
    requires d < 10
    ensures IsDigit(c) && c as int - '0' as int == d
  {
    ('0' as int + d) as char
  }

  /** `str(n)` for a non-negative integer. */
  function DecimalString(n: nat): (s: string)
    ensures |s| >= 1
    ensures forall i :: 0 <= i < |s| ==> IsDigit(s[i])
    ensures n < 10 <==> |s| == 1
    ensures 10 <= n < 100 ==> |s| == 2
  {
    if n < 10 then [DigitChar(n)] else DecimalString(n / 10) + [DigitChar(n % 10)]
  }

  /** The number a string of decimal digits denotes. */
  function DecimalValue(s: string): nat
    requires forall i :: 0 <= i < |s| ==> IsDigit(s[i])
  {
    if s == [] then 0
    else
      assert IsDigit(s[|s| - 1]);
      10 * DecimalValue(s[..|s| - 1]) + (s[|s| - 1] as int - '0' as int)
  }

  /** Reading back what `str(n)` wrote yields `n`. */
  lemma {:induction false} DecimalRoundTrip(n: nat)
    ensures DecimalValue(DecimalString(n)) == n
  {
    var s := DecimalString(n);
    if n >= 10 {
      DecimalRoundTrip(n / 10);
      assert s[..|s| - 1] == DecimalString(n / 10);
    }
  }

  /** `f"{n:02d}"`: at least two digits, zero-padded on the left. */
  function Pad2(n: nat): (s: string)
    ensures |s| >= 2 && (n < 100 <==> |s| == 2)
    ensures forall i :: 0 <= i < |s| ==> IsDigit(s[i])
    ensures DecimalValue(s) == n
  {
    DecimalRoundTrip(n);
    if n < 10 then
      var s := "0" + DecimalString(n);
      assert s[..1] == "0";
      s
    else
      DecimalString(n)
  }

  // ---------------------------------------------------------------------
  // Code-point ordering of strings, as Python's `sorted` uses it
  // ---------------------------------------------------------------------

  /** `a < b` on Python strings: lexicographic on code points, a proper prefix first. */
  predicate Less(a: string, b: string)
  {
    if |a| == 0 then |b| > 0
    else if |b| == 0 then false
    else if a[0] != b[0] then a[0] < b[0]
    else Less(a[1..], b[1..])
  }

  lemma {:induction false} LessIrreflexive(a: string)
    ensures !Less(a, a)
  {
    if |a| > 0 { LessIrreflexive(a[1..]); }
  }

  lemma {:induction false} LessTransitive(a: string, b: string, c: string)
    requires Less(a, b) && Less(b, c)
    ensures Less(a, c)
  {
    if |a| > 0 && |b| > 0 && |c| > 0 && a[0] == b[0] && b[0] == c[0] {
      LessTransitive(a[1..], b[1..], c[1..]);
    }
  }

  lemma {:induction false} LessTotal(a: string, b: string)
    requires a != b
    ensures Less(a, b) || Less(b, a)
  {
    if |a| > 0 && |b| > 0 && a[0] == b[0] {
      assert a == [a[0]] + a[1..] && b == [b[0]] + b[1..];
      LessTotal(a[1..], b[1..]);
    }
  }

  lemma LessAsymmetric(a: string, b: string)
    requires Less(a, b)
    ensures !Less(b, a)
  {
    if Less(b, a) {
      LessTransitive(a, b, a);
      LessIrreflexive(a);
    }
  }

  predicate StrictlySorted(s: seq<string>)
  {
    forall i, j :: 0 <= i < j < |s| ==> Less(s[i], s[j])
  }

  /** A strictly sorted list stays so with a smaller element in front. */
  lemma SortedCons(x: string, s: seq<string>)
    requires StrictlySorted(s) && forall y :: y in s ==> Less(x, y)
    ensures StrictlySorted([x] + s)
  {
    var t := [x] + s;
    forall i, j | 0 <= i < j < |t| ensures Less(t[i], t[j]) {
      assert t[j] == s[j - 1];
      if i > 0 { assert t[i] == s[i - 1]; }
    }
  }

  /** Insert `x` into a strictly sorted list unless it is already there. */
  function Insert(x: string, s: seq<string>): (r: seq<string>)
    requires StrictlySorted(s)
    ensures StrictlySorted(r)
    ensures forall y :: y in r <==> y == x || y in s
  {
    if s == [] then [x]
    else if x == s[0] then s
    else if Less(x, s[0]) then
      assert forall i :: 0 <= i < |s| ==> Less(x, s[i]) by {
        forall i | 0 <= i < |s| ensures Less(x, s[i]) {
          if i > 0 { LessTransitive(x, s[0], s[i]); }
        }
      }
      [x] + s
    else
      LessTotal(x, s[0]);
      var t := Insert(x, s[1..]);
      assert forall y :: y in t ==> Less(s[0], y);
      [s[0]] + t
  }

  /** `sorted(set(xs))`: the distinct elements of `xs` in ascending order. */
  function SortDistinct(xs: seq<string>): (r: seq<string>)
    ensures StrictlySorted(r)
    ensures forall y :: y in r <==> y in xs
  {
    if xs == [] then [] else Insert(xs[0], SortDistinct(xs[1..]))
  }

  /** A strictly sorted list is determined by its elements, so `SortDistinct`
      is the only answer `sorted(set(...))` can give. */
  lemma {:induction false} StrictlySortedUnique(a: seq<string>, b: seq<string>)
    requires StrictlySorted(a) && StrictlySorted(b)
    requires forall y :: y in a <==> y in b
    ensures a == b
  {
    assert a != [] ==> a[0] in b;
    assert b != [] ==> b[0] in a;
    if a != [] || b != [] {
      assert a[0] == b[0] by {
        assert a[0] in a && b[0] in b;
        var j :| 0 <= j < |b| && b[j] == a[0];
        var k :| 0 <= k < |a| && a[k] == b[0];
        if j > 0 && k > 0 { LessAsymmetric(a[0], a[k]); }
      }
      forall y ensures y in a[1..] <==> y in b[1..] {
        if y in a[1..] {
          var i :| 1 <= i < |a| && a[i] == y;
          assert Less(a[0], y);
          LessIrreflexive(y);
          assert y in a;
          var k :| 0 <= k < |b| && b[k] == y;
          assert b[1..][k - 1] == y;
        }
        if y in b[1..] {
          var i :| 1 <= i < |b| && b[i] == y;
          assert Less(b[0], y);
          LessIrreflexive(y);
          assert y in b;
          var k :| 0 <= k < |a| && a[k] == y;
          assert a[1..][k - 1] == y;
        }
      }
      StrictlySortedUnique(a[1..], b[1..]);
    }
  }
}

=== FILE: desktop_pet.dfy ===
/**
 * The pet window itself: its interaction state and the flags and timers it
 * switches on mouse events, on hiding and showing, and around a chat
 * request; the clamp that keeps a position on screen and the placement of
 * the speech bubble.
 *
 * The window owns an `Animator`, a `TimeDisplay` and a `ChatInput` (the
 * objects of the other modules). Timers are flags saying whether they run;
 * the chat backend's outcome and the wall clock are parameters.
 */
module DesktopPet {
  import opened Common
  import opened PetAnimations
  import opened PetTimeDisplay
  import opened PetInput

  /** `_ensure_in_screen`'s margin. */
  const Margin: int := 20
  /** The bubble keeps this distance from the top of the screen. */
  const BubbleTopGap: int := 10
  /** The bubble is anchored this far above the window. */
  const BubbleLift: int := 10

  datatype PetState = Idle | Clicked | Resting | Thinking
  datatype RestReminder = Disabled | Enabled

  /** `max(margin, min(p, bound))`. */
  function Clamp(p: int, bound: int): (c: int)
    ensures c >= Margin
    ensures bound >= Margin ==> c <= bound
    ensures Margin <= p <= bound ==> c == p
    ensures bound < Margin ==> c == Margin
  {
    var m := if p < bound then p else bound;
    if m < Margin then Margin else m
  }

  /** `_ensure_in_screen`: each coordinate is clamped between the margin and
      the last position that keeps the window the margin away from the
      screen's right or bottom edge. */
  function EnsureInScreen(pos: Point, screenW: int, screenH: int, w: int, h: int): (q: Point)
    ensures q.x >= Margin && q.y >= Margin
    ensures screenW - w - Margin >= Margin ==> q.x <= screenW - w - Margin
    ensures screenH - h - Margin >= Margin ==> q.y <= screenH - h - Margin
    ensures Margin <= pos.x <= screenW - w - Margin && Margin <= pos.y <= screenH - h - Margin ==> q == pos
  {
    Point(Clamp(pos.x, screenW - w - Margin), Clamp(pos.y, screenH - h - Margin))
  }

  /** Clamping a clamped position changes nothing. */
  lemma EnsureInScreenIdempotent(pos: Point, screenW: int, screenH: int, w: int, h: int)
    ensures var q := EnsureInScreen(pos, screenW, screenH, w, h);
            EnsureInScreen(q, screenW, screenH, w, h) == q
  {
    var q := EnsureInScreen(pos, screenW, screenH, w, h);
    ClampIdempotent(pos.x, screenW - w - Margin);
    ClampIdempotent(pos.y, screenH - h - Margin);
  }

  lemma ClampIdempotent(p: int, bound: int)
    ensures Clamp(Clamp(p, bound), bound) == Clamp(p, bound)
  {
    if bound < Margin {
      assert Clamp(p, bound) == Margin;
    }
  }

  /** `_calculate_bubble_position`: centred above the window (`winX`, `winY`
      its top-left corner on screen), and pushed down to stay
      `BubbleTopGap` below the top of the screen. */
  function BubblePosition(winX: int, winY: int, width: int, screenTop: int): (b: Point)
    ensures b.x == winX + width / 2
    ensures b.y >= screenTop + BubbleTopGap
    ensures b.y >= winY - BubbleLift
    ensures b.y == winY - BubbleLift || b.y == screenTop + BubbleTopGap
  {
    var y := winY - BubbleLift;
    Point(winX + width / 2, if y < screenTop + BubbleTopGap then screenTop + BubbleTopGap else y)
  }

  /** `saved_states`: the checkable settings at the time the pet was hidden. */
  datatype SavedStates = SavedStates(restReminder: bool, animationsEnabled: bool, greetingTimer: bool, timeDisplay: bool)

  class Pet {
    var state: PetState
    var isDragging: bool
    var animationsEnabled: bool
    var animationTimerRunning: bool
    var restReminder: RestReminder
    var restTimerRunning: bool
    var greetingTimerActive: bool
    var isActive: bool
    /** Whether the window is shown. */
    var visible: bool
    /** Whether the window's own movie is paused (`set_pet_active(False)`). */
    var moviePaused: bool
    /** `None` stands for the empty dict before the first save. */
    var savedStates: Option<SavedStates>
    /** Whether the idle gif file exists at start-up. */
    const hasMovie: bool
    const animator: Animator
    const timeDisplay: TimeDisplay
    const chat: ChatInput

    ghost predicate Valid()
      reads this, animator, timeDisplay
    {
      animator.Valid() && timeDisplay.Valid()
    }

    /** `__init__`, with the three parts already built. Animations start
        enabled whether or not the movie loaded (the later assignment wins),
        and the rest reminder is switched on. */
    constructor (hasMovie: bool, animator: Animator, timeDisplay: TimeDisplay, chat: ChatInput)
      requires animator.Valid() && timeDisplay.Valid()
      ensures Valid()
      ensures this.hasMovie == hasMovie && this.animator == animator
      ensures this.timeDisplay == timeDisplay && this.chat == chat
      ensures state == Idle && !isDragging && animationsEnabled && animationTimerRunning
      ensures restReminder == Enabled && restTimerRunning && greetingTimerActive
      ensures isActive && visible && !moviePaused && savedStates == None
    {
      this.hasMovie := hasMovie;
      this.animator := animator;
      this.timeDisplay := timeDisplay;
      this.chat := chat;
      state := Idle;
      isDragging := false;
      animationsEnabled := true;
      animationTimerRunning := true;
      greetingTimerActive := true;
      isActive := true;
      visible := true;
      moviePaused := false;
      savedStates := None;
      restReminder := Enabled;
      restTimerRunning := true;
    }

    /** `random_animation`: the animator is asked only when the pet is idle
        and animations are enabled. */
    method RandomAnimation(choice: AnimChoice, goLeft: bool, pos: Point, distance: int, dy: int)
      requires Valid()
      requires 50 <= distance <= 150 && -20 <= dy <= 20
      modifies animator
      ensures Valid()
      ensures !(state == Idle && animationsEnabled) ==> unchanged(animator)
      ensures animator.cache == old(animator.cache)
      ensures state == Idle && animationsEnabled && old(animator.isAnimating) ==>
                animator.isAnimating && animator.current == old(animator.current) &&
                animator.direction == old(animator.direction) &&
                animator.mouseTransparent == old(animator.mouseTransparent) &&
                animator.movie == old(animator.movie) && animator.movieRunning == old(animator.movieRunning)
      ensures state == Idle && animationsEnabled && !old(animator.isAnimating) ==>
                (animator.isAnimating <==> choice == Jump) && !animator.mouseTransparent &&
                animator.direction == (if choice == Jump then old(animator.direction) else if goLeft then -1 else 1) &&
                animator.current == (if choice == Jump then [JumpMove(pos)]
                                     else [WalkMove(pos, animator.direction, distance, dy)])
      ensures state == Idle && animationsEnabled && !old(animator.isAnimating) ==>
                var name := if choice == Jump then "jump" else Animator.WalkMovie(choice == RandomPhoneWalk, goLeft);
                (name in animator.cache ==> animator.movie == Some(name) && animator.movieRunning) &&
                (name !in animator.cache ==> animator.movie == old(animator.movie) && !animator.movieRunning)
    {
      if state == Idle && animationsEnabled {
        animator.RandomAnimation(animationsEnabled, choice, goLeft, pos, distance, dy);
      }
    }

    /** `mousePressEvent`: a left press interrupts an animation in progress
        and starts a drag. */
    method MousePress(left: bool, screen: Rect, petRect: Rect)
      requires Valid()
      modifies this, animator
      ensures Valid()
      ensures left ==> state == Clicked && isDragging
      ensures left ==> (animator.isAnimating <==> old(animator.isAnimating) && !IsInScreen(screen, petRect))
      ensures left ==> animator.direction == old(animator.direction) && animator.cache == old(animator.cache)
      ensures left && old(animator.isAnimating) && IsInScreen(screen, petRect) ==>
                animator.current == [] && !animator.mouseTransparent &&
                ("idle" in animator.cache ==> animator.movie == Some("idle") && animator.movieRunning) &&
                ("idle" !in animator.cache ==> animator.movie == old(animator.movie) && !animator.movieRunning)
      ensures left && !(old(animator.isAnimating) && IsInScreen(screen, petRect)) ==>
                animator.current == old(animator.current) && animator.mouseTransparent == old(animator.mouseTransparent) &&
                animator.movie == old(animator.movie) && animator.movieRunning == old(animator.movieRunning)
      ensures !left ==> state == old(state) && isDragging == old(isDragging) && unchanged(animator)
      ensures animationsEnabled == old(animationsEnabled) && animationTimerRunning == old(animationTimerRunning)
      ensures restReminder == old(restReminder) && restTimerRunning == old(restTimerRunning)
      ensures greetingTimerActive == old(greetingTimerActive) && savedStates == old(savedStates)
      ensures isActive == old(isActive) && visible == old(visible) && moviePaused == old(moviePaused)
      ensures left ==> animator.Snapshot() == if old(animator.isAnimating) && IsInScreen(screen, petRect)
                                             then Played(Stopped(old(animator.Snapshot())), "idle")
                                             else old(animator.Snapshot())
    {
      if left {
        animator.HandleClickInterrupt(screen, petRect);
        state := Clicked;
        isDragging := true;
      }
    }

    /** `mouseReleaseEvent`: a left release ends the drag, makes the pet
        idle and stops whatever the animator was doing. It also schedules the
        animator's `random_animation` 300 ms later; `followUp` says whether it
        did, and `AfterRelease` is that call. */
    method MouseRelease(left: bool) returns (followUp: bool)
      requires Valid()
      modifies this, animator
      ensures Valid()
      ensures followUp <==> left
      ensures left ==> state == Idle && !isDragging && !animator.isAnimating && animator.current == []
                       && !animator.mouseTransparent
      ensures !left ==> state == old(state) && isDragging == old(isDragging) && unchanged(animator)
      ensures animationsEnabled == old(animationsEnabled) && animationTimerRunning == old(animationTimerRunning)
      ensures restReminder == old(restReminder) && restTimerRunning == old(restTimerRunning)
      ensures greetingTimerActive == old(greetingTimerActive) && savedStates == old(savedStates)
      ensures isActive == old(isActive) && visible == old(visible) && moviePaused == old(moviePaused)
      ensures left ==> animator.Snapshot() == Stopped(old(animator.Snapshot()))
    {
      if left {
        isDragging := false;
        state := Idle;
        animator.isAnimating := false;
        animator.Stop();
      }
      followUp := left;
    }

    /** The call a left release schedules: the animator's `random_animation`
        itself, so the pet's own IDLE test is skipped and an animation starts
        even when a new press has put the pet into a drag meanwhile. */
    method AfterRelease(choice: AnimChoice, goLeft: bool, pos: Point, distance: int, dy: int)
      requires Valid()
      requires 50 <= distance <= 150 && -20 <= dy <= 20
      modifies animator
      ensures Valid()
      ensures !animationsEnabled || old(animator.isAnimating) ==> animator.Snapshot() == old(animator.Snapshot())
      ensures animationsEnabled && !old(animator.isAnimating) ==>
                (animator.isAnimating <==> choice == Jump) && !animator.mouseTransparent &&
                animator.cache == old(animator.cache) &&
                animator.direction == (if choice == Jump then old(animator.direction) else if goLeft then -1 else 1) &&
                animator.current == (if choice == Jump then [JumpMove(pos)]
                                     else [WalkMove(pos, animator.direction, distance, dy)])
      ensures animationsEnabled && !old(animator.isAnimating) ==>
                var name := if choice == Jump then "jump" else Animator.WalkMovie(choice == RandomPhoneWalk, goLeft);
                (name in animator.cache ==> animator.movie == Some(name) && animator.movieRunning) &&
                (name !in animator.cache ==> animator.movie == old(animator.movie) && !animator.movieRunning)
    {
      animator.RandomAnimation(animationsEnabled, choice, goLeft, pos, distance, dy);
    }

    /** `mouseDoubleClickEvent`: a double click on the image flips the
        animation switch and toggles the input box. */
    method MouseDoubleClick(onImage: bool)
      requires Valid()
      modifies this, animator, chat
      ensures Valid()
      ensures onImage ==> animationsEnabled == !old(animationsEnabled) && animationTimerRunning == animationsEnabled
      ensures onImage ==> chat.inputVisible == !old(chat.inputVisible)
      ensures onImage && old(animationsEnabled) ==> animator.current == [] && !animator.isAnimating
      ensures !onImage ==> animationsEnabled == old(animationsEnabled) && animationTimerRunning == old(animationTimerRunning)
                           && unchanged(animator) && unchanged(chat)
      ensures state == old(state) && isDragging == old(isDragging)
      ensures restReminder == old(restReminder) && restTimerRunning == old(restTimerRunning)
      ensures greetingTimerActive == old(greetingTimerActive) && savedStates == old(savedStates)
      ensures chat.transcript == old(chat.transcript)
      ensures isActive == old(isActive) && visible == old(visible) && moviePaused == old(moviePaused)
      ensures onImage && old(animationsEnabled) ==> animator.Snapshot() == Played(Stopped(old(animator.Snapshot())), "shake")
      ensures onImage && !old(animationsEnabled) ==> animator.Snapshot() == Played(old(animator.Snapshot()), "idle")
      ensures onImage ==> chat.Valid() && chat.responseVisible == (old(chat.responseVisible) && !old(chat.inputVisible))
      ensures onImage ==> chat.conversationId == old(chat.conversationId) && chat.responseText == old(chat.responseText)
      ensures onImage ==> chat.width == (if old(chat.width) < MinWidth then MinWidth else old(chat.width))
    {
      if !onImage {
        return;
      }
      if animationsEnabled {
        animationTimerRunning := false;
        animator.Stop();
        animator.Play("shake");
        chat.ToggleInput();
        animationsEnabled := false;
      } else {
        animationsEnabled := true;
        animationTimerRunning := true;
        animator.Play("idle");
        chat.ToggleInput();
      }
    }

    /** `toggle_animations`. */
    method ToggleAnimations(checked: bool)
      requires Valid()
      modifies this, animator
      ensures Valid()
      ensures animationsEnabled == checked && animationTimerRunning == checked
      ensures !checked ==> animator.current == [] && !animator.isAnimating && !animator.mouseTransparent
      ensures checked ==> animator.isAnimating == old(animator.isAnimating) && animator.current == old(animator.current)
      ensures state == old(state) && isDragging == old(isDragging)
      ensures restReminder == old(restReminder) && restTimerRunning == old(restTimerRunning)
      ensures greetingTimerActive == old(greetingTimerActive) && savedStates == old(savedStates)
      ensures visible == old(visible) && isActive == old(isActive)
      ensures moviePaused == old(moviePaused)
      ensures animator.Snapshot() == if checked then Played(old(animator.Snapshot()), "idle")
                                     else Stopped(old(animator.Snapshot()))
    {
      animationsEnabled := checked;
      if checked {
        animationTimerRunning := true;
        animator.Play("idle");
      } else {
        animationTimerRunning := false;
        animator.Stop();
      }
    }

    /** `_enable_rest_reminder` / `_disable_rest_reminder`: the reminder
        state and its thirty-minute timer go together. */
    method SetRestReminder(on: bool)
      modifies this
      ensures restReminder == (if on then Enabled else Disabled) && restTimerRunning == on
      ensures state == old(state) && isDragging == old(isDragging)
      ensures animationsEnabled == old(animationsEnabled) && animationTimerRunning == old(animationTimerRunning)
      ensures greetingTimerActive == old(greetingTimerActive) && savedStates == old(savedStates)
      ensures isActive == old(isActive) && moviePaused == old(moviePaused)
      ensures visible == old(visible)
    {
      if on {
        restReminder := Enabled;
        restTimerRunning := true;
      } else {
        restReminder := Disabled;
        restTimerRunning := false;
      }
    }

    /** `start_greeting_timer` / `stop_greeting_timer`. */
    method SetGreetingTimer(on: bool)
      modifies this
      ensures greetingTimerActive == on
      ensures state == old(state) && isDragging == old(isDragging)
      ensures animationsEnabled == old(animationsEnabled) && animationTimerRunning == old(animationTimerRunning)
      ensures restReminder == old(restReminder) && restTimerRunning == old(restTimerRunning)
      ensures savedStates == old(savedStates) && isActive == old(isActive) && moviePaused == old(moviePaused)
      ensures visible == old(visible)
    {
      greetingTimerActive := on;
    }

    /** `save_current_states`. */
    method SaveCurrentStates()
      modifies this
      ensures savedStates == Some(SavedStates(old(restReminder) == Enabled, old(animationsEnabled),
                                              old(greetingTimerActive), timeDisplay.enabled))
      ensures state == old(state) && isDragging == old(isDragging)
      ensures animationsEnabled == old(animationsEnabled) && animationTimerRunning == old(animationTimerRunning)
      ensures restReminder == old(restReminder) && restTimerRunning == old(restTimerRunning)
      ensures greetingTimerActive == old(greetingTimerActive)
      ensures isActive == old(isActive) && moviePaused == old(moviePaused)
      ensures visible == old(visible)
    {
      savedStates := Some(SavedStates(restReminder == Enabled, animationsEnabled, greetingTimerActive, timeDisplay.enabled));
    }

    /** `restore_saved_states`: nothing before the first save; otherwise
        every saved switch is applied again. */
    method RestoreSavedStates(clock: string)
      requires Valid()
      modifies this, animator, timeDisplay
      ensures Valid() && savedStates == old(savedStates)
      ensures savedStates.None? ==> animationsEnabled == old(animationsEnabled) &&
                                    restReminder == old(restReminder) &&
                                    greetingTimerActive == old(greetingTimerActive) &&
                                    unchanged(timeDisplay)
      ensures savedStates.Some? ==>
                var s := savedStates.value;
                && animationsEnabled == s.animationsEnabled && animationTimerRunning == s.animationsEnabled
                && (restReminder == Enabled <==> s.restReminder) && restTimerRunning == s.restReminder
                && greetingTimerActive == s.greetingTimer
                && timeDisplay.enabled == s.timeDisplay
      ensures state == old(state) && isDragging == old(isDragging)
      ensures visible == old(visible) && isActive == old(isActive)
      ensures moviePaused == old(moviePaused)
      ensures savedStates.None? ==> unchanged(this, animator, timeDisplay)
      ensures savedStates.Some? ==>
                var s := savedStates.value;
                && animator.Snapshot() == (if s.animationsEnabled then Played(old(animator.Snapshot()), "idle")
                                           else Stopped(old(animator.Snapshot())))
                && timeDisplay.Snapshot() == MadeVisible(old(timeDisplay.Snapshot()), s.timeDisplay, clock)
    {
      if savedStates.None? {
        return;
      }
      var s := savedStates.value;
      animationsEnabled := s.animationsEnabled;
      ToggleAnimations(animationsEnabled);
      SetRestReminder(s.restReminder);
      SetGreetingTimer(s.greetingTimer);
      timeDisplay.SetVisible(s.timeDisplay, clock);
    }

    /** `set_pet_active`: pausing or resuming the movie and the animation
        timer (when the movie exists), the rest timer (running only when
        active with the reminder enabled), the greeting timer (kept only if
        active and already running) and the time label. */
    method SetPetActive(active: bool, clock: string)
      requires Valid()
      modifies this, timeDisplay
      ensures Valid() && isActive == active
      ensures hasMovie ==> moviePaused == !active && animationTimerRunning == active
      ensures !hasMovie ==> moviePaused == old(moviePaused) && animationTimerRunning == old(animationTimerRunning)
      ensures restTimerRunning == (active && restReminder == Enabled)
      ensures greetingTimerActive == (active && old(greetingTimerActive))
      ensures timeDisplay.enabled == active && timeDisplay.labelVisible == active
      ensures state == old(state) && isDragging == old(isDragging) && animationsEnabled == old(animationsEnabled)
      ensures restReminder == old(restReminder) && savedStates == old(savedStates)
      ensures visible == old(visible)
      ensures timeDisplay.Snapshot() == MadeVisible(old(timeDisplay.Snapshot()), active, clock)
    {
      isActive := active;
      if hasMovie {
        if active {
          moviePaused := false;
          animationTimerRunning := true;
        } else {
          moviePaused := true;
          animationTimerRunning := false;
        }
      }
      restTimerRunning := active && restReminder == Enabled;
      greetingTimerActive := active && greetingTimerActive;
      timeDisplay.SetVisible(active, clock);
    }

    /** `toggle_visibility`: hiding saves the switches and freezes the pet;
        showing reactivates it (`showEvent`, when inactive) and then
        restores the saved switches. */
    method ToggleVisibility(clock: string)
      requires Valid()
      modifies this, animator, timeDisplay
      ensures Valid() && visible == !old(visible)
      ensures old(visible) ==>
                !isActive && !restTimerRunning && !greetingTimerActive && !timeDisplay.enabled &&
                savedStates == Some(SavedStates(old(restReminder) == Enabled, old(animationsEnabled),
                                                old(greetingTimerActive), old(timeDisplay.enabled))) &&
                animationsEnabled == old(animationsEnabled) && restReminder == old(restReminder) &&
                unchanged(animator)
      ensures !old(visible) ==> isActive && savedStates == old(savedStates)
      ensures !old(visible) && savedStates.Some? ==>
                var s := savedStates.value;
                && animationsEnabled == s.animationsEnabled
                && (restReminder == Enabled <==> s.restReminder)
                && greetingTimerActive == s.greetingTimer
                && timeDisplay.enabled == s.timeDisplay
      ensures state == old(state) && isDragging == old(isDragging)
      ensures old(visible) ==>
                moviePaused == (if hasMovie then true else old(moviePaused)) &&
                animationTimerRunning == (if hasMovie then false else old(animationTimerRunning)) &&
                timeDisplay.Snapshot() == MadeVisible(old(timeDisplay.Snapshot()), false, clock)
      ensures !old(visible) ==>
                moviePaused == (if !old(isActive) && hasMovie then false else old(moviePaused)) &&
                greetingTimerActive == (if savedStates.Some? then savedStates.value.greetingTimer else old(greetingTimerActive))
      ensures !old(visible) && savedStates.None? ==>
                animationsEnabled == old(animationsEnabled) && restReminder == old(restReminder) &&
                animationTimerRunning == (if !old(isActive) && hasMovie then true else old(animationTimerRunning)) &&
                restTimerRunning == (if old(isActive) then old(restTimerRunning) else restReminder == Enabled) &&
                unchanged(animator) &&
                timeDisplay.Snapshot() == (if old(isActive) then old(timeDisplay.Snapshot())
                                           else MadeVisible(old(timeDisplay.Snapshot()), true, clock))
      ensures !old(visible) && savedStates.Some? ==>
                var s := savedStates.value;
                var shown := if old(isActive) then old(timeDisplay.Snapshot())
                             else MadeVisible(old(timeDisplay.Snapshot()), true, clock);
                && animationTimerRunning == s.animationsEnabled && restTimerRunning == s.restReminder
                && animator.Snapshot() == (if s.animationsEnabled then Played(old(animator.Snapshot()), "idle")
                                           else Stopped(old(animator.Snapshot())))
                && timeDisplay.Snapshot() == MadeVisible(shown, s.timeDisplay, clock)
    {
      if visible {
        SaveCurrentStates();
        SetPetActive(false, clock);
        visible := false;
      } else {
        visible := true;
        if !isActive {
          SetPetActive(true, clock);
        }
        RestoreSavedStates(clock);
      }
    }

    /** `_process_chat`: animations are paused for the request and switched
        back on afterwards exactly when they were on before. `response` is
        what `get_response` returned, or the error it raised (a timeout
        included). Only a non-empty reply reaches the chat box; every other
        outcome ends in the outer handler, since the error display the code
        calls does not exist. */
    method ProcessChat(response: Result<string>, now: int)
      requires Valid()
      modifies this, animator, chat
      ensures Valid()
      ensures animationsEnabled == old(animationsEnabled)
      ensures old(animationsEnabled) ==> animationTimerRunning
      ensures !old(animationsEnabled) ==> animationTimerRunning == old(animationTimerRunning)
      ensures response.Ok? && response.value != "" ==>
                chat.transcript == old(chat.transcript) + [Turn(AssistantRole, response.value)] &&
                chat.responseText == response.value && chat.responseVisible
      ensures !(response.Ok? && response.value != "") ==> unchanged(chat)
      ensures state == old(state) && isDragging == old(isDragging)
      ensures restReminder == old(restReminder) && restTimerRunning == old(restTimerRunning)
      ensures greetingTimerActive == old(greetingTimerActive) && savedStates == old(savedStates)
      ensures isActive == old(isActive) && visible == old(visible) && moviePaused == old(moviePaused)
      ensures old(animationsEnabled) ==> animator.Snapshot() == Played(Stopped(old(animator.Snapshot())), "idle")
      ensures !old(animationsEnabled) ==> unchanged(animator)
      ensures response.Ok? && response.value != "" ==>
                chat.Valid() && chat.inputVisible == old(chat.inputVisible) &&
                chat.conversationId == (if Unset(old(chat.conversationId)) then Some(now) else old(chat.conversationId)) &&
                chat.width == (if old(chat.width) < MinWidth then MinWidth else old(chat.width))
    {
      var wasEnabled := animationsEnabled;
      if wasEnabled {
        ToggleAnimations(false);
      }
      if response.Ok? && response.value != "" {
        var _ := chat.ShowResponse(response.value, now);
        // `start_bounce_animation` finds animations disabled here and does nothing
      }
      if wasEnabled {
        ToggleAnimations(true);
      }
    }

    /** `handle_input`: a non-empty line is recorded and sent. */
    method HandleInput(text: string, response: Result<string>, now: int)
      requires Valid()
      modifies this, animator, chat
      ensures Valid()
      ensures animationsEnabled == old(animationsEnabled)
      ensures text == "" ==> unchanged(chat) && unchanged(animator) && unchanged(this)
      ensures text != "" && response.Ok? && response.value != "" ==>
                chat.transcript == old(chat.transcript) + [Turn(UserRole, text), Turn(AssistantRole, response.value)]
      ensures text != "" && !(response.Ok? && response.value != "") ==>
                chat.transcript == old(chat.transcript) + [Turn(UserRole, text)]
      ensures state == old(state) && isDragging == old(isDragging)
      ensures restReminder == old(restReminder) && restTimerRunning == old(restTimerRunning)
      ensures greetingTimerActive == old(greetingTimerActive) && savedStates == old(savedStates)
      ensures isActive == old(isActive) && visible == old(visible) && moviePaused == old(moviePaused)
      ensures animationTimerRunning == if text != "" && old(animationsEnabled) then true else old(animationTimerRunning)
      ensures text != "" && old(animationsEnabled) ==> animator.Snapshot() == Played(Stopped(old(animator.Snapshot())), "idle")
      ensures !(text != "" && old(animationsEnabled)) ==> unchanged(animator)
      ensures text != "" ==>
                chat.inputVisible == old(chat.inputVisible) &&
                chat.conversationId == (if Unset(old(chat.conversationId)) then Some(now) else old(chat.conversationId))
      ensures text != "" && response.Ok? && response.value != "" ==>
                chat.Valid() && chat.responseText == response.value && chat.responseVisible && chat.width == (if old(chat.width) < MinWidth then MinWidth else old(chat.width))
      ensures text != "" && !(response.Ok? && response.value != "") ==>
                chat.responseText == old(chat.responseText) && chat.responseVisible == old(chat.responseVisible) &&
                chat.width == old(chat.width) && chat.height == old(chat.height)
    {
      if text != "" {
        chat.AddUserInput(text, now);
        ProcessChat(response, now);
      }
    }
  }

  /** A release followed by a new press within 300 ms: the scheduled call
      still starts a jump, while the pet is being dragged. */
  method PressDuringFollowUp(pet: Pet, screen: Rect, petRect: Rect, pos: Point)
    requires pet.Valid() && pet.animationsEnabled
    modifies pet, pet.animator
    ensures pet.Valid() && pet.state == Clicked && pet.isDragging
    ensures pet.animator.isAnimating && pet.animator.current == [JumpMove(pos)]
  {
    var followUp := pet.MouseRelease(true);
    pet.MousePress(true, screen, petRect);
    if followUp {
      pet.AfterRelease(Jump, false, pos, 100, 0);
    }
  }

  /** Hiding and showing the pet again from the tray: afterwards the
      animation switch, the rest reminder, the greeting timer and the time
      label are as they were before it was hidden. */
  method HideShowRestores(pet: Pet, clock: string)
    requires pet.Valid() && pet.visible
    modifies pet, pet.animator, pet.timeDisplay
    ensures pet.Valid() && pet.visible && pet.isActive
    ensures pet.animationsEnabled == old(pet.animationsEnabled)
    ensures pet.restReminder == old(pet.restReminder)
    ensures pet.greetingTimerActive == old(pet.greetingTimerActive)
    ensures pet.timeDisplay.enabled == old(pet.timeDisplay.enabled)
  {
    pet.ToggleVisibility(clock);
    pet.ToggleVisibility(clock);
  }
}

=== FILE: english_page.dfy ===
/**
 * The pet's small web browser: the scheme normalisation applied to what is
 * typed in the address bar, the default page read from
 * `config/browser_config.json`, and saving the current address as the
 * default.
 *
 * The web view is the field `page` (the address it was last told to load);
 * the configuration file is a `FileRead` on loading and the field `file`
 * after saving.
 */
module EnglishPage {
  import opened Common

  const FallbackUrl: string := "https://babie.cc/"
  const DefaultUrlKey: string := "default_url"
  const Http: string := "http://"
  const Https: string := "https://"

  /** A decoded JSON object with string members. */
  type JsonObject = map<string, string>

  predicate StartsWith(s: string, prefix: string)
  {
    |prefix| <= |s| && s[..|prefix|] == prefix
  }

  /** `url.startswith(("http://", "https://"))`, case-sensitive. */
  predicate HasScheme(url: string)
  {
    StartsWith(url, Http) || StartsWith(url, Https)
  }

  /** `load_url`'s normalisation: an address with a scheme is kept, any
      other gets "https://" in front. */
  function Normalize(url: string): (r: string)
    ensures HasScheme(url) ==> r == url
    ensures !HasScheme(url) ==> r == Https + url
    ensures HasScheme(r)
  {
    if HasScheme(url) then url
    else
      assert (Https + url)[..|Https|] == Https;
      Https + url
  }

  /** Normalising twice is normalising once. */
  lemma NormalizeIdempotent(url: string)
    ensures Normalize(Normalize(url)) == Normalize(url)
  {
  }

  /** The test is case-sensitive: an upper-case scheme is not recognised and
      gets a second one in front. */
  lemma UpperCaseSchemePrefixed()
    ensures Normalize("HTTP://x") == "https://HTTP://x"
  {
    assert "HTTP://x"[..|Http|] != Http by { assert "HTTP://x"[0] != Http[0]; }
    assert "HTTP://x"[..|Https|] != Https by { assert "HTTP://x"[0] != Https[0]; }
  }

  /** The default address after `load_default_page`: the file's
      `default_url` when present, otherwise the current one (the fallback at
      start-up), also when the file cannot be read. */
  function LoadedDefault(stored: FileRead<JsonObject>, current: string): (u: string)
    ensures stored.Read? && DefaultUrlKey in stored.content ==> u == stored.content[DefaultUrlKey]
    ensures !(stored.Read? && DefaultUrlKey in stored.content) ==> u == current
  {
    if stored.Read? && DefaultUrlKey in stored.content then stored.content[DefaultUrlKey] else current
  }

  /** `open_external`: the stripped address, when there is one. */
  function ExternalTarget(bar: string): (target: Option<string>)
    ensures target.Some? <==> Strip(bar) != ""
    ensures target.Some? ==> target.value == Strip(bar)
  {
    var url := Strip(bar);
    if url != "" then Some(url) else None
  }

  class Browser {
    var defaultUrl: string
    /** The address bar's text. */
    var urlBar: string
    /** The address the web view was last told to load. */
    var page: string
    /** The configuration file as `set_default_url` last wrote it. */
    var file: Option<JsonObject>

    /** `__init__`: the fallback default, then `load_default_page`. */
    constructor (stored: FileRead<JsonObject>)
      ensures defaultUrl == LoadedDefault(stored, FallbackUrl)
      ensures page == defaultUrl && urlBar == defaultUrl && file == None
    {
      defaultUrl := FallbackUrl;
      urlBar := "";
      page := "";
      file := None;
      new;
      LoadDefaultPage(stored);
    }

    /** `load_default_page`: the default address is loaded as it is, without
        normalisation, and shown in the bar. */
    method LoadDefaultPage(stored: FileRead<JsonObject>)
      modifies this
      ensures defaultUrl == LoadedDefault(stored, old(defaultUrl))
      ensures page == defaultUrl && urlBar == defaultUrl && file == old(file)
    {
      if stored.Read? && DefaultUrlKey in stored.content {
        defaultUrl := stored.content[DefaultUrlKey];
      }
      page := defaultUrl;
      urlBar := defaultUrl;
    }

    /** `load_url`: the bar's text is normalised, loaded and written back. */
    method LoadUrl()
      modifies this
      ensures page == Normalize(old(urlBar)) && urlBar == page
      ensures defaultUrl == old(defaultUrl) && file == old(file)
    {
      var url := urlBar;
      if !HasScheme(url) {
        url := Https + url;
      }
      page := url;
      urlBar := url;
    }

    /** `set_default_url`: an empty bar writes nothing. The address is saved
        as typed; the default used in this session is not changed. */
    method SetDefaultUrl()
      modifies this
      ensures urlBar != "" ==> file == Some(map[DefaultUrlKey := urlBar])
      ensures urlBar == "" ==> file == old(file)
      ensures urlBar == old(urlBar) && page == old(page) && defaultUrl == old(defaultUrl)
    {
      if urlBar != "" {
        file := Some(map[DefaultUrlKey := urlBar]);
      }
    }
  }

  /** After loading an address and saving it as the default, the next
      start-up opens it again, with its scheme. */
  lemma SavedDefaultReloads(typed: string, fallback: string)
    ensures var url := Normalize(typed);
            LoadedDefault(Read(map[DefaultUrlKey := url]), fallback) == url && HasScheme(url)
  {
  }
}

=== FILE: pet_animations.dfy ===
/**
 * The pet's animation session: whether an animation is in progress, the list
 * of running animation groups, whether the window lets mouse events through,
 * and which movie is showing; the screen-containment test that decides when
 * the pet must be brought back; and the free-list pool of animation objects.
 *
 * Qt's animation engine is not modelled. An animation group is recorded as
 * the position segments it would play and the callback it fires when done;
 * the engine calling that callback is the caller invoking `AnimationFinished`
 * or `ReturnCompleted`. Random choices, the pet's position and the screen
 * geometry are parameters. Opacity fades are floating point and left out.
 */
module PetAnimations {
  import opened Common

  // ---------------------------------------------------------------------
  // Geometry: QPoint and QRect
  // ---------------------------------------------------------------------

  datatype Point = Point(x: int, y: int)

  /** A QRect by its corners: `right == x + width - 1`, `bottom == y + height - 1`. */
  datatype Rect = Rect(x1: int, y1: int, x2: int, y2: int)

  function FromGeometry(x: int, y: int, w: int, h: int): (r: Rect)
    ensures r.x2 - r.x1 + 1 == w && r.y2 - r.y1 + 1 == h
  {
    Rect(x, y, x + w - 1, y + h - 1)
  }

  /** `QRect.adjusted(d, d, -d, -d)`. */
  function Shrunk(r: Rect, d: int): Rect
  {
    Rect(r.x1 + d, r.y1 + d, r.x2 - d, r.y2 - d)
  }

  /** `QRect.isNull()`: zero width and zero height. */
  predicate IsNull(r: Rect)
  {
    r.x2 == r.x1 - 1 && r.y2 == r.y1 - 1
  }

  /** The interval a pair of edges covers; a negative extent is read backwards, as Qt does. */
  function Span(a1: int, a2: int): (int, int)
  {
    if a2 - a1 + 1 < 0 then (a2, a1) else (a1, a2)
  }

  /** `outer.contains(inner)` (not proper). */
  predicate RectContains(outer: Rect, inner: Rect)
  {
    && !IsNull(outer) && !IsNull(inner)
    && Span(outer.x1, outer.x2).0 <= Span(inner.x1, inner.x2).0
    && Span(inner.x1, inner.x2).1 <= Span(outer.x1, outer.x2).1
    && Span(outer.y1, outer.y2).0 <= Span(inner.y1, inner.y2).0
    && Span(inner.y1, inner.y2).1 <= Span(outer.y1, outer.y2).1
  }

  const ScreenMargin: int := 20
  const SafeMargin: int := 50

  /** `_is_in_screen`: the pet lies inside the screen shrunk by 20 pixels on
      every side. For a screen larger than the margins and a pet of positive
      size this is plain containment with a 20-pixel border. */
  function IsInScreen(screen: Rect, pet: Rect): (b: bool)
    ensures screen.x2 - screen.x1 + 1 > 2 * ScreenMargin && screen.y2 - screen.y1 + 1 > 2 * ScreenMargin &&
            pet.x2 >= pet.x1 && pet.y2 >= pet.y1 ==>
              (b <==> screen.x1 + ScreenMargin <= pet.x1 && pet.x2 <= screen.x2 - ScreenMargin &&
                      screen.y1 + ScreenMargin <= pet.y1 && pet.y2 <= screen.y2 - ScreenMargin)
  {
    RectContains(Shrunk(screen, ScreenMargin), pet)
  }

  /** The ranges `_get_safe_position` draws from:
      `randint(50, W - w - 50)` and `randint(50, H - h - 50)`, where W and H
      are the screen's width and height; `None` when either range is empty
      (randint raises). */
  datatype Box = Box(minX: int, maxX: int, minY: int, maxY: int)

  function SafeRange(screen: Rect, w: int, h: int): (r: Option<Box>)
    ensures r.Some? <==> SafeMargin <= (screen.x2 - screen.x1 + 1) - w - SafeMargin &&
                         SafeMargin <= (screen.y2 - screen.y1 + 1) - h - SafeMargin
    ensures r.Some? ==> r.value.minX == SafeMargin && r.value.minY == SafeMargin &&
                        r.value.maxX == (screen.x2 - screen.x1 + 1) - w - SafeMargin &&
                        r.value.maxY == (screen.y2 - screen.y1 + 1) - h - SafeMargin
  {
    var maxX := (screen.x2 - screen.x1 + 1) - w - SafeMargin;
    var maxY := (screen.y2 - screen.y1 + 1) - h - SafeMargin;
    if SafeMargin <= maxX && SafeMargin <= maxY then Some(Box(SafeMargin, maxX, SafeMargin, maxY)) else None
  }

  predicate InBox(p: Point, b: Box)
  {
    b.minX <= p.x <= b.maxX && b.minY <= p.y <= b.maxY
  }

  /** On a screen whose available area starts at the origin, a safe position
      puts the whole pet inside the screen test's border. */
  lemma SafePositionInScreen(screenW: int, screenH: int, w: int, h: int, p: Point)
    requires w >= 1 && h >= 1
    requires SafeRange(FromGeometry(0, 0, screenW, screenH), w, h).Some?
    requires InBox(p, SafeRange(FromGeometry(0, 0, screenW, screenH), w, h).value)
    ensures IsInScreen(FromGeometry(0, 0, screenW, screenH), FromGeometry(p.x, p.y, w, h))
  {
  }

  // ---------------------------------------------------------------------
  // Animation groups
  // ---------------------------------------------------------------------

  /** A `pos` property animation: start value, end value, duration in ms. */
  datatype Segment = Segment(start: Point, end: Point, duration: nat)

  /** Which slot the group's `finished` signal is connected to. */
  datatype Callback = OnAnimationFinished | OnReturnCompleted

  datatype Anim = Anim(segments: seq<Segment>, callback: Callback)

  const WalkDuration: nat := 2000
  const JumpHeight: int := 100
  const JumpDuration: nat := 800

  /** The walk's single move: `distance * direction` across, `dy` down. */
  function WalkMove(pos: Point, direction: int, distance: int, dy: int): (a: Anim)
    requires direction == -1 || direction == 1
    requires 50 <= distance <= 150 && -20 <= dy <= 20
    ensures |a.segments| == 1 && a.segments[0].start == pos && a.callback == OnAnimationFinished
    ensures var d := a.segments[0].end.x - pos.x;
            (direction == -1 ==> -150 <= d <= -50) && (direction == 1 ==> 50 <= d <= 150)
    ensures -20 <= a.segments[0].end.y - pos.y <= 20
  {
    Anim([Segment(pos, Point(pos.x + distance * direction, pos.y + dy), WalkDuration)], OnAnimationFinished)
  }

  /** The jump: up 100 pixels, then back down to where it started, each half
      of the 800 ms. */
  function JumpMove(pos: Point): (a: Anim)
    ensures |a.segments| == 2 && a.callback == OnAnimationFinished
    ensures a.segments[0].start == pos && a.segments[1].end == pos
    ensures a.segments[0].end == a.segments[1].start == Point(pos.x, pos.y - JumpHeight)
    ensures a.segments[0].duration + a.segments[1].duration == JumpDuration
  {
    var top := Point(pos.x, pos.y - JumpHeight);
    Anim([Segment(pos, top, JumpDuration / 2), Segment(top, pos, JumpDuration / 2)], OnAnimationFinished)
  }

  /** The return: an instant move to the safe position (between the fades). */
  function ReturnMove(pos: Point, safe: Point): (a: Anim)
    ensures |a.segments| == 1 && a.segments[0].start == pos && a.segments[0].end == safe
    ensures a.segments[0].duration == 0 && a.callback == OnReturnCompleted
  {
    Anim([Segment(pos, safe, 0)], OnReturnCompleted)
  }

  datatype AnimChoice = RandomWalk | RandomPhoneWalk | Jump

  // ---------------------------------------------------------------------
  // The animation session
  // ---------------------------------------------------------------------

  /** The animator's fields as one value, so that a caller can state the
      animator's whole new state. */
  datatype AnimatorState = AnimatorState(isAnimating: bool, current: seq<Anim>, mouseTransparent: bool,
                                         direction: int, movie: Option<string>, movieRunning: bool,
                                         cache: set<string>)

  /** The state after `_stop_current_animations`. */
  function Stopped(a: AnimatorState): AnimatorState
  {
    a.(isAnimating := false, current := [], mouseTransparent := false)
  }

  /** The state after `play(name)`. */
  function Played(a: AnimatorState, name: string): AnimatorState
  {
    if name in a.cache then a.(movie := Some(name), movieRunning := true) else a.(movieRunning := false)
  }

  class Animator {
    var isAnimating: bool
    var current: seq<Anim>
    var mouseTransparent: bool
    var direction: int
    /** The movie last attached to the pet, and whether it is playing. */
    var movie: Option<string>
    var movieRunning: bool
    /** Names of the movies whose files could be loaded. */
    var cache: set<string>

    /** The mouse is ignored only while an animation is in progress, and the
        walking direction is a sign. */
    ghost predicate Valid()
      reads this
    {
      (mouseTransparent ==> isAnimating) && (direction == -1 || direction == 1)
    }

    function Snapshot(): AnimatorState
      reads this
    {
      AnimatorState(isAnimating, current, mouseTransparent, direction, movie, movieRunning, cache)
    }

    /** `_init_animation_system`; `startLeft` is `random.choice([-1, 1])`. */
    constructor (loaded: set<string>, startLeft: bool)
      ensures Valid()
      ensures !isAnimating && current == [] && !mouseTransparent
      ensures direction == (if startLeft then -1 else 1)
      ensures movie == None && !movieRunning && cache == loaded
    {
      isAnimating := false;
      current := [];
      mouseTransparent := false;
      direction := if startLeft then -1 else 1;
      movie := None;
      movieRunning := false;
      cache := loaded;
    }

    /** `play`: stop the showing movie, then show `name` if it was loaded. */
    method Play(name: string)
      modifies this
      ensures name in cache ==> movie == Some(name) && movieRunning
      ensures name !in cache ==> movie == old(movie) && !movieRunning
      ensures isAnimating == old(isAnimating) && current == old(current)
      ensures mouseTransparent == old(mouseTransparent) && direction == old(direction) && cache == old(cache)
      ensures Snapshot() == Played(old(Snapshot()), name)
    {
      movieRunning := false;
      if name in cache {
        movie := Some(name);
        movieRunning := true;
      }
    }

    /** `_stop_current_animations` (the definition in effect): drop every
        group, clear the flag and give the mouse back; the movie keeps playing.
        Callers may have cleared the flag beforehand, so only the direction
        is required. */
    method Stop()
      requires direction == -1 || direction == 1
      modifies this
      ensures Valid()
      ensures current == [] && !isAnimating && !mouseTransparent
      ensures direction == old(direction) && movie == old(movie) && movieRunning == old(movieRunning)
      ensures cache == old(cache)
      ensures Snapshot() == Stopped(old(Snapshot()))
    {
      current := [];
      isAnimating := false;
      mouseTransparent := false;
    }

    /** The movie a walk shows. */
    static function WalkMovie(phone: bool, goLeft: bool): string
    {
      if phone then (if goLeft then "phonewalkleft" else "phonewalkright")
      else (if goLeft then "walkleft" else "walkright")
    }

    /** `random_walk` / `random_phonewalk`: `goLeft` is `random.random() > 0.5`,
        `distance` and `dy` the two `randint` draws. Walks do not set the flag. */
    method Walk(phone: bool, goLeft: bool, pos: Point, distance: int, dy: int)
      requires Valid()
      requires 50 <= distance <= 150 && -20 <= dy <= 20
      modifies this
      ensures Valid()
      ensures direction == (if goLeft then -1 else 1)
      ensures current == old(current) + [WalkMove(pos, direction, distance, dy)]
      ensures isAnimating == old(isAnimating) && mouseTransparent == old(mouseTransparent)
      ensures WalkMovie(phone, goLeft) in cache ==> movie == Some(WalkMovie(phone, goLeft)) && movieRunning
      ensures WalkMovie(phone, goLeft) !in cache ==> movie == old(movie) && !movieRunning
      ensures cache == old(cache)
    {
      var name := WalkMovie(phone, goLeft);
      direction := if goLeft then -1 else 1;
      Play(name);
      current := current + [WalkMove(pos, direction, distance, dy)];
    }

    /** `jump_animation`: refused while animating or with animations disabled. */
    method JumpAnimation(enabled: bool, pos: Point)
      requires Valid()
      modifies this
      ensures Valid()
      ensures old(isAnimating) || !enabled ==>
                isAnimating == old(isAnimating) && current == old(current) &&
                movie == old(movie) && movieRunning == old(movieRunning)
      ensures !old(isAnimating) && enabled ==>
                isAnimating && current == old(current) + [JumpMove(pos)] &&
                ("jump" in cache ==> movie == Some("jump") && movieRunning) &&
                ("jump" !in cache ==> movie == old(movie) && !movieRunning)
      ensures mouseTransparent == old(mouseTransparent) && direction == old(direction) && cache == old(cache)
    {
      if isAnimating || !enabled {
        return;
      }
      isAnimating := true;
      Play("jump");
      current := current + [JumpMove(pos)];
    }

    /** `touch_animation`: sets the flag and shows the movie, but starts no
        group, so nothing will call back to clear the flag. */
    method TouchAnimation(enabled: bool)
      requires Valid()
      modifies this
      ensures Valid()
      ensures current == old(current)
      ensures old(isAnimating) || !enabled ==>
                isAnimating == old(isAnimating) && movie == old(movie) && movieRunning == old(movieRunning)
      ensures !old(isAnimating) && enabled ==>
                isAnimating && ("touch" in cache ==> movie == Some("touch") && movieRunning) &&
                ("touch" !in cache ==> movie == old(movie) && !movieRunning)
      ensures mouseTransparent == old(mouseTransparent) && direction == old(direction) && cache == old(cache)
    {
      if isAnimating || !enabled {
        return;
      }
      isAnimating := true;
      Play("touch");
    }

    /** `random_animation`: when idle and enabled, clear leftovers and start
        the chosen animation; otherwise nothing. */
    method RandomAnimation(enabled: bool, choice: AnimChoice, goLeft: bool, pos: Point, distance: int, dy: int)
      requires Valid()
      requires 50 <= distance <= 150 && -20 <= dy <= 20
      modifies this
      ensures Valid() && cache == old(cache)
      ensures old(isAnimating) || !enabled ==>
                isAnimating == old(isAnimating) && current == old(current) && direction == old(direction) &&
                mouseTransparent == old(mouseTransparent) && movie == old(movie) && movieRunning == old(movieRunning)
      ensures !old(isAnimating) && enabled ==> !mouseTransparent
      ensures !old(isAnimating) && enabled && choice == Jump ==>
                isAnimating && current == [JumpMove(pos)] && direction == old(direction)
      ensures !old(isAnimating) && enabled && choice != Jump ==>
                !isAnimating && direction == (if goLeft then -1 else 1) &&
                current == [WalkMove(pos, direction, distance, dy)]
      ensures !old(isAnimating) && enabled ==>
                var name := if choice == Jump then "jump" else WalkMovie(choice == RandomPhoneWalk, goLeft);
                (name in cache ==> movie == Some(name) && movieRunning) &&
                (name !in cache ==> movie == old(movie) && !movieRunning)
    {
      if !isAnimating && enabled {
        Stop();
        if choice == Jump {
          JumpAnimation(enabled, pos);
        } else {
          Walk(choice == RandomPhoneWalk, goLeft, pos, distance, dy);
        }
      }
    }

    /** `_start_return_animation`: flag and mouse transparency are set first;
        then the safe position is drawn (`pick`), which raises when the screen
        leaves no safe range, and the instant move there is started. */
    method StartReturn(screen: Rect, w: int, h: int, pos: Point, pick: Point) returns (r: Result<Point>)
      requires direction == -1 || direction == 1
      requires SafeRange(screen, w, h).Some? ==> InBox(pick, SafeRange(screen, w, h).value)
      modifies this
      ensures Valid()
      ensures isAnimating && mouseTransparent
      ensures SafeRange(screen, w, h).None? ==> r.Err? && current == old(current)
      ensures SafeRange(screen, w, h).Some? ==> r == Ok(pick) && current == old(current) + [ReturnMove(pos, pick)]
      ensures direction == old(direction) && movie == old(movie) && movieRunning == old(movieRunning) && cache == old(cache)
    {
      isAnimating := true;
      mouseTransparent := true;
      var range := SafeRange(screen, w, h);
      if range.None? {
        return Err("empty range for randrange()");
      }
      current := current + [ReturnMove(pos, pick)];
      r := Ok(pick);
    }

    /** `_animation_finished`: clears the flag; a pet inside the screen goes
        idle and gets the mouse back, one outside starts the return. */
    method AnimationFinished(screen: Rect, pet: Rect, pos: Point, pick: Point) returns (r: Result<Point>)
      requires Valid()
      requires var w := pet.x2 - pet.x1 + 1; var h := pet.y2 - pet.y1 + 1;
               SafeRange(screen, w, h).Some? ==> InBox(pick, SafeRange(screen, w, h).value)
      modifies this
      ensures Valid() && direction == old(direction) && cache == old(cache)
      ensures IsInScreen(screen, pet) ==>
                !isAnimating && !mouseTransparent && current == old(current) && r == Ok(pos) &&
                ("idle" in cache ==> movie == Some("idle") && movieRunning) &&
                ("idle" !in cache ==> movie == old(movie) && !movieRunning)
      ensures !IsInScreen(screen, pet) ==>
                isAnimating && mouseTransparent && movie == old(movie) && movieRunning == old(movieRunning) &&
                var range := SafeRange(screen, pet.x2 - pet.x1 + 1, pet.y2 - pet.y1 + 1);
                (range.Some? ==> r == Ok(pick) && current == old(current) + [ReturnMove(pos, pick)]) &&
                (range.None? ==> r.Err? && current == old(current))
    {
      isAnimating := false;
      if !IsInScreen(screen, pet) {
        r := StartReturn(screen, pet.x2 - pet.x1 + 1, pet.y2 - pet.y1 + 1, pos, pick);
      } else {
        Play("idle");
        mouseTransparent := false;
        r := Ok(pos);
      }
    }

    /** `_return_completed`. */
    method ReturnCompleted()
      requires Valid()
      modifies this
      ensures Valid()
      ensures !isAnimating && !mouseTransparent && current == old(current)
      ensures "idle" in cache ==> movie == Some("idle") && movieRunning
      ensures "idle" !in cache ==> movie == old(movie) && !movieRunning
      ensures direction == old(direction) && cache == old(cache)
    {
      isAnimating := false;
      mouseTransparent := false;
      Play("idle");
    }

    /** `handle_click_interrupt`: only an animation in progress with the pet
        inside the screen is interrupted. */
    method HandleClickInterrupt(screen: Rect, pet: Rect)
      requires Valid()
      modifies this
      ensures Valid() && direction == old(direction) && cache == old(cache)
      ensures isAnimating <==> old(isAnimating) && !IsInScreen(screen, pet)
      ensures old(isAnimating) && IsInScreen(screen, pet) ==>
                current == [] && !mouseTransparent && ("idle" in cache ==> movie == Some("idle") && movieRunning) &&
                ("idle" !in cache ==> movie == old(movie) && !movieRunning)
      ensures !(old(isAnimating) && IsInScreen(screen, pet)) ==>
                current == old(current) && mouseTransparent == old(mouseTransparent) &&
                movie == old(movie) && movieRunning == old(movieRunning)
      ensures Snapshot() == if old(isAnimating) && IsInScreen(screen, pet) then Played(Stopped(old(Snapshot())), "idle")
                            else old(Snapshot())
    {
      if isAnimating && IsInScreen(screen, pet) {
        Stop();
        Play("idle");
      }
    }
  }

  // ---------------------------------------------------------------------
  // AnimationPool
  // ---------------------------------------------------------------------

  /** A pooled animation object, identified by the order of its creation. */
  type AnimId = nat

  class AnimationPool {
    /** `_pool`: per animation type, the released objects (a stack). */
    var pool: map<string, seq<AnimId>>
    /** `_active_animations`. */
    var active: set<AnimId>
    /** The identity the next newly created object gets. */
    var nextId: AnimId

    /** Every object was created by the pool, sits in at most one place of
        the free lists, and is never both pooled and active. */
    ghost predicate Valid()
      reads this
    {
      && (forall a :: a in active ==> a < nextId)
      && (forall t, i :: t in pool && 0 <= i < |pool[t]| ==> pool[t][i] < nextId && pool[t][i] !in active)
      && (forall t1, i, t2, j ::
            (t1 in pool && t2 in pool && 0 <= i < |pool[t1]| && 0 <= j < |pool[t2]| && pool[t1][i] == pool[t2][j])
            ==> t1 == t2 && i == j)
    }

    constructor ()
      ensures Valid() && pool == map[] && active == {} && nextId == 0
    {
      pool := map[];
      active := {};
      nextId := 0;
    }

    /** `get_animation`: reuse the last released object of that type, or
        create one; either way it becomes active. */
    method GetAnimation(t: string) returns (a: AnimId)
      requires Valid()
      modifies this
      ensures Valid()
      ensures a !in old(active) && active == old(active) + {a}
      ensures t in pool
      ensures t in old(pool) && old(pool)[t] != [] ==>
                a == old(pool)[t][|old(pool)[t]| - 1] && pool == old(pool)[t := old(pool)[t][..|old(pool)[t]| - 1]] &&
                nextId == old(nextId)
      ensures !(t in old(pool) && old(pool)[t] != []) ==>
                a == old(nextId) && nextId == old(nextId) + 1 && pool == old(pool)[t := []]
    {
      if t in pool && pool[t] != [] {
        var free := pool[t];
        a := free[|free| - 1];
        pool := pool[t := free[..|free| - 1]];
      } else {
        a := nextId;
        nextId := nextId + 1;
        pool := pool[t := []];
      }
      active := active + {a};
    }

    /** `release_animation`: only an active object is taken back, onto the
        free list of the given type. */
    method ReleaseAnimation(t: string, a: AnimId)
      requires Valid()
      modifies this
      ensures Valid() && nextId == old(nextId)
      ensures a !in old(active) ==> active == old(active) && pool == old(pool)
      ensures a in old(active) ==>
                active == old(active) - {a} &&
                pool == old(pool)[t := (if t in old(pool) then old(pool)[t] else []) + [a]]
    {
      if a in active {
        active := active - {a};
        var free := if t in pool then pool[t] else [];
        pool := pool[t := free + [a]];
      }
    }

    /** `cleanup`. */
    method Cleanup()
      modifies this
      ensures Valid() && pool == map[] && active == {} && nextId == old(nextId)
    {
      pool := map[];
      active := {};
    }
  }
}

=== FILE: pet_clipboard.dfy ===
/**
 * The pet's clipboard history: a most-recently-used list of copied texts,
 * duplicate entries moved to the front, capped at ten entries, and the menu
 * labels that show its items.
 *
 * The system clipboard is an input (the text it holds, or a failure to read
 * it), as are the answers to the dialogs; the JSON history file is the
 * `FileRead` given to the constructor.
 */
module PetClipboard {
  import opened Common

  const MaxHistory: nat := 10
  /** Menu labels show this many characters of an item before "...". */
  const MenuWidth: nat := 20
  /** The management dialog shows this many. */
  const ManageWidth: nat := 30
  const EmptyClipboardText: string := "(空)"
  const UnreadableClipboardText: string := "(无法访问剪贴板)"

  predicate NoDup(s: seq<string>)
  {
    forall i, j :: 0 <= i < j < |s| ==> s[i] != s[j]
  }

  /** Position of the first occurrence of `t` in `h`, or `|h|` when there is none. */
  function IndexOf(h: seq<string>, t: string): (i: nat)
    ensures i <= |h|
    ensures i < |h| ==> h[i] == t
    ensures forall j :: 0 <= j < i ==> h[j] != t
    ensures i == |h| <==> t !in h
  {
    if h == [] then 0
    else if h[0] == t then 0
    else 1 + IndexOf(h[1..], t)
  }

  /** `list.remove(t)` when `t in list`: drop the first occurrence. */
  function RemoveFirst(h: seq<string>, t: string): (r: seq<string>)
    ensures t !in h ==> r == h
    ensures t in h ==> |r| == |h| - 1
  {
    var i := IndexOf(h, t);
    if i < |h| then h[..i] + h[i + 1..]
    else h
  }

  /** Exactly one copy of a present text is removed. */
  lemma RemoveFirstMultiset(h: seq<string>, t: string)
    requires t in h
    ensures multiset(RemoveFirst(h, t)) + multiset{t} == multiset(h)
  {
    var i := IndexOf(h, t);
    assert h == h[..i] + [t] + h[i + 1..];
  }

  /** The entries before the first copy keep their places; the ones after it
      move up by one. */
  lemma RemoveFirstPositions(h: seq<string>, t: string)
    requires t in h
    ensures forall k :: 0 <= k < IndexOf(h, t) ==> RemoveFirst(h, t)[k] == h[k]
    ensures forall k :: IndexOf(h, t) <= k < |h| - 1 ==> RemoveFirst(h, t)[k] == h[k + 1]
  {
  }

  /** The history after `add_to_history(t)`. */
  function Added(h: seq<string>, t: string): (r: seq<string>)
    ensures t == "" ==> r == h
    ensures t != "" ==> 1 <= |r| <= MaxHistory && r[0] == t
    ensures t != "" ==> r[1..] <= RemoveFirst(h, t)
    ensures t != "" ==> |r| == if 1 + |RemoveFirst(h, t)| > MaxHistory then MaxHistory else 1 + |RemoveFirst(h, t)|
    ensures t != "" ==> forall x :: x in r ==> x == t || x in h
  {
    if t == "" then h
    else
      var rest := RemoveFirst(h, t);
      assert forall x :: x in rest ==> x in h by {
        if t in h {
          RemoveFirstMultiset(h, t);
          forall x | x in rest ensures x in h {
            assert x in multiset(rest);
          }
        }
      }
      var moved := [t] + rest;
      assert moved[1..] == rest;
      if |moved| > MaxHistory then moved[..MaxHistory] else moved
  }

  /** Removing the only copy of `t` from a duplicate-free history leaves no
      copy behind and no duplicate. */
  lemma RemoveFirstNoDup(h: seq<string>, t: string)
    requires NoDup(h)
    ensures t !in RemoveFirst(h, t) && NoDup(RemoveFirst(h, t))
  {
    var i := IndexOf(h, t);
    if i < |h| {
      var rest := h[..i] + h[i + 1..];
      assert RemoveFirst(h, t) == rest;
      forall k | 0 <= k < |rest| ensures rest[k] != t && rest[k] == h[Skip(k, i)] {
        assert rest[k] == h[Skip(k, i)];
        assert h[i] == t;
      }
      forall a, b | 0 <= a < b < |rest| ensures rest[a] != rest[b] {
        assert Skip(a, i) < Skip(b, i);
      }
    }
  }

  /** The position in the history of the `k`-th entry left after removing position `i`. */
  function Skip(k: nat, i: nat): (k': nat)
    ensures k' != i && (k' < i <==> k < i)
  {
    if k < i then k else k + 1
  }

  /** A duplicate-free history stays duplicate-free. */
  lemma AddedNoDup(h: seq<string>, t: string)
    requires NoDup(h)
    ensures NoDup(Added(h, t))
  {
    if t != "" {
      var rest := RemoveFirst(h, t);
      RemoveFirstNoDup(h, t);
      var moved := [t] + rest;
      assert NoDup(moved) by {
        forall a, b | 0 <= a < b < |moved| ensures moved[a] != moved[b] {
          assert moved[b] == rest[b - 1];
          if a > 0 { assert moved[a] == rest[a - 1]; }
        }
      }
    }
  }

  /** Only the oldest entries are dropped: every entry among the first nine
      survives the addition (moved to the front if it equals `t`). */
  lemma AddedKeepsRecent(h: seq<string>, t: string)
    requires t != ""
    ensures forall j :: 0 <= j < |h| && j < MaxHistory - 1 ==> h[j] in Added(h, t)
  {
    var i := IndexOf(h, t);
    var rest := RemoveFirst(h, t);
    var r := Added(h, t);
    forall j | 0 <= j < |h| && j < MaxHistory - 1 ensures h[j] in r {
      if h[j] != t {
        var k := if j < i then j else j - 1;
        assert rest[k] == h[j];
        assert r[k + 1] == h[j];
      }
    }
  }

  /** What `on_clipboard_change` does with the clipboard's text. */
  function AfterClipboardChange(h: seq<string>, raw: string): (r: seq<string>)
    ensures var text := Strip(raw);
            text != "" && (h == [] || text != h[0]) ==> r == Added(h, text)
    ensures var text := Strip(raw);
            text == "" || (h != [] && text == h[0]) ==> r == h
  {
    var text := Strip(raw);
    if text != "" && (h == [] || text != h[0]) then Added(h, text) else h
  }

  /** The same clipboard content seen twice is recorded once. */
  lemma ClipboardChangeIdempotent(h: seq<string>, raw: string)
    ensures AfterClipboardChange(AfterClipboardChange(h, raw), raw) == AfterClipboardChange(h, raw)
  {
  }

  /** `text[:n] + "..."` when the text is longer than `n`, else the text itself. */
  function Truncated(s: string, n: nat): (r: string)
    ensures |s| <= n ==> r == s
    ensures |s| > n ==> |r| == n + 3 && r[..n] == s[..n] && r[n..] == "..."
  {
    if |s| > n then s[..n] + "..." else s
  }

  /** The disabled entry showing the clipboard: its text, "(空)" when empty,
      or the failure text when it cannot be read; cut at 20 characters. */
  function CurrentLabel(clip: Option<string>): (caption: string)
    ensures clip.None? ==> caption == UnreadableClipboardText
    ensures clip == Some("") ==> caption == EmptyClipboardText
    ensures clip.Some? && clip.value != "" ==> caption == Truncated(clip.value, MenuWidth)
  {
    var text := if clip.None? then UnreadableClipboardText
                else if clip.value == "" then EmptyClipboardText
                else clip.value;
    Truncated(text, MenuWidth)
  }

  /** The numbered entry `"{i+1}. {item[:n]}..."`. */
  function ItemLabel(i: nat, item: string, n: nat): (caption: string)
    ensures var d := DecimalString(i + 1);
            |caption| == |d| + 2 + |Truncated(item, n)| &&
            caption[..|d|] == d && caption[|d|..|d| + 2] == ". " && caption[|d| + 2..] == Truncated(item, n)
  {
    DecimalString(i + 1) + ". " + Truncated(item, n)
  }

  /** The history part of the menu: one numbered label per entry among the first ten. */
  function HistoryMenu(h: seq<string>): (labels: seq<string>)
    ensures |labels| == if |h| < MaxHistory then |h| else MaxHistory
    ensures forall i :: 0 <= i < |labels| ==> labels[i] == ItemLabel(i, h[i], MenuWidth)
  {
    var shown := if |h| < MaxHistory then h else h[..MaxHistory];
    seq(|shown|, i requires 0 <= i < |shown| => ItemLabel(i, shown[i], MenuWidth))
  }

  class Clipboard {
    var history: seq<string>

    /** `__init__` followed by `load_history`. */
    constructor (stored: FileRead<seq<string>>)
      ensures history == if stored.Read? then stored.content else []
    {
      history := [];
      new;
      LoadHistory(stored);
    }

    /** `load_history`: the file's list replaces the history; a missing or
        unreadable file leaves it as it was. */
    method LoadHistory(stored: FileRead<seq<string>>)
      modifies this
      ensures history == if stored.Read? then stored.content else old(history)
    {
      if stored.Read? {
        history := stored.content;
      }
    }

    /** `add_to_history`. */
    method AddToHistory(text: string)
      modifies this
      ensures history == Added(old(history), text)
    {
      if text == "" {
        return;
      }
      var i := IndexOf(history, text);
      if i < |history| {
        history := history[..i] + history[i + 1..];
      }
      history := [text] + history;
      if |history| > MaxHistory {
        history := history[..MaxHistory];
      }
    }

    /** `on_clipboard_change`: `clip` is what the clipboard holds. */
    method OnClipboardChange(clip: string)
      modifies this
      ensures history == AfterClipboardChange(old(history), clip)
    {
      var text := Strip(clip);
      if text != "" && (history == [] || text != history[0]) {
        AddToHistory(text);
      }
    }

    /** `manage_history`: `choice` is the row picked in the dialog, or None
        when it was cancelled. */
    method ManageHistory(choice: Option<nat>)
      requires choice.Some? ==> choice.value < |history|
      modifies this
      ensures choice.None? ==> history == old(history)
      ensures choice.Some? ==>
                |history| == |old(history)| - 1 &&
                history[..choice.value] == old(history)[..choice.value] &&
                history[choice.value..] == old(history)[choice.value + 1..]
    {
      if choice.Some? {
        var i := choice.value;
        history := history[..i] + history[i + 1..];
      }
    }

    /** `clear_history`: empties the history only when confirmed. */
    method ClearHistory(confirmed: bool)
      modifies this
      ensures confirmed ==> history == []
      ensures !confirmed ==> history == old(history)
    {
      if confirmed {
        history := [];
      }
    }

    /** The labels `manage_history` offers, one per entry. */
    function ManageLabels(): (labels: seq<string>)
      reads this
      ensures |labels| == |history|
      ensures forall i :: 0 <= i < |labels| ==> labels[i] == ItemLabel(i, history[i], ManageWidth)
    {
      seq(|history|, i requires 0 <= i < |history| reads this => ItemLabel(i, history[i], ManageWidth))
    }
  }
}

=== FILE: pet_input.dfy ===
/**
 * The chat input beside the pet: the transcript of the current
 * conversation, its identifier, the text `save_conversation` writes for it,
 * and the visibility of the input and response boxes with the window size
 * that follows from them.
 *
 * The clock is a parameter (`now`, the integer seconds `int(time.time())`
 * would give); the widget heights are fields fixed at construction.
 */
module PetInput {
  import opened Common

  const UserRole: string := "user"
  const AssistantRole: string := "assistant"
  /** The width the window never goes below. */
  const MinWidth: int := 200
  /** Space added under each visible box. */
  const BoxGap: int := 10

  /** One transcript entry: a role and its text. */
  datatype Turn = Turn(role: string, text: string)

  /** The block `save_conversation` writes for one entry. */
  function Block(t: Turn): (b: string)
    ensures |b| == |t.role| + |t.text| + 4
    ensures b[..|t.role|] == t.role && b[|t.role|..|t.role| + 2] == ": "
    ensures b[|b| - 2..] == "\n\n"
  {
    t.role + ": " + t.text + "\n\n"
  }

  /** The file text: the entries' blocks in order. */
  function TranscriptText(ts: seq<Turn>): string
  {
    if ts == [] then "" else TranscriptText(ts[..|ts| - 1]) + Block(ts[|ts| - 1])
  }

  /** The text of a longer conversation extends the text of its beginning. */
  lemma {:induction false} TranscriptTextAppend(a: seq<Turn>, b: seq<Turn>)
    ensures TranscriptText(a + b) == TranscriptText(a) + TranscriptText(b)
    decreases |b|
  {
    if b == [] {
      assert a + b == a;
    } else {
      var b' := b[..|b| - 1];
      var last := b[|b| - 1];
      assert (a + b)[..|a + b| - 1] == a + b';
      assert (a + b)[|a + b| - 1] == last;
      assert TranscriptText(a + b) == TranscriptText(a + b') + Block(last);
      TranscriptTextAppend(a, b');
      assert TranscriptText(b) == TranscriptText(b') + Block(last);
    }
  }

  /** Each entry contributes its role, ": ", its text and a blank line, and nothing else. */
  lemma {:induction false} TranscriptTextLength(ts: seq<Turn>)
    ensures |TranscriptText(ts)| == TextSize(ts)
  {
    if ts != [] {
      TranscriptTextLength(ts[..|ts| - 1]);
    }
  }

  function TextSize(ts: seq<Turn>): nat
  {
    if ts == [] then 0 else TextSize(ts[..|ts| - 1]) + |ts[|ts| - 1].role| + |ts[|ts| - 1].text| + 4
  }

  /** The window height: the image plus each visible box and its gap. */
  function WindowHeight(imageH: int, inputH: int, responseH: int, inputVisible: bool, responseVisible: bool): (h: int)
    ensures !inputVisible && !responseVisible ==> h == imageH
    ensures inputVisible && responseVisible ==> h == imageH + inputH + responseH + 2 * BoxGap
  {
    imageH + (if inputVisible then inputH + BoxGap else 0) + (if responseVisible then responseH + BoxGap else 0)
  }

  /** `if not self.current_conversation_id`: no identifier yet (`None` or 0). */
  predicate Unset(id: Option<int>)
  {
    id.None? || id.value == 0
  }

  class ChatInput {
    var transcript: seq<Turn>
    var conversationId: Option<int>
    var inputVisible: bool
    var responseVisible: bool
    var responseText: string
    /** The pet widget's size. */
    var width: int
    var height: int
    const imageH: int
    const inputH: int
    const responseH: int

    /** The window has been sized for the visible boxes. */
    ghost predicate Valid()
      reads this
    {
      width >= MinWidth && height == WindowHeight(imageH, inputH, responseH, inputVisible, responseVisible)
    }

    /** `__init__`: both boxes hidden, no transcript and no identifier. The
        window starts at the given size until the first adjustment. */
    constructor (imageH: int, inputH: int, responseH: int, width: int, height: int)
      ensures transcript == [] && conversationId == None
      ensures !inputVisible && !responseVisible && responseText == ""
      ensures this.width == width && this.height == height
      ensures this.imageH == imageH && this.inputH == inputH && this.responseH == responseH
    {
      this.imageH, this.inputH, this.responseH := imageH, inputH, responseH;
      this.width, this.height := width, height;
      transcript := [];
      conversationId := None;
      inputVisible, responseVisible := false, false;
      responseText := "";
    }

    /** `adjust_window_size` (the later definition, the one in effect). */
    method AdjustWindowSize()
      modifies this
      ensures Valid()
      ensures width == if old(width) < MinWidth then MinWidth else old(width)
      ensures transcript == old(transcript) && conversationId == old(conversationId)
      ensures inputVisible == old(inputVisible) && responseVisible == old(responseVisible)
      ensures responseText == old(responseText)
    {
      var h := imageH;
      if inputVisible {
        h := h + inputH + BoxGap;
      }
      if responseVisible {
        h := h + responseH + BoxGap;
      }
      width := if width < MinWidth then MinWidth else width;
      height := h;
    }

    method ShowInput()
      modifies this
      ensures Valid() && inputVisible && responseVisible == old(responseVisible)
      ensures transcript == old(transcript) && conversationId == old(conversationId)
      ensures responseText == old(responseText)
      ensures width == if old(width) < MinWidth then MinWidth else old(width)
    {
      inputVisible := true;
      AdjustWindowSize();
    }

    /** `hide_input`: both boxes go, and the window shrinks to the image. */
    method HideInput()
      modifies this
      ensures Valid() && !inputVisible && !responseVisible && height == imageH
      ensures transcript == old(transcript) && conversationId == old(conversationId)
      ensures responseText == old(responseText)
      ensures width == if old(width) < MinWidth then MinWidth else old(width)
    {
      inputVisible := false;
      responseVisible := false;
      AdjustWindowSize();
    }

    /** `toggle_input`: show the input box if hidden, otherwise hide both boxes. */
    method ToggleInput()
      modifies this
      ensures Valid() && inputVisible == !old(inputVisible)
      ensures responseVisible == (old(responseVisible) && !old(inputVisible))
      ensures transcript == old(transcript) && conversationId == old(conversationId)
      ensures responseText == old(responseText)
      ensures width == if old(width) < MinWidth then MinWidth else old(width)
    {
      if !inputVisible {
        ShowInput();
      } else {
        HideInput();
      }
    }

    /** `add_user_input`. */
    method AddUserInput(text: string, now: int)
      modifies this
      ensures transcript == old(transcript) + [Turn(UserRole, text)]
      ensures conversationId == if Unset(old(conversationId)) then Some(now) else old(conversationId)
      ensures inputVisible == old(inputVisible) && responseVisible == old(responseVisible)
      ensures width == old(width) && height == old(height) && responseText == old(responseText)
    {
      if Unset(conversationId) {
        conversationId := Some(now);
      }
      transcript := transcript + [Turn(UserRole, text)];
    }

    /** `show_response`: the text is shown and recorded, then the
        conversation is saved; returns the text the save produces. */
    method ShowResponse(text: string, now: int) returns (saved: Option<string>)
      modifies this
      ensures Valid()
      ensures transcript == old(transcript) + [Turn(AssistantRole, text)]
      ensures conversationId == if Unset(old(conversationId)) then Some(now) else old(conversationId)
      ensures responseText == text && responseVisible && inputVisible == old(inputVisible)
      ensures saved == Some(TranscriptText(transcript))
      ensures width == if old(width) < MinWidth then MinWidth else old(width)
    {
      if Unset(conversationId) {
        conversationId := Some(now);
      }
      responseText := text;
      responseVisible := true;
      AdjustWindowSize();
      transcript := transcript + [Turn(AssistantRole, text)];
      saved := SaveConversation();
    }

    /** The text `save_conversation` writes: nothing for an empty transcript,
        otherwise every entry's block in order. */
    method SaveConversation() returns (saved: Option<string>)
      ensures transcript == [] ==> saved == None
      ensures transcript != [] ==> saved == Some(TranscriptText(transcript))
    {
      if transcript == [] {
        return None;
      }
      var text := "";
      var i := 0;
      while i < |transcript|
        invariant 0 <= i <= |transcript|
        invariant text == TranscriptText(transcript[..i])
      {
        assert transcript[..i + 1][..i] == transcript[..i];
        text := text + transcript[i].role + ": " + transcript[i].text + "\n\n";
        i := i + 1;
      }
      assert transcript[..i] == transcript;
      saved := Some(text);
    }
  }
}

=== FILE: pet_notes.dfy ===
/**
 * The pet's notes: an insertion-ordered dictionary from title to text, the
 * rules under which the edit dialog stores a note, clearing all notes, and
 * the notes menu.
 *
 * The dictionary is a sequence of (title, text) pairs with distinct titles,
 * in the order Python's `dict` keeps them. The JSON file is the field
 * `file`: the pairs `save_notes` last wrote, or `None` when there is no file.
 * Dialog outcomes are parameters.
 */
module PetNotes {
  import opened Common

  /** A Python `dict` from title to text, in insertion order. */
  type Dict = seq<(string, string)>

  function Titles(d: Dict): (ts: seq<string>)
    ensures |ts| == |d| && forall i :: 0 <= i < |d| ==> ts[i] == d[i].0
  {
    seq(|d|, i requires 0 <= i < |d| => d[i].0)
  }

  predicate TitlesDistinct(d: Dict)
  {
    forall i, j :: 0 <= i < j < |d| ==> d[i].0 != d[j].0
  }

  /** Position of the pair with title `k`, or `|d|` when there is none. */
  function Find(d: Dict, k: string): (i: nat)
    ensures i <= |d|
    ensures i < |d| ==> d[i].0 == k
    ensures forall j :: 0 <= j < i ==> d[j].0 != k
  {
    if d == [] then 0
    else if d[0].0 == k then 0
    else 1 + Find(d[1..], k)
  }

  /** `d.get(k)`. */
  function Get(d: Dict, k: string): (r: Option<string>)
    ensures r.None? <==> forall i :: 0 <= i < |d| ==> d[i].0 != k
    ensures r.Some? ==> (k, r.value) in d
    ensures r.Some? && TitlesDistinct(d) ==> forall i :: 0 <= i < |d| && d[i].0 == k ==> d[i].1 == r.value
  {
    var i := Find(d, k);
    if i < |d| then Some(d[i].1) else None
  }

  /** `d[k] = v`: an existing title keeps its place, a new one goes last. */
  function Put(d: Dict, k: string, v: string): (r: Dict)
    ensures Get(r, k) == Some(v)
    ensures forall k' :: k' != k ==> Get(r, k') == Get(d, k')
    ensures Get(d, k).Some? ==> Titles(r) == Titles(d)
    ensures Get(d, k).None? ==> Titles(r) == Titles(d) + [k]
    ensures TitlesDistinct(d) ==> TitlesDistinct(r)
  {
    var i := Find(d, k);
    if i < |d| then
      var r := d[i := (k, v)];
      FindFirst(r, k, i);
      assert forall k' :: k' != k ==> Get(r, k') == Get(d, k') by {
        forall k' | k' != k ensures Get(r, k') == Get(d, k') {
          FindUnchanged(d, r, k', i);
        }
      }
      r
    else
      var r := d + [(k, v)];
      FindFirst(r, k, |d|);
      assert forall k' :: k' != k ==> Get(r, k') == Get(d, k') by {
        forall k' | k' != k ensures Get(r, k') == Get(d, k') {
          FindUnchanged(d, r, k', |d|);
        }
      }
      r
  }

  lemma {:induction false} FindFirst(d: Dict, k: string, i: nat)
    requires i < |d| && d[i].0 == k && forall j :: 0 <= j < i ==> d[j].0 != k
    ensures Find(d, k) == i
  {
    if i > 0 {
      FindFirst(d[1..], k, i - 1);
    }
  }

  /** Changing or adding the pair at position `i` (whose title is not `k`)
      does not move `k`. */
  lemma {:induction false} FindUnchanged(d: Dict, r: Dict, k: string, i: nat)
    requires i <= |d| && |r| == |d| + (if i == |d| then 1 else 0)
    requires forall j :: 0 <= j < |d| && j != i ==> r[j] == d[j]
    requires r[i].0 != k && (i < |d| ==> d[i].0 != k)
    ensures Find(d, k) < |d| ==> Find(r, k) == Find(d, k)
    ensures Find(d, k) == |d| ==> Find(r, k) == |r|
    ensures Get(r, k) == Get(d, k)
    decreases |d|
  {
    if d != [] && d[0].0 != k {
      if i == 0 {
        assert r[1..] == d[1..] by {
          forall j | 0 <= j < |d| - 1 ensures r[1..][j] == d[1..][j] { assert r[j + 1] == d[j + 1]; }
        }
      } else {
        FindUnchanged(d[1..], r[1..], k, i - 1);
      }
    } else if d == [] {
      assert r[0].0 != k;
    } else {
      assert r[0] == d[0] || i == 0;
    }
  }

  /** `json.load` of an object: the members in file order, a repeated title
      keeping its first place and its last text. */
  function FromPairs(ps: seq<(string, string)>): (d: Dict)
    ensures TitlesDistinct(d)
  {
    if ps == [] then []
    else
      var last := ps[|ps| - 1];
      Put(FromPairs(ps[..|ps| - 1]), last.0, last.1)
  }

  /** What `save_notes` writes is read back as the same dictionary. */
  lemma {:induction false} SaveLoadRoundTrip(d: Dict)
    requires TitlesDistinct(d)
    ensures FromPairs(d) == d
  {
    if d != [] {
      var init := d[..|d| - 1];
      var last := d[|d| - 1];
      SaveLoadRoundTrip(init);
      assert Find(init, last.0) == |init|;
      assert init + [last] == d;
    }
  }

  /** An entry of the notes menu. */
  datatype MenuEntry = NewNote | EditNote(title: string) | ClearAll

  /** `show_notes_menu`: "new note", then one edit entry per title in order
      and the clear entry, the last two only when there are notes. */
  function NotesMenu(d: Dict): (m: seq<MenuEntry>)
    ensures |m| >= 1 && m[0] == NewNote
    ensures d == [] ==> m == [NewNote]
    ensures d != [] ==> |m| == |d| + 2 && m[|m| - 1] == ClearAll &&
                        forall i :: 0 <= i < |d| ==> m[i + 1] == EditNote(d[i].0)
    ensures ClearAll in m <==> d != []
  {
    if d == [] then [NewNote]
    else [NewNote] + seq(|d|, i requires 0 <= i < |d| => EditNote(d[i].0)) + [ClearAll]
  }

  /** `note_key` as the dialog tests it: `None` and the empty title both mean a new note. */
  predicate IsNewNote(noteKey: Option<string>)
  {
    noteKey.None? || noteKey.value == ""
  }

  /** The title under which an accepted dialog stores its text, if any: the
      edited note's own title, or for a new note the title typed in (`None`
      when that dialog was cancelled or left empty). */
  function TargetTitle(noteKey: Option<string>, titleAnswer: Option<string>): (t: Option<string>)
    ensures !IsNewNote(noteKey) ==> t == noteKey
    ensures IsNewNote(noteKey) ==> (t.Some? <==> titleAnswer.Some? && titleAnswer.value != "")
    ensures t.Some? ==> t.value != ""
    ensures IsNewNote(noteKey) && t.Some? ==> t == titleAnswer
  {
    if !IsNewNote(noteKey) then noteKey
    else if titleAnswer.Some? && titleAnswer.value != "" then titleAnswer
    else None
  }

  class Notes {
    var notes: Dict
    /** The pairs of the notes file as last read or written, or `None`.
        `None` covers a missing file, an unreadable one and a file removed by
        clearing. The field records only a readable file, so it does not say
        whether a file exists. */
    var file: Option<seq<(string, string)>>

    ghost predicate Valid()
      reads this
    {
      TitlesDistinct(notes)
    }

    /** `__init__`: empty, then `load_notes`. `file` records the pairs only
        when the file could be read; a missing file and an unreadable one
        both give `None`. */
    constructor (stored: FileRead<seq<(string, string)>>)
      ensures Valid()
      ensures notes == if stored.Read? then FromPairs(stored.content) else []
      ensures file == if stored.Read? then Some(stored.content) else None
    {
      notes := [];
      file := if stored.Read? then Some(stored.content) else None;
      new;
      LoadNotes(stored);
    }

    /** `load_notes`: no file leaves the notes as they are; a read error
        resets them to empty. */
    method LoadNotes(stored: FileRead<seq<(string, string)>>)
      requires Valid()
      modifies this
      ensures Valid() && file == old(file)
      ensures stored.NoFile? ==> notes == old(notes)
      ensures stored.ReadFailed? ==> notes == []
      ensures stored.Read? ==> notes == FromPairs(stored.content)
    {
      match stored
      case NoFile =>
      case ReadFailed(_) => notes := [];
      case Read(ps) => notes := FromPairs(ps);
    }

    /** `save_notes`. */
    method SaveNotes()
      modifies this
      ensures file == Some(notes) && notes == old(notes)
    {
      file := Some(notes);
    }

    /** The text the dialog opens with: the note's text when editing an existing note. */
    function InitialText(noteKey: Option<string>): (t: string)
      reads this
      ensures !IsNewNote(noteKey) && Get(notes, noteKey.value).Some? ==> t == Get(notes, noteKey.value).value
      ensures IsNewNote(noteKey) || Get(notes, noteKey.value).None? ==> t == ""
    {
      if !IsNewNote(noteKey) && Get(notes, noteKey.value).Some? then Get(notes, noteKey.value).value else ""
    }

    /** `show_note_dialog(note_key)`: `accepted` is the dialog's outcome,
        `content` the edited text and `titleAnswer` what the title prompt
        returned for a new note (`None` when cancelled). The note is stored,
        and the file written, only when the stripped text is non-empty and a
        title is known. */
    method ShowNoteDialog(noteKey: Option<string>, accepted: bool, content: string, titleAnswer: Option<string>)
      requires Valid()
      modifies this
      ensures Valid()
      ensures var t := TargetTitle(noteKey, titleAnswer);
              if accepted && Strip(content) != "" && t.Some?
              then notes == Put(old(notes), t.value, Strip(content)) && file == Some(notes)
              else notes == old(notes) && file == old(file)
    {
      if !accepted {
        return;
      }
      var text := Strip(content);
      if text == "" {
        return;
      }
      var key := noteKey;
      if IsNewNote(key) {
        key := titleAnswer;
        if key.None? || key.value == "" {
          return;
        }
      }
      notes := Put(notes, key.value, text);
      SaveNotes();
    }

    /** `clear_all_notes`: on Yes the notes are emptied and the file removed. */
    method ClearAllNotes(yes: bool)
      modifies this
      ensures yes ==> notes == [] && file == None
      ensures !yes ==> notes == old(notes) && file == old(file)
    {
      if yes {
        notes := [];
        file := None;
      }
    }

    function Menu(): (m: seq<MenuEntry>)
      reads this
      ensures m == NotesMenu(notes)
    {
      NotesMenu(notes)
    }
  }
}

=== FILE: pet_time_display.dfy ===
/**
 * The clock and countdown label shown above the pet: the countdown's
 * seconds counter and its mm:ss rendering, the flags that decide whether the
 * label shows the clock or the countdown, the label's position, and the
 * `[TimeDisplay] enabled` setting kept in an INI file.
 *
 * Timers are not modelled: each timeout is a call of `UpdateCountdown` or
 * `UpdateTime`, and the wall-clock text is a parameter of the latter.
 */
module PetTimeDisplay {
  import opened Common

  const CountdownPrefix: string := "倒计时\n"
  const CountdownOverText: string := "倒计时结束！"
  const WarningSeconds: int := 10
  const LabelWidth: int := 300
  const LabelHeight: int := 70
  const LabelGap: int := 5
  const Section: string := "TimeDisplay"
  const EnabledKey: string := "enabled"

  /** The label's style sheet: normal, the last-ten-seconds warning, finished. */
  datatype Style = White | Blue | Red

  /** `f"倒计时\n{mins:02d}:{secs:02d}"` with `mins, secs = divmod(seconds, 60)`. */
  function CountdownText(seconds: nat): (t: string)
    ensures |t| >= |CountdownPrefix| + 5 && t[..|CountdownPrefix|] == CountdownPrefix
  {
    CountdownPrefix + Pad2(seconds / 60) + ":" + Pad2(seconds % 60)
  }

  /** Reads a countdown text back: the prefix, two digits, a colon and two
      digits of seconds below 60. */
  function ReadCountdown(t: string): Option<nat>
  {
    var n := |CountdownPrefix|;
    if |t| == n + 5 && t[..n] == CountdownPrefix && t[n + 2] == ':'
       && IsDigit(t[n]) && IsDigit(t[n + 1]) && IsDigit(t[n + 3]) && IsDigit(t[n + 4])
    then
      var mm := DecimalValue(t[n..n + 2]);
      var ss := DecimalValue(t[n + 3..n + 5]);
      if ss < 60 then Some(60 * mm + ss) else None
    else None
  }

  /** Below 100 minutes the label shows exactly the remaining time. */
  lemma CountdownTextRoundTrip(seconds: nat)
    requires seconds < 6000
    ensures ReadCountdown(CountdownText(seconds)) == Some(seconds)
  {
    var n := |CountdownPrefix|;
    var mm := Pad2(seconds / 60);
    var ss := Pad2(seconds % 60);
    var t := CountdownText(seconds);
    assert t == CountdownPrefix + mm + ":" + ss;
    assert |mm| == 2 && |ss| == 2;
    assert t[n..n + 2] == mm;
    assert t[n + 3..n + 5] == ss;
    assert t[n + 2] == ':';
    assert IsDigit(t[n]) && IsDigit(t[n + 1]) by { assert t[n] == mm[0] && t[n + 1] == mm[1]; }
    assert IsDigit(t[n + 3]) && IsDigit(t[n + 4]) by { assert t[n + 3] == ss[0] && t[n + 4] == ss[1]; }
  }

  /** The label's top-left corner: centred above the pet, `LabelGap` pixels up.
      The halving is Python's floor division. */
  function LabelPosition(petX: int, petY: int, parentW: int, labelW: int, labelH: int): (p: (int, int))
    ensures 0 <= (parentW - labelW) - 2 * (p.0 - petX) <= 1
    ensures p.1 + labelH + LabelGap == petY
  {
    (petX + (parentW - labelW) / 2, petY - labelH - LabelGap)
  }

  // ---------------------------------------------------------------------
  // The INI setting
  // ---------------------------------------------------------------------

  /** `str(bool)`. */
  function BoolText(b: bool): (r: string)
    ensures b <==> r == "True"
    ensures !b <==> r == "False"
  {
    if b then "True" else "False"
  }

  /** `ConfigParser.getboolean`: the accepted words, in any case; anything
      else is an error (`None`). */
  function ParseBool(v: string): (r: Option<bool>)
    ensures r == Some(true) <==> Lower(v) in {"1", "yes", "true", "on"}
    ensures r == Some(false) <==> Lower(v) in {"0", "no", "false", "off"}
  {
    var w := Lower(v);
    if w in {"1", "yes", "true", "on"} then Some(true)
    else if w in {"0", "no", "false", "off"} then Some(false)
    else None
  }

  /** What `save_state` writes is read back by `load_state` as the same flag. */
  lemma BoolTextRoundTrip(b: bool)
    ensures ParseBool(BoolText(b)) == Some(b)
  {
    assert Lower("True") == "true";
    assert Lower("False") == "false";
  }

  /** An INI file: section name to option name to value. */
  type IniFile = map<string, map<string, string>>

  /** The flag `load_state` leaves: unchanged without a file or without the
      section; false when the file cannot be parsed (`ReadFailed`), and for a
      missing option or a value `getboolean` rejects. A file that exists but
      cannot be opened is skipped by `ConfigParser.read`, so it reads as a
      file without the section (`Read` of an empty INI file). */
  function LoadedEnabled(stored: FileRead<IniFile>, enabled: bool): (e: bool)
    ensures stored.NoFile? ==> e == enabled
    ensures stored.ReadFailed? ==> !e
    ensures stored.Read? && Section !in stored.content ==> e == enabled
    ensures stored.Read? && Section in stored.content ==>
              (e <==> EnabledKey in stored.content[Section] && ParseBool(stored.content[Section][EnabledKey]) == Some(true))
  {
    match stored
    case NoFile => enabled
    case ReadFailed(_) => false
    case Read(ini) =>
      if Section !in ini then enabled
      else if EnabledKey !in ini[Section] then false
      else
        var parsed := ParseBool(ini[Section][EnabledKey]);
        parsed.Some? && parsed.value
  }

  // ---------------------------------------------------------------------
  // The display object
  // ---------------------------------------------------------------------

  /** The display's fields as one value, so that a caller can state the
      display's whole new state. */
  datatype DisplayState = DisplayState(enabled: bool, countdownActive: bool, timerRunning: bool, seconds: int,
                                       text: string, style: Style, labelVisible: bool, saved: Option<IniFile>)

  /** The state after `set_visible(visible)`. */
  function MadeVisible(d: DisplayState, visible: bool, clock: string): DisplayState
  {
    d.(enabled := visible, labelVisible := visible,
       text := if visible && !d.countdownActive then clock else d.text,
       saved := Some(map[Section := map[EnabledKey := BoolText(visible)]]))
  }

  class TimeDisplay {
    var enabled: bool
    var countdownActive: bool
    /** Whether `countdown_timer` is running. */
    var timerRunning: bool
    var seconds: int
    var text: string
    var style: Style
    var labelVisible: bool
    /** The INI file as `save_state` last wrote it. */
    var saved: Option<IniFile>

    function Snapshot(): DisplayState
      reads this
    {
      DisplayState(enabled, countdownActive, timerRunning, seconds, text, style, labelVisible, saved)
    }

    /** While a countdown is active the label shows the remaining time, in
        the warning colour exactly for the last ten seconds. */
    ghost predicate Shown()
      reads this
    {
      countdownActive ==>
        && seconds >= 0
        && text == CountdownText(seconds)
        && (style == Blue <==> seconds <= WarningSeconds)
    }

    /** ... and its timer runs. */
    ghost predicate Valid()
      reads this
    {
      Shown() && (countdownActive ==> timerRunning)
    }

    constructor ()
      ensures Valid()
      ensures !enabled && !countdownActive && !timerRunning && seconds == 0
      ensures text == "" && style == White && !labelVisible && saved == None
    {
      enabled := false;
      countdownActive := false;
      timerRunning := false;
      seconds := 0;
      text := "";
      style := White;
      labelVisible := false;
      saved := None;
    }

    /** `update_time`: the clock is written only when enabled and no countdown runs. */
    method UpdateTime(clock: string)
      modifies this
      ensures old(Valid()) ==> Valid()
      ensures text == if enabled && !countdownActive then clock else old(text)
      ensures enabled == old(enabled) && countdownActive == old(countdownActive) && timerRunning == old(timerRunning)
      ensures seconds == old(seconds) && style == old(style) && labelVisible == old(labelVisible) && saved == old(saved)
    {
      if enabled && !countdownActive {
        text := clock;
      }
    }

    /** `update_countdown`: one tick. */
    method UpdateCountdown()
      modifies this
      ensures Shown()
      ensures old(countdownActive ==> timerRunning) ==> Valid()
      ensures old(seconds) > 0 ==>
                seconds == old(seconds) - 1 && text == CountdownText(seconds) &&
                style == (if seconds <= WarningSeconds then Blue else White) &&
                countdownActive == old(countdownActive) && timerRunning == old(timerRunning)
      ensures old(seconds) <= 0 ==>
                seconds == old(seconds) && !countdownActive && !timerRunning &&
                text == CountdownOverText && style == Red
      ensures enabled == old(enabled) && labelVisible == old(labelVisible) && saved == old(saved)
    {
      if seconds > 0 {
        seconds := seconds - 1;
        text := CountdownText(seconds);
        style := if seconds <= WarningSeconds then Blue else White;
      } else {
        timerRunning := false;
        countdownActive := false;
        text := CountdownOverText;
        style := Red;
      }
    }

    /** `start_countdown`: any running countdown is replaced, the first tick
        happens at once and the timer is (re)started. */
    method StartCountdown(minutes: int)
      requires Valid()
      modifies this
      ensures Valid() && timerRunning
      ensures minutes > 0 ==>
                countdownActive && seconds == minutes * 60 - 1 && text == CountdownText(seconds) &&
                style == (if seconds <= WarningSeconds then Blue else White)
      ensures minutes <= 0 ==>
                !countdownActive && seconds == minutes * 60 && text == CountdownOverText && style == Red
      ensures enabled == old(enabled) && labelVisible == old(labelVisible) && saved == old(saved)
    {
      countdownActive := true;
      timerRunning := false;
      seconds := minutes * 60;
      UpdateCountdown();
      timerRunning := true;
    }

    /** `restore_normal_display`, three seconds after a countdown ends: the
        style goes back to white whatever runs now. A countdown started in
        those three seconds has at least 57 seconds left, so it is not in
        its warning colour and the display stays consistent. */
    method RestoreNormalDisplay(clock: string)
      requires Valid()
      modifies this
      ensures old(countdownActive ==> seconds > WarningSeconds) ==> Valid()
      ensures style == White
      ensures text == if enabled && !countdownActive then clock else old(text)
      ensures enabled == old(enabled) && countdownActive == old(countdownActive) && timerRunning == old(timerRunning)
      ensures seconds == old(seconds) && labelVisible == old(labelVisible) && saved == old(saved)
    {
      style := White;
      UpdateTime(clock);
    }

    /** `save_state`. */
    method SaveState()
      modifies this
      ensures saved == Some(map[Section := map[EnabledKey := BoolText(enabled)]])
      ensures enabled == old(enabled) && countdownActive == old(countdownActive) && timerRunning == old(timerRunning)
      ensures seconds == old(seconds) && text == old(text) && style == old(style) && labelVisible == old(labelVisible)
    {
      saved := Some(map[Section := map[EnabledKey := BoolText(enabled)]]);
    }

    /** `load_state`. */
    method LoadState(stored: FileRead<IniFile>)
      modifies this
      ensures enabled == LoadedEnabled(stored, old(enabled))
      ensures countdownActive == old(countdownActive) && timerRunning == old(timerRunning) && seconds == old(seconds)
      ensures text == old(text) && style == old(style) && labelVisible == old(labelVisible) && saved == old(saved)
    {
      enabled := LoadedEnabled(stored, enabled);
    }

    /** `set_visible`: record the flag, show or hide the label, write the setting. */
    method SetVisible(visible: bool, clock: string)
      requires Valid()
      modifies this
      ensures Valid()
      ensures enabled == visible && labelVisible == visible
      ensures text == if visible && !countdownActive then clock else old(text)
      ensures saved == Some(map[Section := map[EnabledKey := BoolText(visible)]])
      ensures countdownActive == old(countdownActive) && timerRunning == old(timerRunning)
      ensures seconds == old(seconds) && style == old(style)
      ensures Snapshot() == MadeVisible(old(Snapshot()), visible, clock)
    {
      enabled := visible;
      labelVisible := visible;
      if visible {
        UpdateTime(clock);
      }
      SaveState();
    }
  }

  /** Saving the flag and loading it back restores it. */
  lemma SaveLoadRoundTrip(enabled: bool, before: bool)
    ensures LoadedEnabled(Read(map[Section := map[EnabledKey := BoolText(enabled)]]), before) == enabled
  {
    BoolTextRoundTrip(enabled);
  }
}
